=== FILE: README.md ===
# GridAnalytics core in Dafny

GridAnalytics is the REST backend of an electrical cooperative. It compares the
energy the cooperative **buys** at each purchase point (*boca*) with the energy it
**sells** to the customers behind that point, month by month, and reports the
loss. This project models the logic at the heart of that backend:

- **Period arithmetic** (`Period`, `ServicePeriod`, `Proration`):
  - `YYYY-MM` month keys and `YYYY-MM_YYYY-MM` bimestre keys;
  - day counts, next and previous month, month ranges;
  - the day-weighted split of a two-month (bimestral) sale into its months;
  - the loss percentage and the four loss tiers (normal, moderada, alta, critica).
  - The analytics service re-implements some of these helpers by other means. `ServicePeriod` models those copies and proves that they agree with the originals.
- **Balances** (`Balance`, `General`):
  - the purchase balance, and the sales balance, which merges prorated bimestral sales into the monthly ones;
  - the general balance: the outer join of the two per (boca, month), with the loss fields recomputed and the rows sorted.
- **Reports** (`Reports`, `Controller`):
  - the month summary, the top-loss ranking, the generated alerts and the loss analysis;
  - the request checks the controller adds (`periodo` format, `limite` bounds), its statistics blocks and its `meta` totals.
- **Ingestion validators** (`Csv`): the period format checks, bimestre parsing, supply-number and free-text normalisation, coordinates, lenient booleans, the accumulate-errors validation result and the meter-reading check.
- **Middlewares**:
  - `RateLimit`: the fixed-window rate limiter per client IP and per API key;
  - `Auth`: the Bearer / API-key authentication and the role, scope and combined permission gates;
  - `Errors`: the global error handler's status mapping and the custom error classes.

Every operation is a pure function over immutable data:
- A thrown `Error` becomes the `Err` case of a `Result`.
- A JavaScript `Map` or a `findIndex`-then-update becomes an insertion-ordered list updated by `Balance.Upsert`.
- `Number(x.toFixed(2))` is `Rounding.Round2`, which rounds halves away from zero on exact reals.
- Database query results are inputs.
- Calls into code outside the model are function parameters:
  - `jwt.verify` is `verify`;
  - the API-key lookup is `lookup`;
  - the customer count of a boca is `usuarios`;
  - number-to-text conversion is `numberText`.
- The clock reading of the rate limiter is the parameter `now`.

Amounts, kWh and percentages are `real`. Strings are `seq<char>`. JavaScript's `<` and `>=` on strings are code-unit lexicographic order (`Strings.LexLe`). The balance sorts use `localeCompare`, which the model also reads as code-unit order; that agrees with the real collation only on keys of digits and upper-case letters (see "## Left out").

## Model

| member | source | states |
|---|---|---|
| Period.GetDaysInMonth | src/utils/period.ts:4-6 | a month has 28 to 31 days; February has 29 exactly in Gregorian leap years |
| Period.YearLength | src/utils/period.ts:4-6 | the twelve month lengths add up to 366 in a leap year and 365 otherwise |
| Period.ValidByOrdinal | src/utils/period.ts:9-15 | a well-formed month is valid exactly when it lies between January 2020 and December 2030 on the calendar line |
| Period.MonthLexIsCalendarOrder | src/modules/analytics/service.ts:218 | on real `YYYY-MM` keys, JavaScript string comparison is calendar order, so the range filter on strings filters by date |
| Period.BimestreToMensual | src/utils/period.ts:27-34 | fails exactly on invalid bimestres; on success both halves are valid months and joining them with '_' gives the input back |
| Period.NonAdjacentBimestreAccepted | src/utils/period.ts:18-24 | validity of a bimestre does not require consecutive months: 2024-01_2024-05 is accepted |
| Period.GetPeriodoSiguiente | src/utils/period.ts:109-116 | fails exactly on invalid months; otherwise gives the next month, with December rolling over to January of the next year |
| Period.GetPeriodoAnterior | src/utils/period.ts:99-106 | fails exactly on invalid months; otherwise gives the previous month, with January rolling back to December of the year before |
| Period.AnteriorOfSiguiente | src/utils/period.ts:99-116 | the previous month of the next month is the starting month, when the month in between is still supported |
| Period.SiguienteOfAnterior | src/utils/period.ts:99-116 | the next month of the previous month is the starting month, when the month in between is still supported |
| Period.GetMesesEntrePeriodos | src/utils/period.ts:119-128 | fails unless both months are valid; otherwise the count is the calendar distance plus one, counting both ends |
| Period.GetPeriodosEnRangoAsShipped | src/utils/period.ts:80-96 | always fails: on invalid bounds with the format error, on valid ones with the `TypeError` of calling an unregistered plugin method |
| Period.RangeAsShippedFails | src/utils/period.ts:80-96 | on 2024-01..2024-03, three months apart, the code as written throws instead of listing them |
| Period.GetPeriodosEnRango | src/utils/period.ts:80-96 | lists every month from start to end in order: each entry is the successor of the one before, the list starts and ends at the bounds, it is strictly ascending as strings, and it is empty when the end comes first |
| Period.ValidarSecuenciaBimestre | src/utils/period.ts:131-142 | never fails; true exactly for valid bimestres whose second month follows the first |
| Period.GenerarPeriodoBimestre | src/utils/period.ts:145-152 | fails exactly on invalid months; otherwise builds the bimestre that starts at the month and ends at its successor |
| Period.GeneratedBimestreIsSequential | src/utils/period.ts:131-152 | a generated bimestre passes the sequence check whenever its second month is still supported |
| Period.CalcularPerdidaPorcentaje | src/utils/period.ts:155-162 | 0 without a purchase; otherwise the loss as a percentage of the purchase, within half a hundredth |
| Period.PerdidaPorcentajeFacts | src/utils/period.ts:155-162 | nothing sold is a 100 % loss; selling at most what was bought gives 0..100; overselling is never a positive loss, and a surplus of at least 0.005 % is strictly negative |
| Period.EvaluarPerdida | src/utils/period.ts:165-195 | the four tiers partition the reals at 5, 10 and 20, each bound going to the lower tier; the sales-surplus description is given exactly to negative losses |
| Period.EvaluarPerdidaMonotone | src/utils/period.ts:165-195 | a larger loss never gets a milder tier |
| Period.NormalizarMedicion | src/utils/period.ts:198-200 | fails with the `toFixed` range error exactly when the precision is outside 0..100; otherwise never negative and within half a unit of the last decimal of the value clamped at 0 |
| Period.NormalizarMedicionDefault | src/utils/period.ts:198-200 | with the default precision 2, a reading already in hundredths is unchanged and a negative reading becomes 0 |
| Period.CalcularFactorCarga | src/utils/period.ts:203-211 | 0 unless demand and days are positive; otherwise energy as a percentage of peak demand over the period, within half a hundredth |
| Rounding.Round2 | src/utils/period.ts:161 | `Number(x.toFixed(2))` is within half a hundredth of `x` |
| Rounding.Round2Odd | src/utils/period.ts:161 | rounding commutes with negation, as `toFixed` does |
| Rounding.Round2Monotone | src/utils/period.ts:161 | rounding preserves order |
| Rounding.Round2Sign | src/utils/period.ts:161 | rounding keeps the sign, and a value at or below -0.005 rounds strictly negative |
| Proration.ProrratearVentaBimestral | src/utils/period.ts:37-77 | fails exactly on invalid bimestres; otherwise returns the two halves in order, each with its day count and its day-weighted share of kWh, amount and percentage |
| Proration.ProrrateoConserves | src/utils/period.ts:37-77 | the two kWh shares add up to the bimestral kWh, and the amounts to the amount, within a hundredth; the two percentages add up to 100 within a hundredth |
| Proration.ProrrateoExample | src/utils/period.ts:37-77 | January and February 2024 split 600 kWh as 310 and 290, that is 51.67 % and 48.33 % |
| Proration.MensualizeVentaBimestral | src/modules/analytics/service.ts:95-129 | on success returns two shares whose months joined with '_' give the bimestre |
| Proration.MensualizeAgrees | src/modules/analytics/service.ts:95-129 | the service copy accepts the same bimestres as the period utilities and produces the same two shares, with a missing amount read as 0 |
| Proration.MensualizeWithoutImporte | src/modules/analytics/service.ts:96 | without an amount, both monthly amounts are 0 |
| ServicePeriod.DaysInMonthAgree | src/modules/analytics/service.ts:19-21 | the `Date` day-zero day count equals the month table of the period utilities |
| ServicePeriod.IsValidPeriodoMesAgree | src/modules/analytics/service.ts:23-34 | the `parseInt`-based month check accepts exactly the strings the regular-expression check accepts |
| ServicePeriod.MonthDaysAgree | src/modules/analytics/service.ts:100-106 | the day count the service computes from the `split('-')` pieces is the Gregorian length of that month |
| ServicePeriod.BimestreToMensual | src/modules/analytics/service.ts:36-48 | on success both halves are valid months and joining them gives the input |
| ServicePeriod.BimestreToMensualAgree | src/modules/analytics/service.ts:36-48 | the `split('_')` parse accepts the same strings as the regular-expression parse and returns the same halves |
| Balance.GetBalanceCompraPorBoca | src/modules/analytics/service.ts:132-159 | one purchase row per group, in group order, with the group's key and its sums (a null sum read as 0) |
| Balance.VentasMensuales | src/modules/analytics/service.ts:198-205 | one sales row per monthly group, in group order, with the group's key and its sums (a null sum read as 0) |
| Balance.FindKey | src/modules/analytics/service.ts:220-222 | finds the first row with the key, and finds nothing exactly when no row has it |
| Balance.UpsertSpec | src/modules/analytics/service.ts:220-236 | with distinct keys, an upsert rewrites exactly the row of its key or appends one at the end, and keys stay distinct |
| Balance.MergeTotals | src/modules/analytics/service.ts:208-242 | per key, the merged kWh and amount are the starting ones plus what each bimestral record brings: in-range shares add to the existing row, out-of-range shares and unparsable records add nothing |
| Balance.MergeKeys | src/modules/analytics/service.ts:208-242 | the merge keeps keys distinct; a key is present after it exactly when it was present before or some record parses and has an in-range month share of that boca and month; so every merged key is a starting key or an in-range one |
| Balance.MalformedContributesNothing | src/modules/analytics/service.ts:239-241 | a record whose bimestre does not parse is skipped and the loop goes on, as if the record were not there |
| Balance.SortByKey | src/modules/analytics/service.ts:244-249 | sorting by (idBoca, periodoMes) keeps the keys, and with distinct keys leaves them strictly ascending |
| Balance.BalanceVentaSpec | src/modules/analytics/service.ts:162-250 | with distinct monthly keys, one row per key, strictly ascending; the keys are exactly the monthly keys and the keys of the in-range shares of parsing bimestral records, even when those shares are 0; each key's kWh and amount are its monthly sum plus its in-range bimestral shares |
| General.MapKeyInjective | src/modules/analytics/service.ts:259-266 | the string key `${idBoca}_${periodoMes}` determines the pair when months have seven characters |
| General.JoinSpec | src/modules/analytics/service.ts:259-314 | before the sort there is one row per key of either side, each the reconciled row of its key's last purchase and last sale |
| General.BalanceGeneralSpec | src/modules/analytics/service.ts:253-322 | exactly one row per key in the union of purchase and sale keys, strictly ascending, each with that key's figures and the loss fields derived from them |
| General.NoSaleIsCritical | src/modules/analytics/service.ts:262-276 | a purchase with no sale ends at a 100 % loss in tier critica |
| General.SaleWithoutPurchase | src/modules/analytics/service.ts:279-314 | a sale with no purchase ends at 0 %, tier normal, with the loss equal to minus the sale rounded; the -100 % placeholder does not survive |
| General.BalanceGeneralTotals | src/modules/analytics/service.ts:253-322 | with distinct keys on both sides, the general balance carries exactly the purchase and sale totals of kWh and amount |
| General.PerdidaTotalNear | src/modules/analytics/service.ts:304-314 | rows whose loss is the rounded difference sum to within 0.005 per row of bought minus sold |
| Reports.GetResumenPeriodo | src/modules/analytics/service.ts:356-383 | one row per boca counted; the kWh, amount and loss totals are the column sums of the rows; each tier count is the number of rows in that tier, and the four add up to the boca count; the percentage is that of the summed kWh, 0 without a purchase |
| Reports.CountTiers | src/modules/analytics/service.ts:371-374 | every row is in exactly one tier |
| Reports.ResumenTotals | src/modules/analytics/service.ts:356-383 | the summary of a general balance carries the purchase and sale totals, and its loss is within 0.005 per boca of bought minus sold |
| Reports.BocasMap | src/modules/analytics/service.ts:405 | the name map holds exactly the bocas listed |
| Reports.BocasMapLast | src/modules/analytics/service.ts:405 | a boca's name is that of its last entry |
| Reports.SliceEnd | src/modules/analytics/service.ts:409 | `slice(0, limite)` keeps `limite` rows, clamped to the list, and a negative `limite` counts from the back |
| Reports.GetTopPerdidas | src/modules/analytics/service.ts:386-421 | the i-th entry shows the i-th kept row (boca, month, kWh, loss and tier) with rank i+1 and the boca's name when it is listed; the entries are in non-increasing loss percentage and no row left out has a larger loss than an entry; keeps `min(limite, rows)` rows for a positive `limite` |
| Reports.TopRowsOrdered | src/modules/analytics/service.ts:407-409 | the kept rows are in non-increasing loss percentage |
| Reports.TopRowsAreTop | src/modules/analytics/service.ts:407-409 | the kept rows come from the input, and no row left out has a larger loss than a kept one |
| Reports.TopRowsTies | src/modules/analytics/service.ts:407-409 | on key-ordered input, kept rows of equal loss stay in key order, since the sort is stable |
| Reports.AlertasDe | src/modules/analytics/service.ts:431-476 | a row raises a critical alert exactly when critica, a high alert exactly when alta, and a negative-loss alert exactly below -5 %; each is pending, carries the row's boca, month and loss percentage, the id built from the requested month, and priority critica, alta and media respectively |
| Reports.AlertasExclusive | src/modules/analytics/service.ts:431-476 | on a row whose tier matches its percentage, at most one alert is raised |
| Reports.GenerarAlertasCount | src/modules/analytics/service.ts:424-479 | one alert per critical row, one per high row and one per row below -5 % |
| Reports.GenerarAlertasRows | src/modules/analytics/service.ts:424-479 | the generated alerts are exactly the alerts of the rows |
| Reports.AlertIdInjective | src/modules/analytics/service.ts:435-465 | different (boca, kind) pairs give different alert ids |
| Reports.AlertIdsUnique | src/modules/analytics/service.ts:424-479 | with one row per boca, no two alerts share an id |
| Reports.GetAnalisisPerdida | src/modules/analytics/service.ts:325-353 | one analysis per row, in order, carrying the row and the boca's customer count |
| Reports.Analizar | src/modules/analytics/service.ts:339-347 | kWh per customer is the sale divided by the customers, to a hundredth, and 0 without customers; load factor and average demand are 0 |
| Controller.CheckPeriodo | src/modules/analytics/controller.ts:178-186 | passes the text through or answers 400 with the format error; anything passed has seven characters with a '-' at index 4 |
| Controller.ValidPeriodoPasses | src/modules/analytics/controller.ts:178-186 | every valid month passes the route check |
| Controller.PeriodoCheckIsFormatOnly | src/modules/analytics/controller.ts:178-186 | month 13 and year 1999 pass the route check; "2024-1" and "2024/01" do not |
| Controller.CheckLimite | src/modules/analytics/controller.ts:218-225 | an absent or empty `limite` is 10; any number passed is within 1..100; a rejection is 400 |
| Controller.LimiteOfDigits | src/modules/analytics/controller.ts:218-225 | a digit string passes exactly when its value is in 1..100, and is then passed unchanged |
| Controller.LimiteNaNPasses | src/modules/analytics/controller.ts:218-225 | a `limite` without digits parses to NaN, which neither comparison rejects |
| Controller.TopPerdidasEndpoint | src/modules/analytics/controller.ts:203-244 | a malformed period is rejected; the ranking never exceeds 100 rows or the rows given; without `limite` it keeps 10 |
| Controller.MaxPct | src/modules/analytics/controller.ts:148-150 | the largest percentage bounds every row and is attained |
| Controller.MinPct | src/modules/analytics/controller.ts:151-153 | the smallest percentage bounds every row and is attained |
| Controller.EstadisticasDeAnalisis | src/modules/analytics/controller.ts:137-154 | counts every row; each tier count is the number of rows in that tier, and they add up to the row count; all figures are 0 on an empty analysis; otherwise the average is the mean rounded to hundredths (so within 0.005 of it) and the extremes bound every row and are attained |
| Controller.AverageBetween | src/modules/analytics/controller.ts:139-153 | the mean loss percentage lies between the smallest and the largest |
| Controller.AnalisisAgreesWithResumen | src/modules/analytics/controller.ts:142-147 | the tier counts of the analysis of a month are those of the month's summary |
| Controller.EstadisticasDeAlertas | src/modules/analytics/controller.ts:264-278 | the counts by kind and by priority each add up to the number of alerts |
| Controller.AlertStatsOfGenerated | src/modules/analytics/controller.ts:264-278 | for generated alerts, critical priority counts the critica rows, high the alta rows, medium the rows below -5 %; no sudden-increase or low-priority alert |
| Controller.MetaDeCompras | src/modules/analytics/controller.ts:80-90 | `total` counts the rows; the kWh and amount totals are 0 on no rows |
| Controller.MetaComprasOfGroups | src/modules/analytics/controller.ts:80-90 | the purchase totals are the sums of the query's groups |
| Controller.MetaDeVentas | src/modules/analytics/controller.ts:108-118 | `total` counts the rows; the kWh and amount totals are 0 on no rows |
| Controller.MetaTotalGeneral | src/modules/analytics/controller.ts:57 | `total` counts the rows |
| Controller.MetaOfGeneral | src/modules/analytics/controller.ts:53-62 | the general balance's total is the number of distinct keys of purchases and sales together, and its column sums are the compra and venta endpoints' totals |
| Csv.PeriodoChecksAreFormatOnly | src/utils/csv.ts:79-86 | the format checks ignore ranges: "2024-13" and "0000-00" pass, "2024-1" and "24-01" do not |
| Csv.ValidMonthsPass | src/utils/csv.ts:79-81 | every month valid for the period utilities passes the format check |
| Csv.ParsePeriodoBimestre | src/utils/csv.ts:89-100 | fails with the bimestre error exactly when the format check fails; otherwise returns two well-formed months that join back to the input |
| Csv.ParseOfJoined | src/utils/csv.ts:89-100 | parsing two well-formed months joined by '_' gives them back |
| Csv.ParseAgreesWithPeriod | src/utils/csv.ts:89-100 | on a valid bimestre the parse returns the halves of `bimestreToMensual` |
| Csv.NormalizeNroSuministro | src/utils/csv.ts:103-105 | the result is the trimmed input with each character upper-cased: same length as the trimmed text, no whitespace at either end, no lower-case ASCII letter |
| Csv.NormalizeIgnoresSurrounding | src/utils/csv.ts:103-105 | whitespace of any length around a text does not change its normal form |
| Csv.NormalizeKeepsNormal | src/utils/csv.ts:103-105 | a text without edge whitespace that is already upper case is returned unchanged |
| Strings.TrimKeepsNonWs | src/utils/csv.ts:104 | `trimStart`, `trimEnd` and `trim` remove whitespace only: the other characters are kept, in order |
| Csv.NormalizeIdempotent | src/utils/csv.ts:103-105 | normalising twice is normalising once |
| Csv.CollapseSpec | src/utils/csv.ts:118 | the whitespace replacement leaves no whitespace but single spaces; an input that starts or ends with whitespace keeps one space there, otherwise its first or last character |
| Csv.CollapseKeepsNonWs | src/utils/csv.ts:118 | the whitespace replacement keeps every other character, in order |
| Csv.CollapseOfCollapsed | src/utils/csv.ts:118 | text without whitespace runs is left unchanged |
| Csv.Truncate | src/utils/csv.ts:120-122 | a missing or zero limit, or a short enough text, changes nothing; a positive limit keeps a prefix of at most that length |
| Csv.SanitizeText | src/utils/csv.ts:117-125 | the result has no whitespace runs and no leading whitespace, fits a positive limit, and keeps a prefix of the input's non-whitespace characters, all of them without a cut; without a limit it is the collapsed trimmed text and has no trailing whitespace |
| Csv.SanitizeCuts | src/utils/csv.ts:120-122 | with a limit the result is the unlimited result cut to the limit when positive, emptied when negative, and left whole at 0 |
| Csv.SanitizeIdempotent | src/utils/csv.ts:117-125 | without a limit, sanitising twice is sanitising once |
| Csv.SanitizeWithLimitNotIdempotent | src/utils/csv.ts:117-125 | with a limit it is not idempotent: "a b" cut to 2 is "a ", which sanitises to "a" |
| Csv.ValidateCoordinates | src/utils/csv.ts:128-132 | accepts when either coordinate is absent; otherwise exactly when latitude is in [-90, 90] and longitude in [-180, 180] |
| Csv.OneCoordinateAccepted | src/utils/csv.ts:128-132 | a lone coordinate is accepted whatever its value |
| Csv.CoordinatesConvex | src/utils/csv.ts:128-132 | the accepted pairs form a box: a pair between two accepted pairs, coordinate by coordinate, is accepted, and the four corners are |
| Csv.ParseBoolean | src/utils/csv.ts:135-141 | a boolean is itself; a number is true when non-zero; a string is true exactly when, lower-cased and trimmed, it is a truthy word |
| Csv.ParseBooleanOfText | src/utils/csv.ts:135-141 | parsing "true" or "false" gives the boolean back |
| Csv.ParseBooleanLenient | src/utils/csv.ts:139-140 | case and surrounding whitespace do not matter |
| Csv.ParseBooleanAccent | src/utils/csv.ts:139-140 | "SÍ" lower-cases to a truthy word |
| Csv.ParsePlainWord | src/utils/csv.ts:139-140 | a word of lower-case letters and digits is true exactly when it is one of the truthy words |
| Csv.ParseBooleanRejects | src/utils/csv.ts:139-140 | "no" and "0" are false |
| Csv.CreateValidationResult | src/utils/csv.ts:150-156 | a fresh result is valid with no errors and no warnings |
| Csv.AddValidationError | src/utils/csv.ts:158-161 | the result becomes invalid and the error is appended; warnings are unchanged |
| Csv.AddValidationWarning | src/utils/csv.ts:163-165 | the warning is appended; validity and errors are unchanged |
| Csv.RecordAllSpec | src/utils/csv.ts:150-165 | after any run of findings the errors and warnings are those recorded, in order, and the result is valid exactly when it was and no error was recorded |
| Csv.ValidIffNoErrors | src/utils/csv.ts:150-165 | a result built from a fresh one is valid exactly when it holds no error |
| Csv.ValidateLecturas | src/utils/csv.ts:168-185 | invalid, with the one inversion error, exactly when the final reading is below the initial; one warning exactly when the difference is off by more than 10 % of the kWh sold |
| Csv.WarningsDoNotAffectValidity | src/utils/csv.ts:168-185 | validity and errors depend on the readings alone |
| Csv.LecturasTolerance | src/utils/csv.ts:175-182 | readings matching the kWh sold raise nothing; a negative kWh figure always raises the warning |
| RateLimit.CeilSeconds | src/middlewares/rateLimit.ts:39 | `Math.ceil(x / 1000)` is the least whole number of seconds covering `x` milliseconds |
| RateLimit.Purge | src/middlewares/rateLimit.ts:17-21 | deletes exactly the in-scope entries whose window is over, and changes no other entry |
| RateLimit.Count | src/middlewares/rateLimit.ts:24-34 | a missing or expired entry restarts at count 1 with a fresh window; a live entry counts one more; other keys are unchanged |
| RateLimit.RateLimitMiddleware | src/middlewares/rateLimit.ts:7-57 | counts the request in the client's window; sets the limit, remaining (never below 0) and reset-seconds headers; refuses exactly past the limit, with 429, 'Too Many Requests' and the seconds left in the window; drops every other expired entry |
| RateLimit.ApiKeyRateLimitMiddleware | src/middlewares/rateLimit.ts:60-111 | does nothing without an API key; otherwise counts under `api:<id>` with five times the limit, sets the three headers for that limit, refuses exactly past it with 429, 'API Key Rate Limit Exceeded' and the seconds left; every other `api:` entry is dropped exactly when expired and every non-`api:` entry is kept |
| RateLimit.ApiKeyPurgeScope | src/middlewares/rateLimit.ts:73-78 | the API-key purge leaves every key outside `api:` alone, expired or not |
| RateLimit.NoExpiredAfterPurge | src/middlewares/rateLimit.ts:17-31 | after the IP middleware no entry is past its window, unless the window length is negative |
| RateLimit.WindowCounts | src/middlewares/rateLimit.ts:24-56 | within one window from its first request, the i-th request of a new client is number i+1 and is refused exactly past the limit |
| RateLimit.WindowAdmitsAtMostMax | src/middlewares/rateLimit.ts:41-56 | within one window at most `maxRequests` requests get through |
| Auth.JwtAuth | src/middlewares/auth.ts:17-47 | without a Bearer header it rejects with 'Token de autorización requerido'; otherwise the text after "Bearer " is verified, and an expired or invalid token is rejected with its message |
| Auth.BearerToken | src/middlewares/auth.ts:23-27 | the token verified is exactly the text after "Bearer " |
| Auth.BearerIsExact | src/middlewares/auth.ts:23 | the prefix is case-sensitive and needs its space |
| Auth.OnlyBearerPasses | src/middlewares/auth.ts:17-47 | for every header: one that does not start with "Bearer " is rejected with 'Token de autorización requerido'; one that passes starts with "Bearer " and its suffix verifies |
| Auth.ApiKeyAuth | src/middlewares/auth.ts:50-73 | rejects an absent or empty key and one the lookup does not know; otherwise attaches the key |
| Auth.AuthMiddleware | src/middlewares/auth.ts:76-104 | a Bearer header selects the JWT path: it passes exactly when the token verifies, with that user and no key, and otherwise fails with the JWT error; without one a non-empty API key passes exactly when the lookup knows it, with that key and no user, and otherwise fails with 'API Key inválida'; with neither it rejects |
| Auth.JwtWinsOverApiKey | src/middlewares/auth.ts:80-92 | with a Bearer header the key is never consulted: its validity changes nothing, and a bad token is not rescued by a good key |
| Auth.AuthFailuresAre401 | src/middlewares/auth.ts:17-104 | every rejection the authentication raises itself is answered with 401 |
| Auth.RequireRole | src/middlewares/auth.ts:107-123 | passes exactly for a user holding one of the roles; otherwise 'Acceso solo permitido con autenticación de usuario' or 'Permisos insuficientes' |
| Auth.RequireScope | src/middlewares/auth.ts:126-146 | passes exactly for an API key sharing a scope; otherwise 'Acceso solo permitido con API Key' or 'Scopes insuficientes' |
| Auth.GatesSeparateIdentities | src/middlewares/auth.ts:107-146 | a key never passes a role gate, a user never passes a scope gate, and empty lists let nobody through |
| Auth.RequirePermissions | src/middlewares/auth.ts:149-182 | a rejection is always 'Permisos insuficientes' |
| Auth.PermissionsAreRoleOrScope | src/middlewares/auth.ts:149-182 | passes exactly when the role or the scope gate passes, or both when `requireBoth` is set |
| Auth.DefaultPermissionsDeny | src/middlewares/auth.ts:149-182 | with the default empty lists nobody passes |
| Auth.RequireBothDeniesAuthenticated | src/middlewares/auth.ts:149-182 | after authentication a request has a user or a key, never both, so `requireBoth` denies every authenticated request |
| Auth.PermissionFailuresAre403 | src/middlewares/auth.ts:107-182 | every rejection of the permission gates is answered with 403 |
| Errors.DefaultStatus | src/middlewares/error.ts:31 | `statusCode \|\| 500`: a non-zero status code is kept, and otherwise the status is 500 |
| Errors.MapError | src/middlewares/error.ts:36-66 | an error with a validation list or named ValidationError is 400; the named classes map to 401, 403, 404 and 409; the generic message keeps the default status |
| Errors.PrismaMapping | src/middlewares/error.ts:57-66 | a Prisma error is 409 on a unique constraint (checked first), 404 on a missing record, and otherwise the default |
| Errors.UnknownErrorMapping | src/middlewares/error.ts:31-66 | any other error keeps its non-zero status code, or gets 500, with the generic message |
| Errors.ErrorHandler | src/middlewares/error.ts:11-85 | sends the mapped status and message; the request id, or 'unknown'; `details` exactly when the validation branch ran and the error carries a list; stack and original message exactly in development |
| Errors.ValidationWins | src/middlewares/error.ts:36-39 | a validation list wins over any name and becomes the details |
| Errors.NewError | src/middlewares/error.ts:88-128 | each class sets its name, its status code and its default message; only a ValidationError carries a validation list |
| Errors.ClassStatusAgrees | src/middlewares/error.ts:88-128 | the handler answers each class's error with the status the class declares and the class's default message |
| Errors.ValidationErrorHasDetails | src/middlewares/error.ts:120-128 | a ValidationError always has an issue list, so its reply carries details even when the list is empty |

## Left out

- Database access. The Prisma `groupBy`, `findMany`, `count` and `aggregate` calls and their filters are not modelled; their results are inputs. This covers the `idBoca` filter and the `incluirDetalle` option of the balance queries.
- Clocks, logging and identifiers:
  - alert `mensaje` texts, `fechaCreacion`, `generadoEn` and reply timestamps are not modelled;
  - request logging and the security-event log are not modelled;
  - the rate limiter's clock is the parameter `now`.
- Reply envelopes. `success: true`, Fastify's `reply.code/send` and the header-setting calls are reduced to the data they carry.
- Floating point. Numbers are exact reals: IEEE rounding, `NaN` and infinities in sums, `Math.max` on an empty spread, and division by a zero count are not modelled. Where the source guards a division, the guard is modelled.
- Text encoding. Strings are sequences of characters, not UTF-16 code units. `toLowerCase` and `toUpperCase` are modelled for Basic Latin and Latin-1 letters, including 'µ' to U+039C and 'ÿ' to U+0178; 'ß', whose upper case is the two letters "SS", is left unchanged, and so is every character beyond Latin-1.
- Csv.NormalizeNroSuministro: the bound "no longer than the input" holds for the model only. JavaScript's `toUpperCase` turns 'ß' into "SS" and lengthens the text.
- Balance.SortByKey: `localeCompare` is modelled as code-unit order. The ICU collation it actually uses agrees only on keys of digits and upper-case letters. `idBoca` may be any text of 1 to 20 characters (src/modules/analytics/schemas.ts:5); for mixed case or punctuation ("a" before "B", '_' and '-' before digits) the real order differs from the modelled one.
- General.BalanceGeneralSpec: the strict ascending order it states is code-unit order; see Balance.SortByKey for keys where the real collation differs. The row contents and keys do not depend on the order.
- Balance.BalanceVentaSpec: the same holds for its ascending order.
- External code:
  - `jwt.verify` is the parameter `verify`;
  - `validateApiKey` is the parameter `lookup`;
  - JavaScript's number-to-text conversion is the parameter `numberText`.
- Other repository code:
  - the hierarchy endpoints and the CSV import/export plumbing of `csv.ts` (`parseCSV`, `generateCSV`, `validateDateRange`, which reads the clock) are not part of this model;
  - the route schemas and the remaining controllers are not part of this model either.
- A sale without a purchase: src/modules/analytics/service.ts:296-297 first sets `perdidaPorcentaje: -100` and `nivelPerdida: 'normal'`. The recompute loop at service.ts:303-313 then overwrites these with `calcularPerdidaPorcentaje(0, venta) = 0` and the normal tier's description. The model follows the code (`General.SaleWithoutPurchase`).
- General.GetBalanceGeneral: the join map is keyed by the pair (idBoca, periodoMes), while the source keys it by the text `${idBoca}_${periodoMes}` (service.ts:259-280). The two agree when every `periodoMes` has seven characters (`General.MapKeyInjective`), which the ingestion schema guarantees with `^\d{4}-\d{2}$` (src/modules/etl/schemas.ts:6). Rows with other month texts are not modelled.
- Controller.CheckLimite: a `limite` that does not parse becomes `NaN` and passes the controller's bounds check (`Controller.LimiteNaNPasses`). The route's query schema admits only digit strings, so this cannot happen through the router. The schema is not modelled.
- Csv.Truncate: a `NaN` or fractional `maxLength` is not modelled; the limit is an optional integer.
- Period.NormalizarMedicion: a fractional or `NaN` precision is not modelled; the precision is an integer. Binary floating point in `toFixed` is not modelled either (see Floating point above).
- Csv.ParseBoolean: `value.toString()` of a number or boolean reaching the string branch cannot happen and is not modelled.
- Proration.MensualizeVentaBimestral: its own contract states only the shape; the agreement with the period utilities is stated by `Proration.MensualizeAgrees`. The service copy throws 'Formato de período bimestral inválido' or 'Períodos inválidos en bimestre'. `Proration.MensualizeAgrees` compares which inputs are accepted and the shares produced, not the error texts.
- Reports.AlertasDe: the `aumento_subito` alert kind exists in the data model but is never raised by `generarAlertas`; it is modelled as a kind without a check.
- RateLimit.RateLimitMiddleware: the store is a value passed in and returned, not a module-level mutable map. Two interleaved requests are not modelled.
- Period.GetPeriodosEnRango: models the evident intent, a list of the months in the range. The code calls `isSameOrBefore`, which `dayjs` provides only through a plugin, and no file of the repository registers it (see "## Findings"). If the application registered it elsewhere, the code behaves as modelled.

## Findings

| source | as written | input that shows it | evidently intended | confidence | as-written member | corrected member |
|---|---|---|---|---|---|---|
| src/utils/period.ts:90 | `fechaActual.isSameOrBefore(fechaFin)` is a method of the `isSameOrBefore` plugin of `dayjs`; period.ts imports only `dayjs` (line 1), and no file registers the plugin with `dayjs.extend`, so the call throws a `TypeError` on every pair of valid months | `getPeriodosEnRango('2024-01', '2024-03')` | the list `['2024-01', '2024-02', '2024-03']` | not executed; medium, since a registration outside the repository cannot be ruled out | Period.GetPeriodosEnRangoAsShipped, Period.RangeAsShippedFails | Period.GetPeriodosEnRango |

=== FILE: auth.dfy ===
/** The request gates of `src/middlewares/auth.ts`: the Bearer check of the
    JWT middleware (section 2.1 of RFC 6750), the choice between JWT and API
    key in `authMiddleware`, and the role, scope and combined permission
    checks. Verifying a token and looking up an API key are calls into a
    library and the database; here they are the functions `verify` and
    `lookup`. A middleware either lets the request through, with what it
    attached, or throws one of the errors of the error module. */
module Auth {
  import opened Wrappers
  import opened Strings
  import opened Errors

  /** `request.user`, from a verified token. */
  datatype User = User(id: string, email: string, role: string)

  /** `request.apiKey`, from a looked-up key. */
  datatype ApiKey = ApiKey(id: string, name: string, scopes: seq<string>)

  /** The two request headers the gates read. */
  datatype AuthHeaders = AuthHeaders(authorization: Option<string>, xApiKey: Option<string>)

  /** What `jwt.verify` does with a token: a payload, or one of the errors
      it throws. */
  datatype Verification =
    | Verified(user: User)
    | TokenExpired
    | InvalidToken
    | OtherFailure(error: ErrorInfo)

  /** What the request carries after authentication. */
  datatype Identity = Identity(user: Option<User>, apiKey: Option<ApiKey>)

  /** `new UnauthorizedError(message)` and `new ForbiddenError(message)`;
      the stack text does not matter to any gate. */
  function Unauthorized(message: string): ErrorInfo {
    NewError(UnauthorizedClass, Some(message), "")
  }

  function Forbidden(message: string): ErrorInfo {
    NewError(ForbiddenClass, Some(message), "")
  }

  const BearerPrefix: string := "Bearer "

  /** A present, non-empty header starting with "Bearer ". */
  predicate HasBearer(authorization: Option<string>) {
    authorization.Some? && StartsWith(authorization.value, BearerPrefix)
  }

  /** `jwtAuthMiddleware`: without a Bearer header it rejects; otherwise the
      text after the first 7 characters is verified. */
  function JwtAuth(authorization: Option<string>, verify: string -> Verification): (r: Result<User, ErrorInfo>)
    ensures !HasBearer(authorization) ==> r == Err(Unauthorized("Token de autorización requerido"))
    ensures HasBearer(authorization) ==>
      match verify(authorization.value[7..])
      case Verified(u) => r == Ok(u)
      case TokenExpired => r == Err(Unauthorized("Token expirado"))
      case InvalidToken => r == Err(Unauthorized("Token inválido"))
      case OtherFailure(e) => r == Err(e)
  {
    if authorization.None? || authorization.value == "" || !StartsWith(authorization.value, BearerPrefix) then
      Err(Unauthorized("Token de autorización requerido"))
    else
      var token := authorization.value[7..];
      match verify(token)
      case Verified(u) => Ok(u)
      case TokenExpired => Err(Unauthorized("Token expirado"))
      case InvalidToken => Err(Unauthorized("Token inválido"))
      case OtherFailure(e) => Err(e)
  }

  /** The token verified is exactly what follows "Bearer ". */
  lemma BearerToken(token: string, verify: string -> Verification)
    ensures HasBearer(Some(BearerPrefix + token))
    ensures (BearerPrefix + token)[7..] == token
    ensures verify(token).Verified? ==> JwtAuth(Some(BearerPrefix + token), verify) == Ok(verify(token).user)
  {
    assert (BearerPrefix + token)[..7] == BearerPrefix;
  }

  /** The prefix is case-sensitive and needs its space. */
  lemma BearerIsExact(verify: string -> Verification)
    ensures JwtAuth(Some("bearer abc"), verify).Err?
    ensures JwtAuth(Some("Bearerabc"), verify).Err?
    ensures JwtAuth(None, verify).Err?
  {
    assert "bearer abc"[..7] != BearerPrefix by { assert "bearer abc"[0] != BearerPrefix[0]; }
    assert "Bearerabc"[..7] != BearerPrefix by { assert "Bearerabc"[6] != BearerPrefix[6]; }
  }

  /** For every header: without the exact prefix it is rejected as missing,
      and a header that passes has the prefix and a suffix that verifies. */
  lemma OnlyBearerPasses(h: string, verify: string -> Verification)
    ensures !(|h| >= 7 && h[..7] == BearerPrefix) ==>
      JwtAuth(Some(h), verify) == Err(Unauthorized("Token de autorización requerido"))
    ensures JwtAuth(Some(h), verify).Ok? ==>
      |h| >= 7 && h[..7] == BearerPrefix && verify(h[7..]) == Verified(JwtAuth(Some(h), verify).value)
  {
  }

  /** `apiKeyAuthMiddleware`: an absent or empty key is rejected, and so is
      one the lookup does not know. */
  function ApiKeyAuth(xApiKey: Option<string>, lookup: string -> Option<ApiKey>): (r: Result<ApiKey, ErrorInfo>)
    ensures xApiKey.None? || xApiKey == Some("") ==> r == Err(Unauthorized("API Key requerida"))
    ensures xApiKey.Some? && xApiKey.value != "" ==>
      r == if lookup(xApiKey.value).Some? then Ok(lookup(xApiKey.value).value) else Err(Unauthorized("API Key inválida"))
  {
    if xApiKey.None? || xApiKey.value == "" then Err(Unauthorized("API Key requerida"))
    else
      match lookup(xApiKey.value)
      case None => Err(Unauthorized("API Key inválida"))
      case Some(k) => Ok(k)
  }

  /** `authMiddleware`: a Bearer header selects the JWT path, otherwise a
      non-empty `x-api-key` selects the key path, otherwise it rejects. */
  function AuthMiddleware(headers: AuthHeaders, verify: string -> Verification, lookup: string -> Option<ApiKey>)
    : (r: Result<Identity, ErrorInfo>)
    ensures !HasBearer(headers.authorization) && (headers.xApiKey.None? || headers.xApiKey == Some("")) ==>
      r == Err(Unauthorized("Autorización requerida (JWT o API Key)"))
    ensures r.Ok? ==> (r.value.user.Some? <==> HasBearer(headers.authorization))
    ensures r.Ok? ==> (r.value.user.Some? != r.value.apiKey.Some?)
    ensures HasBearer(headers.authorization) ==>
      && (r.Ok? <==> JwtAuth(headers.authorization, verify).Ok?)
      && (r.Ok? ==> r.value == Identity(Some(JwtAuth(headers.authorization, verify).value), None))
      && (r.Err? ==> r.error == JwtAuth(headers.authorization, verify).error)
    ensures !HasBearer(headers.authorization) && headers.xApiKey.Some? && headers.xApiKey.value != "" ==>
      && (r.Ok? <==> lookup(headers.xApiKey.value).Some?)
      && (r.Ok? ==> r.value == Identity(None, lookup(headers.xApiKey.value)))
      && (r.Err? ==> r.error == Unauthorized("API Key inválida"))
  {
    var hasJwt := HasBearer(headers.authorization);
    var hasApiKey := headers.xApiKey.Some? && headers.xApiKey.value != "";
    if !hasJwt && !hasApiKey then Err(Unauthorized("Autorización requerida (JWT o API Key)"))
    else if hasJwt then
      match JwtAuth(headers.authorization, verify)
      case Ok(u) => Ok(Identity(Some(u), None))
      case Err(e) => Err(e)
    else
      match ApiKeyAuth(headers.xApiKey, lookup)
      case Ok(k) => Ok(Identity(None, Some(k)))
      case Err(e) => Err(e)
  }

  /** With both headers only the token counts: the key is never looked up,
      so its validity changes nothing, and a bad token is not rescued by a
      good key. */
  lemma JwtWinsOverApiKey(headers: AuthHeaders, verify: string -> Verification, lookup1: string -> Option<ApiKey>,
    lookup2: string -> Option<ApiKey>)
    requires HasBearer(headers.authorization)
    ensures AuthMiddleware(headers, verify, lookup1) == AuthMiddleware(headers, verify, lookup2)
    ensures AuthMiddleware(headers, verify, lookup1).Err? <==> JwtAuth(headers.authorization, verify).Err?
  {
  }

  /** Every rejection of the authentication middleware that it raises itself
      is answered with 401. */
  lemma AuthFailuresAre401(headers: AuthHeaders, verify: string -> Verification, lookup: string -> Option<ApiKey>)
    requires forall t :: !verify(t).OtherFailure?
    ensures var r := AuthMiddleware(headers, verify, lookup);
      r.Err? ==> ErrorHandler(r.error, None, None).status == 401
  {
    var r := AuthMiddleware(headers, verify, lookup);
    if r.Err? {
      assert r.error.name == "UnauthorizedError" && r.error.validation.None?;
    }
  }

  // ---------------------------------------------------------------------
  // Permission gates

  /** `requireRole(...roles)`: only a user may pass, and only with one of
      the roles. */
  function RequireRole(roles: seq<string>, identity: Identity): (r: Result<(), ErrorInfo>)
    ensures r.Ok? <==> identity.user.Some? && identity.user.value.role in roles
    ensures identity.user.None? ==> r == Err(Forbidden("Acceso solo permitido con autenticación de usuario"))
    ensures identity.user.Some? && r.Err? ==> r.error == Forbidden("Permisos insuficientes")
  {
    if identity.user.None? then Err(Forbidden("Acceso solo permitido con autenticación de usuario"))
    else if identity.user.value.role !in roles then Err(Forbidden("Permisos insuficientes"))
    else Ok(())
  }

  /** Some required scope is among the key's scopes. */
  predicate SharesScope(required: seq<string>, granted: seq<string>) {
    exists i :: 0 <= i < |required| && required[i] in granted
  }

  /** `requireScope(...scopes)`: only an API key may pass, and only with one
      of the scopes. */
  function RequireScope(scopes: seq<string>, identity: Identity): (r: Result<(), ErrorInfo>)
    ensures r.Ok? <==> identity.apiKey.Some? && SharesScope(scopes, identity.apiKey.value.scopes)
    ensures identity.apiKey.None? ==> r == Err(Forbidden("Acceso solo permitido con API Key"))
    ensures identity.apiKey.Some? && r.Err? ==> r.error == Forbidden("Scopes insuficientes")
  {
    if identity.apiKey.None? then Err(Forbidden("Acceso solo permitido con API Key"))
    else if !SharesScope(scopes, identity.apiKey.value.scopes) then Err(Forbidden("Scopes insuficientes"))
    else Ok(())
  }

  /** A user never passes a scope gate and a key never passes a role gate;
      an empty scope list lets nobody through. */
  lemma GatesSeparateIdentities(roles: seq<string>, scopes: seq<string>, identity: Identity)
    ensures identity.user.None? ==> RequireRole(roles, identity).Err?
    ensures identity.apiKey.None? ==> RequireScope(scopes, identity).Err?
    ensures |scopes| == 0 ==> RequireScope(scopes, identity).Err?
    ensures |roles| == 0 ==> RequireRole(roles, identity).Err?
  {
  }

  /** The options of `requirePermissions`; an absent option takes its
      default (no roles, no scopes, either one suffices). */
  datatype PermissionOptions = PermissionOptions(
    roles: Option<seq<string>>,
    scopes: Option<seq<string>>,
    requireBoth: Option<bool>)

  /** `requirePermissions(options)`. */
  function RequirePermissions(options: PermissionOptions, identity: Identity): (r: Result<(), ErrorInfo>)
    ensures r.Err? ==> r.error == Forbidden("Permisos insuficientes")
  {
    var roles := options.roles.GetOr([]);
    var scopes := options.scopes.GetOr([]);
    var requireBoth := options.requireBoth.GetOr(false);
    var validRole := identity.user.Some? && identity.user.value.role in roles;
    var validScope := identity.apiKey.Some? && SharesScope(scopes, identity.apiKey.value.scopes);
    if requireBoth && (!validRole || !validScope) then Err(Forbidden("Permisos insuficientes"))
    else if !requireBoth && !validRole && !validScope then Err(Forbidden("Permisos insuficientes"))
    else Ok(())
  }

  /** `requirePermissions` in terms of the two single gates: either passes,
      or both must pass when `requireBoth` is set. */
  lemma PermissionsAreRoleOrScope(options: PermissionOptions, identity: Identity)
    ensures var roleOk := RequireRole(options.roles.GetOr([]), identity).Ok?;
      var scopeOk := RequireScope(options.scopes.GetOr([]), identity).Ok?;
      RequirePermissions(options, identity).Ok? <==>
        if options.requireBoth == Some(true) then roleOk && scopeOk else roleOk || scopeOk
  {
  }

  /** With the default empty role and scope lists nobody passes. */
  lemma DefaultPermissionsDeny(identity: Identity, requireBoth: Option<bool>)
    ensures RequirePermissions(PermissionOptions(None, None, requireBoth), identity).Err?
  {
  }

  /** After `authMiddleware` a request carries a user or an API key, never
      both, so `requireBoth` denies every authenticated request. */
  lemma RequireBothDeniesAuthenticated(roles: seq<string>, scopes: seq<string>, headers: AuthHeaders,
    verify: string -> Verification, lookup: string -> Option<ApiKey>)
    ensures var a := AuthMiddleware(headers, verify, lookup);
      a.Ok? ==> RequirePermissions(PermissionOptions(Some(roles), Some(scopes), Some(true)), a.value).Err?
  {
  }

  /** Every rejection of the permission gates is answered with 403. */
  lemma PermissionFailuresAre403(options: PermissionOptions, roles: seq<string>, scopes: seq<string>, identity: Identity)
    ensures RequirePermissions(options, identity).Err? ==>
      ErrorHandler(RequirePermissions(options, identity).error, None, None).status == 403
    ensures RequireRole(roles, identity).Err? ==> ErrorHandler(RequireRole(roles, identity).error, None, None).status == 403
    ensures RequireScope(scopes, identity).Err? ==> ErrorHandler(RequireScope(scopes, identity).error, None, None).status == 403
  {
  }
}

=== FILE: balance.dfy ===
/** Purchases and sales per purchase point (boca) and month, as
    `getBalanceCompraPorBoca` and `getBalanceVentaPorBoca` of
    `src/modules/analytics/service.ts` assemble them. The database
    `groupBy`/`findMany` results are inputs; the merge of prorated bimestral
    sales into the monthly ones, the range filter and the final ordering are
    modelled. */
module Balance {
  import opened Wrappers
  import opened Strings
  import opened Sorting
  import opened Sums
  import Proration

  // ---------------------------------------------------------------------
  // Keys and their order

  /** A purchase point in a month: the key every balance row is grouped by. */
  datatype BocaMes = BocaMes(idBoca: string, periodoMes: string)

  /** The comparator of both sorts: by `idBoca`, then by `periodoMes`,
      each by `localeCompare`, read as code-unit order (the real collation
      agrees only on keys of digits and upper-case letters);
      `KeyLe(a, b)` is "the comparator gives at most 0". */
  predicate KeyLe(a: BocaMes, b: BocaMes) {
    if a.idBoca == b.idBoca then LexLe(a.periodoMes, b.periodoMes) else LexLe(a.idBoca, b.idBoca)
  }

  predicate KeyLt(a: BocaMes, b: BocaMes) {
    KeyLe(a, b) && a != b
  }

  lemma KeyLeTotal(a: BocaMes, b: BocaMes)
    ensures KeyLe(a, b) || KeyLe(b, a)
  {
    LexLeTotal(a.idBoca, b.idBoca);
    LexLeTotal(a.periodoMes, b.periodoMes);
  }

  lemma KeyLeTrans(a: BocaMes, b: BocaMes, c: BocaMes)
    requires KeyLe(a, b) && KeyLe(b, c)
    ensures KeyLe(a, c)
  {
    if a.idBoca == b.idBoca == c.idBoca {
      LexLeTrans(a.periodoMes, b.periodoMes, c.periodoMes);
    } else if a.idBoca == b.idBoca {
      assert LexLe(b.idBoca, c.idBoca);
    } else if b.idBoca == c.idBoca {
      assert LexLe(a.idBoca, b.idBoca);
    } else {
      LexLeTrans(a.idBoca, b.idBoca, c.idBoca);
      if a.idBoca == c.idBoca {
        LexLeAntisym(a.idBoca, b.idBoca);
      }
    }
  }

  /** The comparator returns 0 only for equal keys. */
  lemma KeyLeAntisym(a: BocaMes, b: BocaMes)
    requires KeyLe(a, b) && KeyLe(b, a)
    ensures a == b
  {
    if a.idBoca == b.idBoca {
      LexLeAntisym(a.periodoMes, b.periodoMes);
    } else {
      LexLeAntisym(a.idBoca, b.idBoca);
    }
  }

  /** The rows of `s` have pairwise different keys. */
  predicate DistinctKeys<T>(s: seq<T>, key: T -> BocaMes) {
    forall i, j :: 0 <= i < j < |s| ==> key(s[i]) != key(s[j])
  }

  /** Some row of `s` has key `k`. */
  predicate HasKey<T>(s: seq<T>, key: T -> BocaMes, k: BocaMes) {
    exists i :: 0 <= i < |s| && key(s[i]) == k
  }

  /** Sorting by key keeps keys distinct and, with distinct keys, leaves
      them strictly ascending. */
  lemma {:induction false} SortByKey<T(!new)>(s: seq<T>, key: T -> BocaMes, le: (T, T) -> bool)
    requires forall a, b :: le(a, b) == KeyLe(key(a), key(b))
    requires DistinctKeys(s, key)
    ensures DistinctKeys(Sort(s, le), key)
    ensures forall i, j :: 0 <= i < j < |Sort(s, le)| ==> KeyLt(key(Sort(s, le)[i]), key(Sort(s, le)[j]))
    ensures forall k :: HasKey(Sort(s, le), key, k) <==> HasKey(s, key, k)
  {
    var r := Sort(s, le);
    forall a, b
      ensures le(a, b) || le(b, a)
    {
      KeyLeTotal(key(a), key(b));
    }
    forall a, b, c | le(a, b) && le(b, c)
      ensures le(a, c)
    {
      KeyLeTrans(key(a), key(b), key(c));
    }
    var any := (a: T, b: T) => true;
    SortStable(s, le, any);
    SortKeepsDistinct(s, key, le);
    forall i, j | 0 <= i < j < |r|
      ensures KeyLt(key(r[i]), key(r[j]))
    {
      assert le(r[i], r[j]);
    }
    forall k
      ensures HasKey(r, key, k) <==> HasKey(s, key, k)
    {
      if HasKey(r, key, k) {
        var i :| 0 <= i < |r| && key(r[i]) == k;
        assert r[i] in multiset(s);
        var j :| 0 <= j < |s| && s[j] == r[i];
      }
      if HasKey(s, key, k) {
        var i :| 0 <= i < |s| && key(s[i]) == k;
        assert s[i] in multiset(r);
        var j :| 0 <= j < |r| && r[j] == s[i];
      }
    }
  }

  lemma {:induction false} SortKeepsDistinct<T>(s: seq<T>, key: T -> BocaMes, le: (T, T) -> bool)
    requires DistinctKeys(s, key)
    ensures DistinctKeys(Sort(s, le), key)
  {
    if |s| > 0 {
      var rest := Sort(s[1..], le);
      SortKeepsDistinct(s[1..], key, le);
      forall y | y in rest
        ensures key(y) != key(s[0])
      {
        assert y in multiset(s[1..]);
        var k :| 0 <= k < |s[1..]| && s[1..][k] == y;
        assert s[k + 1] == y;
      }
      InsertKeepsDistinct(s[0], rest, key, le);
    }
  }

  lemma {:induction false} InsertKeepsDistinct<T>(x: T, s: seq<T>, key: T -> BocaMes, le: (T, T) -> bool)
    requires DistinctKeys(s, key)
    requires forall y :: y in s ==> key(y) != key(x)
    ensures DistinctKeys(Insert(x, s, le), key)
  {
    if |s| > 0 && !le(x, s[0]) {
      var rest := Insert(x, s[1..], le);
      InsertKeepsDistinct(x, s[1..], key, le);
      forall j | 0 < j < |[s[0]] + rest|
        ensures key(s[0]) != key(([s[0]] + rest)[j])
      {
        var y := rest[j - 1];
        assert y in multiset(s[1..]) + multiset{x};
        if y != x {
          assert y in multiset(s[1..]);
          var k :| 0 <= k < |s[1..]| && s[1..][k] == y;
          assert s[k + 1] == y;
        } else {
          assert s[0] in s;
        }
      }
    } else if |s| > 0 {
      forall i, j | 0 <= i < j < |[x] + s|
        ensures key(([x] + s)[i]) != key(([x] + s)[j])
      {
        if i == 0 {
          assert s[j - 1] in s;
        }
      }
    }
  }

  /** `findIndex` of the first row with key `k`; for a JavaScript `Map`
      keyed by the row key, the slot `get` and `set` address. */
  function FindKey<T>(s: seq<T>, key: T -> BocaMes, k: BocaMes): (r: Option<nat>)
    ensures r.Some? ==> r.value < |s| && key(s[r.value]) == k
    ensures r.Some? ==> forall j :: 0 <= j < r.value ==> key(s[j]) != k
    ensures r.None? <==> !HasKey(s, key, k)
  {
    if |s| == 0 then None
    else if key(s[0]) == k then Some(0)
    else match FindKey(s[1..], key, k)
      case None =>
        assert forall j :: 1 <= j < |s| ==> s[j] == s[1..][j - 1];
        None
      case Some(i) => Some(i + 1)
  }

  /** The row with key `k` rewritten by `update`, or `added` appended when
      there is none: a `Map` `get` followed by an in-place update or a `set`,
      or equally a `findIndex` followed by an update or a `push`. */
  function Upsert<T>(s: seq<T>, key: T -> BocaMes, k: BocaMes, update: T -> T, added: T): seq<T> {
    match FindKey(s, key, k)
    case Some(i) => s[i := update(s[i])]
    case None => s + [added]
  }

  /** With distinct keys, an upsert rewrites exactly the row of its key, or
      appends `added` at the end; keys stay distinct. */
  lemma {:induction false} UpsertSpec<T>(s: seq<T>, key: T -> BocaMes, k: BocaMes, update: T -> T, added: T)
    requires DistinctKeys(s, key)
    requires key(added) == k
    requires forall x :: key(x) == k ==> key(update(x)) == k
    ensures var r := Upsert(s, key, k, update, added);
      && DistinctKeys(r, key)
      && (forall k' :: HasKey(r, key, k') <==> HasKey(s, key, k') || k' == k)
      && |r| == (if HasKey(s, key, k) then |s| else |s| + 1)
      && (forall i :: 0 <= i < |s| ==> r[i] == if key(s[i]) == k then update(s[i]) else s[i])
      && (!HasKey(s, key, k) ==> r[|s|] == added)
  {
    var r := Upsert(s, key, k, update, added);
    match FindKey(s, key, k)
    case Some(i) =>
      forall k'
        ensures HasKey(r, key, k') <==> HasKey(s, key, k') || k' == k
      {
        if HasKey(r, key, k') {
          var j :| 0 <= j < |r| && key(r[j]) == k';
          assert key(s[j]) == k';
        }
        if HasKey(s, key, k') {
          var j :| 0 <= j < |s| && key(s[j]) == k';
          assert key(r[j]) == k';
        }
        if k' == k {
          assert key(r[i]) == k';
        }
      }
    case None =>
      assert r == s + [added];
      forall k'
        ensures HasKey(r, key, k') <==> HasKey(s, key, k') || k' == k
      {
        if HasKey(r, key, k') {
          var j :| 0 <= j < |r| && key(r[j]) == k';
          if j < |s| {
            assert key(s[j]) == k';
          }
        }
        if HasKey(s, key, k') {
          var j :| 0 <= j < |s| && key(s[j]) == k';
          assert key(r[j]) == k';
        }
        if k' == k {
          assert key(r[|s|]) == k';
        }
      }
  }

  // ---------------------------------------------------------------------
  // Purchases

  /** A `groupBy` row of purchases; a sum over no non-null value is null. */
  datatype CompraGroup = CompraGroup(
    idBoca: string,
    periodoMes: string,
    sumKwh: Option<real>,
    sumImporte: Option<real>)

  /** A `BalanceCompraPorBoca`. */
  datatype Compra = Compra(
    idBoca: string,
    periodoMes: string,
    kwhCompradosMes: real,
    importeCompradoMes: real)

  function CKey(c: Compra): BocaMes {
    BocaMes(c.idBoca, c.periodoMes)
  }

  function KwhOfCompra(c: Compra): real {
    c.kwhCompradosMes
  }

  function ImporteOfCompra(c: Compra): real {
    c.importeCompradoMes
  }

  /** `getBalanceCompraPorBoca` after the query: one row per group, in
      group order, a missing sum read as 0. */
  function GetBalanceCompraPorBoca(groups: seq<CompraGroup>): (r: seq<Compra>)
    ensures |r| == |groups|
    ensures forall i :: 0 <= i < |r| ==>
      && CKey(r[i]) == BocaMes(groups[i].idBoca, groups[i].periodoMes)
      && (groups[i].sumKwh.None? ==> r[i].kwhCompradosMes == 0.0)
      && (groups[i].sumImporte.None? ==> r[i].importeCompradoMes == 0.0)
      && (groups[i].sumKwh.Some? ==> r[i].kwhCompradosMes == groups[i].sumKwh.value)
      && (groups[i].sumImporte.Some? ==> r[i].importeCompradoMes == groups[i].sumImporte.value)
  {
    seq(|groups|, i requires 0 <= i < |groups| =>
      Compra(groups[i].idBoca, groups[i].periodoMes, groups[i].sumKwh.GetOr(0.0), groups[i].sumImporte.GetOr(0.0)))
  }

  // ---------------------------------------------------------------------
  // Sales

  /** A `groupBy` row of monthly-billed sales. */
  datatype VentaGroup = VentaGroup(
    idBoca: string,
    periodoMes: string,
    sumKwh: Option<real>,
    sumImporte: Option<real>)

  /** A bimestral-billed sales record; the nullable columns are options. */
  datatype VentaBimestral = VentaBimestral(
    idBoca: string,
    periodoBimestre: Option<string>,
    kwhVendidosBim: Option<real>,
    importeVendidoBim: Option<real>)

  /** A `BalanceVentaPorBoca`. */
  datatype Venta = Venta(
    idBoca: string,
    periodoMes: string,
    kwhVendidosMes: real,
    importeVendidoMes: real)

  /** The inclusive month range of a `BalanceQuery`. */
  datatype BalanceQuery = BalanceQuery(periodoInicio: string, periodoFin: string)

  function VKey(v: Venta): BocaMes {
    BocaMes(v.idBoca, v.periodoMes)
  }

  function KwhOfVenta(v: Venta): real {
    v.kwhVendidosMes
  }

  function ImporteOfVenta(v: Venta): real {
    v.importeVendidoMes
  }

  /** The monthly rows, one per group, a missing sum read as 0. */
  function VentasMensuales(groups: seq<VentaGroup>): (r: seq<Venta>)
    ensures |r| == |groups|
    ensures forall i :: 0 <= i < |r| ==> VKey(r[i]) == BocaMes(groups[i].idBoca, groups[i].periodoMes)
    ensures forall i :: 0 <= i < |r| ==>
      && (groups[i].sumKwh.None? ==> r[i].kwhVendidosMes == 0.0)
      && (groups[i].sumImporte.None? ==> r[i].importeVendidoMes == 0.0)
      && (groups[i].sumKwh.Some? ==> r[i].kwhVendidosMes == groups[i].sumKwh.value)
      && (groups[i].sumImporte.Some? ==> r[i].importeVendidoMes == groups[i].sumImporte.value)
  {
    seq(|groups|, i requires 0 <= i < |groups| =>
      Venta(groups[i].idBoca, groups[i].periodoMes, groups[i].sumKwh.GetOr(0.0), groups[i].sumImporte.GetOr(0.0)))
  }

  /** `s.periodoMes >= periodoInicio && s.periodoMes <= periodoFin`. */
  predicate InRange(q: BalanceQuery, mes: string) {
    LexLe(q.periodoInicio, mes) && LexLe(mes, q.periodoFin)
  }

  /** Adds a month share of boca `idBoca` into the row with its key, or
      appends a new row when there is none. */
  function AddSale(acc: seq<Venta>, idBoca: string, share: Proration.MonthShare): seq<Venta> {
    Upsert(acc, VKey, BocaMes(idBoca, share.periodoMes),
      (v: Venta) => v.(kwhVendidosMes := v.kwhVendidosMes + share.kwhVendidosMes,
                       importeVendidoMes := v.importeVendidoMes + share.importeMes),
      Venta(idBoca, share.periodoMes, share.kwhVendidosMes, share.importeMes))
  }

  /** The `mensualizeVentaBimestral` request built from a record: a missing
      bimestre is the empty string, missing amounts are 0. */
  function RequestOf(row: VentaBimestral): Proration.MensualizeRequest {
    Proration.MensualizeRequest(row.periodoBimestre.GetOr(""), row.kwhVendidosBim.GetOr(0.0),
      Some(row.importeVendidoBim.GetOr(0.0)))
  }

  /** One bimestral record: its in-range month shares added in order; a
      record whose bimestre does not parse leaves the rows as they are. */
  function AddBimestral(acc: seq<Venta>, q: BalanceQuery, row: VentaBimestral): seq<Venta> {
    match Proration.MensualizeVentaBimestral(RequestOf(row))
    case Err(_) => acc
    case Ok(shares) => AddShares(acc, q, row.idBoca, shares)
  }

  /** The two month shares of one record, each added when in range. */
  function AddShares(acc: seq<Venta>, q: BalanceQuery, idBoca: string, shares: seq<Proration.MonthShare>): seq<Venta>
    requires |shares| == 2
  {
    var a1 := if InRange(q, shares[0].periodoMes) then AddSale(acc, idBoca, shares[0]) else acc;
    if InRange(q, shares[1].periodoMes) then AddSale(a1, idBoca, shares[1]) else a1
  }

  /** The loop over the bimestral records, in order. */
  function MergeBimestrales(acc: seq<Venta>, q: BalanceQuery, rows: seq<VentaBimestral>): seq<Venta> {
    if |rows| == 0 then acc
    else AddBimestral(MergeBimestrales(acc, q, rows[..|rows| - 1]), q, rows[|rows| - 1])
  }

  /** A month share of boca `idBoca` that lands on key `key` and is in range. */
  predicate ShareBrings(q: BalanceQuery, idBoca: string, share: Proration.MonthShare, key: BocaMes) {
    InRange(q, share.periodoMes) && key == BocaMes(idBoca, share.periodoMes)
  }

  /** The record parses and one of its in-range shares lands on `key`. */
  predicate Brings(q: BalanceQuery, row: VentaBimestral, key: BocaMes) {
    match Proration.MensualizeVentaBimestral(RequestOf(row))
    case Err(_) => false
    case Ok(shares) => ShareBrings(q, row.idBoca, shares[0], key) || ShareBrings(q, row.idBoca, shares[1], key)
  }

  /** The comparator of the final sort. */
  predicate VentaLe(a: Venta, b: Venta) {
    KeyLe(VKey(a), VKey(b))
  }

  /** `getBalanceVentaPorBoca` after the two queries. */
  function GetBalanceVentaPorBoca(q: BalanceQuery, mensuales: seq<VentaGroup>, bimestrales: seq<VentaBimestral>)
    : seq<Venta>
  {
    Sort(MergeBimestrales(VentasMensuales(mensuales), q, bimestrales), VentaLe)
  }

  // ---------------------------------------------------------------------
  // Totals per key

  /** kWh recorded under key `k`. */
  function KwhAt(s: seq<Venta>, k: BocaMes): real {
    SumBy(s, (v: Venta) => if VKey(v) == k then v.kwhVendidosMes else 0.0)
  }

  /** Amount recorded under key `k`. */
  function ImporteAt(s: seq<Venta>, k: BocaMes): real {
    SumBy(s, (v: Venta) => if VKey(v) == k then v.importeVendidoMes else 0.0)
  }

  /** kWh a share of boca `idBoca` brings to key `k` when it is in range. */
  function ShareKwh(q: BalanceQuery, idBoca: string, share: Proration.MonthShare, k: BocaMes): real {
    if InRange(q, share.periodoMes) && BocaMes(idBoca, share.periodoMes) == k then share.kwhVendidosMes else 0.0
  }

  function ShareImporte(q: BalanceQuery, idBoca: string, share: Proration.MonthShare, k: BocaMes): real {
    if InRange(q, share.periodoMes) && BocaMes(idBoca, share.periodoMes) == k then share.importeMes else 0.0
  }

  /** What a bimestral record brings to key `k`: its in-range shares with that
      key; nothing when its bimestre does not parse. */
  function ContribKwh(q: BalanceQuery, row: VentaBimestral, k: BocaMes): real {
    match Proration.MensualizeVentaBimestral(RequestOf(row))
    case Err(_) => 0.0
    case Ok(shares) => ShareKwh(q, row.idBoca, shares[0], k) + ShareKwh(q, row.idBoca, shares[1], k)
  }

  function ContribImporte(q: BalanceQuery, row: VentaBimestral, k: BocaMes): real {
    match Proration.MensualizeVentaBimestral(RequestOf(row))
    case Err(_) => 0.0
    case Ok(shares) => ShareImporte(q, row.idBoca, shares[0], k) + ShareImporte(q, row.idBoca, shares[1], k)
  }

  /** Adding a share keeps keys distinct and adds at most its own key. */
  lemma {:induction false} AddSaleKeys(acc: seq<Venta>, idBoca: string, share: Proration.MonthShare)
    requires DistinctKeys(acc, VKey)
    ensures DistinctKeys(AddSale(acc, idBoca, share), VKey)
    ensures forall key :: (HasKey(AddSale(acc, idBoca, share), VKey, key)
      <==> HasKey(acc, VKey, key) || key == BocaMes(idBoca, share.periodoMes))
  {
    UpsertSpec(acc, VKey, BocaMes(idBoca, share.periodoMes),
      (v: Venta) => v.(kwhVendidosMes := v.kwhVendidosMes + share.kwhVendidosMes,
                       importeVendidoMes := v.importeVendidoMes + share.importeMes),
      Venta(idBoca, share.periodoMes, share.kwhVendidosMes, share.importeMes));
  }

  /** Adding a share raises the total of its own key by its amount and
      leaves every other key's total alone. */
  lemma {:induction false} AddSaleTotals(acc: seq<Venta>, idBoca: string, share: Proration.MonthShare, k: BocaMes)
    requires DistinctKeys(acc, VKey)
    ensures KwhAt(AddSale(acc, idBoca, share), k) == KwhAt(acc, k)
      + (if BocaMes(idBoca, share.periodoMes) == k then share.kwhVendidosMes else 0.0)
    ensures ImporteAt(AddSale(acc, idBoca, share), k) == ImporteAt(acc, k)
      + (if BocaMes(idBoca, share.periodoMes) == k then share.importeMes else 0.0)
  {
    var sk := BocaMes(idBoca, share.periodoMes);
    var fk := (v: Venta) => if VKey(v) == k then v.kwhVendidosMes else 0.0;
    var fi := (v: Venta) => if VKey(v) == k then v.importeVendidoMes else 0.0;
    var r := AddSale(acc, idBoca, share);
    match FindKey(acc, VKey, sk)
    case Some(i) =>
      var v := acc[i].(kwhVendidosMes := acc[i].kwhVendidosMes + share.kwhVendidosMes,
                       importeVendidoMes := acc[i].importeVendidoMes + share.importeMes);
      SumUpdate(acc, i, v, fk);
      SumUpdate(acc, i, v, fi);
      assert r == acc[i := v];
    case None =>
      var v := Venta(idBoca, share.periodoMes, share.kwhVendidosMes, share.importeMes);
      assert r == acc + [v];
      assert r[..|r| - 1] == acc;
  }

  /** One record keeps keys distinct and adds only in-range keys. */
  lemma {:induction false} AddBimestralKeys(acc: seq<Venta>, q: BalanceQuery, row: VentaBimestral)
    requires DistinctKeys(acc, VKey)
    ensures DistinctKeys(AddBimestral(acc, q, row), VKey)
    ensures forall key :: HasKey(AddBimestral(acc, q, row), VKey, key) ==>
      HasKey(acc, VKey, key) || InRange(q, key.periodoMes)
    ensures forall key :: HasKey(AddBimestral(acc, q, row), VKey, key) <==>
      HasKey(acc, VKey, key) || Brings(q, row, key)
  {
    match Proration.MensualizeVentaBimestral(RequestOf(row))
    case Err(_) =>
    case Ok(shares) => AddSharesKeys(acc, q, row.idBoca, shares);
  }

  lemma {:induction false} AddSharesKeys(acc: seq<Venta>, q: BalanceQuery, idBoca: string, shares: seq<Proration.MonthShare>)
    requires |shares| == 2
    requires DistinctKeys(acc, VKey)
    ensures DistinctKeys(AddShares(acc, q, idBoca, shares), VKey)
    ensures forall key :: HasKey(AddShares(acc, q, idBoca, shares), VKey, key) ==>
      HasKey(acc, VKey, key) || InRange(q, key.periodoMes)
    ensures forall key :: HasKey(AddShares(acc, q, idBoca, shares), VKey, key) <==>
      HasKey(acc, VKey, key) || ShareBrings(q, idBoca, shares[0], key) || ShareBrings(q, idBoca, shares[1], key)
  {
    var a1 := if InRange(q, shares[0].periodoMes) then AddSale(acc, idBoca, shares[0]) else acc;
    if InRange(q, shares[0].periodoMes) {
      AddSaleKeys(acc, idBoca, shares[0]);
    }
    if InRange(q, shares[1].periodoMes) {
      AddSaleKeys(a1, idBoca, shares[1]);
    }
  }

  /** Totals after one record: what was there plus what the record brings. */
  lemma {:induction false} AddBimestralTotals(acc: seq<Venta>, q: BalanceQuery, row: VentaBimestral, k: BocaMes)
    requires DistinctKeys(acc, VKey)
    ensures KwhAt(AddBimestral(acc, q, row), k) == KwhAt(acc, k) + ContribKwh(q, row, k)
    ensures ImporteAt(AddBimestral(acc, q, row), k) == ImporteAt(acc, k) + ContribImporte(q, row, k)
  {
    match Proration.MensualizeVentaBimestral(RequestOf(row))
    case Err(_) =>
    case Ok(shares) => AddSharesTotals(acc, q, row.idBoca, shares, k);
  }

  lemma {:induction false} AddSharesTotals(
    acc: seq<Venta>, q: BalanceQuery, idBoca: string, shares: seq<Proration.MonthShare>, k: BocaMes)
    requires |shares| == 2
    requires DistinctKeys(acc, VKey)
    ensures KwhAt(AddShares(acc, q, idBoca, shares), k)
      == KwhAt(acc, k) + ShareKwh(q, idBoca, shares[0], k) + ShareKwh(q, idBoca, shares[1], k)
    ensures ImporteAt(AddShares(acc, q, idBoca, shares), k)
      == ImporteAt(acc, k) + ShareImporte(q, idBoca, shares[0], k) + ShareImporte(q, idBoca, shares[1], k)
  {
    var a1 := if InRange(q, shares[0].periodoMes) then AddSale(acc, idBoca, shares[0]) else acc;
    if InRange(q, shares[0].periodoMes) {
      AddSaleKeys(acc, idBoca, shares[0]);
      AddSaleTotals(acc, idBoca, shares[0], k);
    }
    if InRange(q, shares[1].periodoMes) {
      AddSaleTotals(a1, idBoca, shares[1], k);
    }
  }

  /** Per key, the merged total is the starting total plus the sum of what
      each record brings: in-range shares are added into the existing row of
      their key, out-of-range shares and unparsable records add nothing.
      Keys stay distinct. */
  lemma {:induction false} MergeTotals(acc: seq<Venta>, q: BalanceQuery, rows: seq<VentaBimestral>, k: BocaMes)
    requires DistinctKeys(acc, VKey)
    ensures KwhAt(MergeBimestrales(acc, q, rows), k)
      == KwhAt(acc, k) + SumBy(rows, (row: VentaBimestral) => ContribKwh(q, row, k))
    ensures ImporteAt(MergeBimestrales(acc, q, rows), k)
      == ImporteAt(acc, k) + SumBy(rows, (row: VentaBimestral) => ContribImporte(q, row, k))
  {
    if |rows| > 0 {
      var prefix := rows[..|rows| - 1];
      MergeTotals(acc, q, prefix, k);
      MergeKeys(acc, q, prefix);
      AddBimestralTotals(MergeBimestrales(acc, q, prefix), q, rows[|rows| - 1], k);
    }
  }

  /** A record whose bimestre does not parse is skipped and the loop goes on:
      the result is as if it were not there. */
  lemma {:induction false} MalformedContributesNothing(
    acc: seq<Venta>, q: BalanceQuery, pre: seq<VentaBimestral>, bad: VentaBimestral, post: seq<VentaBimestral>)
    requires Proration.MensualizeVentaBimestral(RequestOf(bad)).Err?
    ensures MergeBimestrales(acc, q, pre + [bad] + post) == MergeBimestrales(acc, q, pre + post)
  {
    if |post| == 0 {
      assert (pre + [bad] + post)[..|pre| + 1 - 1] == pre;
      assert pre + post == pre;
    } else {
      var last := post[|post| - 1];
      assert (pre + [bad] + post)[..|pre + [bad] + post| - 1] == pre + [bad] + post[..|post| - 1];
      assert (pre + post)[..|pre + post| - 1] == pre + post[..|post| - 1];
      MalformedContributesNothing(acc, q, pre, bad, post[..|post| - 1]);
    }
  }

  /** Merging keeps keys distinct; a merged row's key is a starting key or
      an in-range one, and exactly the starting keys and the keys some
      record brings are there. */
  lemma {:induction false} MergeKeys(acc: seq<Venta>, q: BalanceQuery, rows: seq<VentaBimestral>)
    requires DistinctKeys(acc, VKey)
    ensures DistinctKeys(MergeBimestrales(acc, q, rows), VKey)
    ensures forall key :: HasKey(MergeBimestrales(acc, q, rows), VKey, key) ==>
      HasKey(acc, VKey, key) || InRange(q, key.periodoMes)
    ensures forall key :: HasKey(MergeBimestrales(acc, q, rows), VKey, key) <==>
      HasKey(acc, VKey, key) || SomeBrings(q, rows, key)
  {
    if |rows| > 0 {
      var prefix := rows[..|rows| - 1];
      MergeKeys(acc, q, prefix);
      AddBimestralKeys(MergeBimestrales(acc, q, prefix), q, rows[|rows| - 1]);
      SomeBringsSnoc(q, rows);
    }
  }

  /** Some record of `rows` brings `key`. */
  predicate SomeBrings(q: BalanceQuery, rows: seq<VentaBimestral>, key: BocaMes) {
    AnySat(rows, (row: VentaBimestral) => Brings(q, row, key))
  }

  /** Some element of `s` satisfies `p`. */
  predicate AnySat<T>(s: seq<T>, p: T -> bool) {
    exists j :: 0 <= j < |s| && p(s[j])
  }

  lemma AnySatSnoc<T>(s: seq<T>, p: T -> bool)
    requires |s| > 0
    ensures AnySat(s, p) <==> AnySat(s[..|s| - 1], p) || p(s[|s| - 1])
  {
    if AnySat(s, p) {
      var j :| 0 <= j < |s| && p(s[j]);
      if j < |s| - 1 {
        assert s[..|s| - 1][j] == s[j];
      }
    }
    if AnySat(s[..|s| - 1], p) {
      var j :| 0 <= j < |s| - 1 && p(s[..|s| - 1][j]);
      assert s[j] == s[..|s| - 1][j];
    }
  }

  lemma SomeBringsSnoc(q: BalanceQuery, rows: seq<VentaBimestral>)
    requires |rows| > 0
    ensures forall key :: SomeBrings(q, rows, key) <==>
      SomeBrings(q, rows[..|rows| - 1], key) || Brings(q, rows[|rows| - 1], key)
  {
    forall key
      ensures SomeBrings(q, rows, key) <==>
        SomeBrings(q, rows[..|rows| - 1], key) || Brings(q, rows[|rows| - 1], key)
    {
      AnySatSnoc(rows, (row: VentaBimestral) => Brings(q, row, key));
    }
  }

  /** `getBalanceVentaPorBoca`: with distinct monthly keys (as a `groupBy`
      gives), one row per key, strictly ascending by (idBoca, periodoMes);
      each key's kWh and amount are its monthly sum plus the in-range shares
      of the bimestral records; every key is a monthly key or in range. */
  lemma {:induction false} BalanceVentaSpec(
    q: BalanceQuery, mensuales: seq<VentaGroup>, bimestrales: seq<VentaBimestral>, k: BocaMes)
    requires DistinctKeys(VentasMensuales(mensuales), VKey)
    ensures var r := GetBalanceVentaPorBoca(q, mensuales, bimestrales);
      && DistinctKeys(r, VKey)
      && (forall i, j :: 0 <= i < j < |r| ==> KeyLt(VKey(r[i]), VKey(r[j])))
      && KwhAt(r, k) == KwhAt(VentasMensuales(mensuales), k)
           + SumBy(bimestrales, (row: VentaBimestral) => ContribKwh(q, row, k))
      && ImporteAt(r, k) == ImporteAt(VentasMensuales(mensuales), k)
           + SumBy(bimestrales, (row: VentaBimestral) => ContribImporte(q, row, k))
      && (forall key :: HasKey(r, VKey, key) ==> HasKey(VentasMensuales(mensuales), VKey, key) || InRange(q, key.periodoMes))
      && (forall key :: HasKey(r, VKey, key) <==>
            HasKey(VentasMensuales(mensuales), VKey, key) || SomeBrings(q, bimestrales, key))
  {
    var base := VentasMensuales(mensuales);
    var m := MergeBimestrales(base, q, bimestrales);
    MergeTotals(base, q, bimestrales, k);
    MergeKeys(base, q, bimestrales);
    SortByKey(m, VKey, VentaLe);
    SumSort(m, VentaLe, (v: Venta) => if VKey(v) == k then v.kwhVendidosMes else 0.0);
    SumSort(m, VentaLe, (v: Venta) => if VKey(v) == k then v.importeVendidoMes else 0.0);
  }
}

=== FILE: controller.dfy ===
/** The logic `src/modules/analytics/controller.ts` adds around the service:
    the `periodo` and `limite` checks of the path and query, the statistics
    attached to the loss analysis and to the alerts, and the `meta` totals of
    the balance endpoints. The replies themselves (status codes sent through
    Fastify, the `generadoEn` timestamp) are reduced to their data. */
module Controller {
  import opened Wrappers
  import opened Strings
  import opened Rounding
  import opened Sums
  import opened Balance
  import opened General
  import opened Reports
  import Period

  /** A `400` reply and its error text. */
  datatype Rejection = Rejection(status: nat, error: string)

  // ---------------------------------------------------------------------
  // Path and query checks

  const PeriodoInvalido: string := "Formato de período inválido. Use YYYY-MM"
  const LimiteInvalido: string := "Límite debe estar entre 1 y 100"

  /** `/^\d{4}-\d{2}$/.test(periodo)`, the check of the `resumen`,
      `top-perdidas` and `alertas` routes. */
  function CheckPeriodo(periodo: string): (r: Result<string, Rejection>)
    ensures r.Ok? ==> r.value == periodo
    ensures r.Err? ==> r.error == Rejection(400, PeriodoInvalido)
    ensures r.Ok? ==> |periodo| == 7 && periodo[4] == '-'
  {
    if Period.MonthFormat(periodo) then Ok(periodo) else Err(Rejection(400, PeriodoInvalido))
  }

  /** Every valid month passes the route's check. */
  lemma ValidPeriodoPasses(periodo: string)
    requires Period.IsValidPeriodoMes(periodo)
    ensures CheckPeriodo(periodo).Ok?
  {
  }

  /** The check is on the format only: a month 13 and a year before 2020
      pass it although neither is a valid month. */
  lemma PeriodoCheckIsFormatOnly()
    ensures CheckPeriodo("2024-13").Ok? && !Period.IsValidPeriodoMes("2024-13")
    ensures CheckPeriodo("1999-01").Ok? && !Period.IsValidPeriodoMes("1999-01")
    ensures CheckPeriodo("2024-1").Err? && CheckPeriodo("2024/01").Err?
  {
    assert Period.MonthOf("2024-13") == 13;
    assert Period.YearOf("1999-01") == 1999;
  }

  /** `query.limite ? parseInt(query.limite, 10) : 10`, then the bounds
      check. An absent or empty `limite` is 10. A value that does not parse is
      `NaN`, which neither comparison rejects, so it is passed on. */
  function CheckLimite(raw: Option<string>): (r: Result<ParsedInt, Rejection>)
    ensures (raw.None? || raw == Some("")) ==> r == Ok(Num(10))
    ensures r.Err? ==> r.error == Rejection(400, LimiteInvalido)
    ensures r.Ok? && r.value.Num? ==> 1 <= r.value.n <= 100
    ensures raw.Some? && raw.value != "" ==>
      (r.Err? <==> (ParseInt(raw.value).Num? && !(1 <= ParseInt(raw.value).n <= 100)))
  {
    var limite := if raw.Some? && raw.value != "" then ParseInt(raw.value) else Num(10);
    if limite.Num? && (limite.n < 1 || limite.n > 100) then Err(Rejection(400, LimiteInvalido))
    else Ok(limite)
  }

  /** A string of digits, as the route's query schema admits, is accepted
      exactly when its value is in 1..100, and is then passed on unchanged. */
  lemma {:induction false} LimiteOfDigits(s: string)
    requires AllDigits(s) && |s| > 0
    ensures CheckLimite(Some(s)).Ok? <==> 1 <= DigitsValue(s) <= 100
    ensures CheckLimite(Some(s)).Ok? ==> CheckLimite(Some(s)).value == Num(DigitsValue(s))
  {
    ParseIntOfDigits(s);
  }

  /** A `limite` without digits reaches the service as `NaN`. */
  lemma LimiteNaNPasses()
    ensures CheckLimite(Some("abc")) == Ok(NaN)
  {
    assert !IsWhitespace('a') && !IsDigit('a');
    assert TrimStart("abc") == "abc";
    assert DigitPrefix("abc") == [];
  }

  /** The integer `slice(0, limite)` uses for the number: `NaN` counts as 0. */
  function SliceLimit(l: ParsedInt): (n: int)
    ensures l.Num? ==> n == l.n
    ensures l.NaN? ==> n == 0
  {
    match l
    case Num(n) => n
    case NaN => 0
  }

  /** `GET /analytics/top-perdidas/:periodo` on the month's rows: the two
      checks, then `getTopPerdidas`. */
  function TopPerdidasEndpoint(periodo: string, limite: Option<string>, balances: seq<BalanceGeneral>, infos: seq<BocaInfo>)
    : (r: Result<seq<TopPerdida>, Rejection>)
    ensures !Period.MonthFormat(periodo) ==> r == Err(Rejection(400, PeriodoInvalido))
    ensures r.Ok? ==> |r.value| <= 100 && |r.value| <= |balances|
    ensures Period.MonthFormat(periodo) && limite.None? ==>
      r.Ok? && |r.value| == (if |balances| < 10 then |balances| else 10)
  {
    match CheckPeriodo(periodo)
    case Err(e) => Err(e)
    case Ok(_) =>
      match CheckLimite(limite)
      case Err(e) => Err(e)
      case Ok(l) => Ok(GetTopPerdidas(balances, infos, SliceLimit(l)))
  }

  // ---------------------------------------------------------------------
  // Statistics of the loss analysis

  /** The `distribucionNiveles` block. */
  datatype DistribucionNiveles = DistribucionNiveles(normal: nat, moderada: nat, alta: nat, critica: nat)

  /** The `estadisticas` of `GET /analytics/analisis-perdida`. */
  datatype EstadisticasAnalisis = EstadisticasAnalisis(
    totalBocas: nat,
    perdidaPromedio: real,
    distribucionNiveles: DistribucionNiveles,
    mayorPerdida: real,
    menorPerdida: real)

  function Pct(a: AnalisisPerdida): real {
    a.balance.perdidaPorcentaje
  }

  /** `a.nivelPerdida === n`. */
  function NivelIs(n: Period.Nivel): AnalisisPerdida -> bool {
    (a: AnalisisPerdida) => a.balance.nivelPerdida == n
  }

  /** `Math.max(...s.map(a => a.perdidaPorcentaje))` on a non-empty list. */
  function MaxPct(s: seq<AnalisisPerdida>): (m: real)
    requires |s| > 0
    ensures forall i :: 0 <= i < |s| ==> Pct(s[i]) <= m
    ensures exists i :: 0 <= i < |s| && Pct(s[i]) == m
  {
    if |s| == 1 then Pct(s[0])
    else
      var m := MaxPct(s[..|s| - 1]);
      assert forall i :: 0 <= i < |s| - 1 ==> s[..|s| - 1][i] == s[i];
      if Pct(s[|s| - 1]) > m then Pct(s[|s| - 1]) else m
  }

  /** `Math.min(...s.map(a => a.perdidaPorcentaje))` on a non-empty list. */
  function MinPct(s: seq<AnalisisPerdida>): (m: real)
    requires |s| > 0
    ensures forall i :: 0 <= i < |s| ==> m <= Pct(s[i])
    ensures exists i :: 0 <= i < |s| && Pct(s[i]) == m
  {
    if |s| == 1 then Pct(s[0])
    else
      var m := MinPct(s[..|s| - 1]);
      assert forall i :: 0 <= i < |s| - 1 ==> s[..|s| - 1][i] == s[i];
      if Pct(s[|s| - 1]) < m then Pct(s[|s| - 1]) else m
  }

  /** The statistics block: the average of the row percentages rounded to
      hundredths, the tier counts, and the largest and smallest percentage;
      all figures 0 on an empty analysis. */
  function EstadisticasDeAnalisis(analisis: seq<AnalisisPerdida>): (e: EstadisticasAnalisis)
    ensures e.totalBocas == |analisis|
    ensures e.distribucionNiveles.normal + e.distribucionNiveles.moderada
      + e.distribucionNiveles.alta + e.distribucionNiveles.critica == e.totalBocas
    ensures |analisis| == 0 ==> e.perdidaPromedio == 0.0 && e.mayorPerdida == 0.0 && e.menorPerdida == 0.0
    ensures |analisis| > 0 ==>
      && (forall i :: 0 <= i < |analisis| ==> e.menorPerdida <= Pct(analisis[i]) <= e.mayorPerdida)
      && (exists i :: 0 <= i < |analisis| && Pct(analisis[i]) == e.mayorPerdida)
      && (exists i :: 0 <= i < |analisis| && Pct(analisis[i]) == e.menorPerdida)
      && e.menorPerdida - 0.005 <= e.perdidaPromedio <= e.mayorPerdida + 0.005
    ensures |analisis| > 0 ==>
      && e.perdidaPromedio == Round2(SumBy(analisis, Pct) / |analisis| as real)
      && -0.005 <= e.perdidaPromedio - SumBy(analisis, Pct) / |analisis| as real <= 0.005
    ensures e.distribucionNiveles.normal == CountBy(analisis, NivelIs(Period.Normal))
    ensures e.distribucionNiveles.moderada == CountBy(analisis, NivelIs(Period.Moderada))
    ensures e.distribucionNiveles.alta == CountBy(analisis, NivelIs(Period.Alta))
    ensures e.distribucionNiveles.critica == CountBy(analisis, NivelIs(Period.Critica))
  {
    CountNiveles(analisis);
    var distribucion := DistribucionNiveles(
      CountBy(analisis, NivelIs(Period.Normal)),
      CountBy(analisis, NivelIs(Period.Moderada)),
      CountBy(analisis, NivelIs(Period.Alta)),
      CountBy(analisis, NivelIs(Period.Critica)));
    if |analisis| == 0 then EstadisticasAnalisis(0, 0.0, distribucion, 0.0, 0.0)
    else
      AverageBetween(analisis);
      EstadisticasAnalisis(
        |analisis|,
        Round2(SumBy(analisis, Pct) / |analisis| as real),
        distribucion,
        MaxPct(analisis),
        MinPct(analisis))
  }

  /** Every row is in exactly one tier. */
  lemma {:induction false} CountNiveles(s: seq<AnalisisPerdida>)
    ensures CountBy(s, NivelIs(Period.Normal)) + CountBy(s, NivelIs(Period.Moderada))
      + CountBy(s, NivelIs(Period.Alta)) + CountBy(s, NivelIs(Period.Critica)) == |s|
  {
    if |s| > 0 {
      CountNiveles(s[..|s| - 1]);
    }
  }

  /** The mean of the percentages lies between the smallest and the largest. */
  lemma AverageBetween(s: seq<AnalisisPerdida>)
    requires |s| > 0
    ensures MinPct(s) <= SumBy(s, Pct) / |s| as real <= MaxPct(s)
  {
    MeanBetween(s, Pct, MinPct(s), MaxPct(s));
  }

  /** On the analysis of a month's general balance, the tier counts are the
      ones the month's summary reports. */
  lemma {:induction false} AnalisisAgreesWithResumen(periodoMes: string, balances: seq<BalanceGeneral>, usuarios: string -> nat)
    ensures var d := EstadisticasDeAnalisis(GetAnalisisPerdida(balances, usuarios)).distribucionNiveles;
      var s := GetResumenPeriodo(periodoMes, balances);
      && d.normal == s.bocasConPerdidaNormal && d.moderada == s.bocasConPerdidaModerada
      && d.alta == s.bocasConPerdidaAlta && d.critica == s.bocasConPerdidaCritica
  {
    var a := GetAnalisisPerdida(balances, usuarios);
    CountCongruent(a, balances, NivelIs(Period.Normal), HasNivel(Period.Normal));
    CountCongruent(a, balances, NivelIs(Period.Moderada), HasNivel(Period.Moderada));
    CountCongruent(a, balances, NivelIs(Period.Alta), HasNivel(Period.Alta));
    CountCongruent(a, balances, NivelIs(Period.Critica), HasNivel(Period.Critica));
  }

  // ---------------------------------------------------------------------
  // Statistics of the alerts

  /** The `estadisticas` of `POST /analytics/alertas/:periodo`: the count per
      kind and per priority. */
  datatype EstadisticasAlertas = EstadisticasAlertas(
    totalAlertas: nat,
    perdidaAlta: nat,
    perdidaCritica: nat,
    perdidaNegativa: nat,
    aumentoSubito: nat,
    critica: nat,
    alta: nat,
    media: nat,
    baja: nat)

  /** `a.tipoAlerta === t`. */
  function TipoIs(t: TipoAlerta): Alerta -> bool {
    (a: Alerta) => a.tipoAlerta == t
  }

  /** `a.prioridad === p`. */
  function PrioridadIs(p: Prioridad): Alerta -> bool {
    (a: Alerta) => a.prioridad == p
  }

  function EstadisticasDeAlertas(alertas: seq<Alerta>): (e: EstadisticasAlertas)
    ensures e.totalAlertas == |alertas|
    ensures e.perdidaAlta + e.perdidaCritica + e.perdidaNegativa + e.aumentoSubito == e.totalAlertas
    ensures e.critica + e.alta + e.media + e.baja == e.totalAlertas
  {
    CountTipos(alertas);
    CountPrioridades(alertas);
    EstadisticasAlertas(
      |alertas|,
      CountBy(alertas, TipoIs(PerdidaAlta)),
      CountBy(alertas, TipoIs(PerdidaCritica)),
      CountBy(alertas, TipoIs(PerdidaNegativa)),
      CountBy(alertas, TipoIs(AumentoSubito)),
      CountBy(alertas, PrioridadIs(Critica)),
      CountBy(alertas, PrioridadIs(Alta)),
      CountBy(alertas, PrioridadIs(Media)),
      CountBy(alertas, PrioridadIs(Baja)))
  }

  lemma {:induction false} CountTipos(s: seq<Alerta>)
    ensures CountBy(s, TipoIs(PerdidaAlta)) + CountBy(s, TipoIs(PerdidaCritica))
      + CountBy(s, TipoIs(PerdidaNegativa)) + CountBy(s, TipoIs(AumentoSubito)) == |s|
  {
    if |s| > 0 {
      CountTipos(s[..|s| - 1]);
    }
  }

  lemma {:induction false} CountPrioridades(s: seq<Alerta>)
    ensures CountBy(s, PrioridadIs(Critica)) + CountBy(s, PrioridadIs(Alta))
      + CountBy(s, PrioridadIs(Media)) + CountBy(s, PrioridadIs(Baja)) == |s|
  {
    if |s| > 0 {
      CountPrioridades(s[..|s| - 1]);
    }
  }

  /** The statistics of the generated alerts: one critical-priority alert per
      critical row, one high-priority alert per high row, one medium-priority
      alert per row below -5 %, and no sudden-increase or low-priority alert. */
  lemma AlertStatsOfGenerated(periodoMes: string, balances: seq<BalanceGeneral>)
    ensures var e := EstadisticasDeAlertas(GenerarAlertas(periodoMes, balances));
      && e.perdidaCritica == CountBy(balances, IsCriticaRow) && e.critica == e.perdidaCritica
      && e.perdidaAlta == CountBy(balances, IsAltaRow) && e.alta == e.perdidaAlta
      && e.perdidaNegativa == CountBy(balances, IsNegativaRow) && e.media == e.perdidaNegativa
      && e.aumentoSubito == 0 && e.baja == 0
  {
    TipoStats(periodoMes, balances);
    PrioridadStats(periodoMes, balances);
  }

  lemma TipoStats(periodoMes: string, balances: seq<BalanceGeneral>)
    ensures var alertas := GenerarAlertas(periodoMes, balances);
      && CountBy(alertas, TipoIs(PerdidaCritica)) == CountBy(balances, IsCriticaRow)
      && CountBy(alertas, TipoIs(PerdidaAlta)) == CountBy(balances, IsAltaRow)
      && CountBy(alertas, TipoIs(PerdidaNegativa)) == CountBy(balances, IsNegativaRow)
      && CountBy(alertas, TipoIs(AumentoSubito)) == 0
  {
    forall b: BalanceGeneral
      ensures && RowCount(periodoMes, b, TipoIs(PerdidaCritica), IsCriticaRow)
              && RowCount(periodoMes, b, TipoIs(PerdidaAlta), IsAltaRow)
              && RowCount(periodoMes, b, TipoIs(PerdidaNegativa), IsNegativaRow)
              && RowCount(periodoMes, b, TipoIs(AumentoSubito), NoRow)
    {
      RowAlertStats(periodoMes, b);
    }
    CountAlertas(periodoMes, balances, TipoIs(PerdidaCritica), IsCriticaRow);
    CountAlertas(periodoMes, balances, TipoIs(PerdidaAlta), IsAltaRow);
    CountAlertas(periodoMes, balances, TipoIs(PerdidaNegativa), IsNegativaRow);
    CountAlertas(periodoMes, balances, TipoIs(AumentoSubito), NoRow);
    CountNone(balances);
  }

  lemma PrioridadStats(periodoMes: string, balances: seq<BalanceGeneral>)
    ensures var alertas := GenerarAlertas(periodoMes, balances);
      && CountBy(alertas, PrioridadIs(Critica)) == CountBy(balances, IsCriticaRow)
      && CountBy(alertas, PrioridadIs(Alta)) == CountBy(balances, IsAltaRow)
      && CountBy(alertas, PrioridadIs(Media)) == CountBy(balances, IsNegativaRow)
      && CountBy(alertas, PrioridadIs(Baja)) == 0
  {
    forall b: BalanceGeneral
      ensures && RowCount(periodoMes, b, PrioridadIs(Critica), IsCriticaRow)
              && RowCount(periodoMes, b, PrioridadIs(Alta), IsAltaRow)
              && RowCount(periodoMes, b, PrioridadIs(Media), IsNegativaRow)
              && RowCount(periodoMes, b, PrioridadIs(Baja), NoRow)
    {
      RowAlertStats(periodoMes, b);
    }
    CountAlertas(periodoMes, balances, PrioridadIs(Critica), IsCriticaRow);
    CountAlertas(periodoMes, balances, PrioridadIs(Alta), IsAltaRow);
    CountAlertas(periodoMes, balances, PrioridadIs(Media), IsNegativaRow);
    CountAlertas(periodoMes, balances, PrioridadIs(Baja), NoRow);
    CountNone(balances);
  }

  function NoRow(b: BalanceGeneral): bool {
    false
  }

  lemma {:induction false} CountNone(s: seq<BalanceGeneral>)
    ensures CountBy(s, NoRow) == 0
  {
    if |s| > 0 {
      CountNone(s[..|s| - 1]);
    }
  }

  /** Each row raises exactly one alert passing `q` when it passes `rowTest`,
      and none otherwise: then the alerts passing `q` are as many as the rows
      passing `rowTest`. */
  lemma {:induction false} CountAlertas(
    periodoMes: string, balances: seq<BalanceGeneral>, q: Alerta -> bool, rowTest: BalanceGeneral -> bool)
    requires forall b :: RowCount(periodoMes, b, q, rowTest)
    ensures CountBy(GenerarAlertas(periodoMes, balances), q) == CountBy(balances, rowTest)
  {
    if |balances| > 0 {
      var p := balances[..|balances| - 1];
      CountAlertas(periodoMes, p, q, rowTest);
      assert RowCount(periodoMes, balances[|balances| - 1], q, rowTest);
      CountConcat(GenerarAlertas(periodoMes, p), AlertasDe(periodoMes, balances[|balances| - 1]), q);
    }
  }

  /** Of the alerts of row `b`, one passes `q` if the row passes `rowTest`
      and none otherwise. */
  predicate RowCount(periodoMes: string, b: BalanceGeneral, q: Alerta -> bool, rowTest: BalanceGeneral -> bool) {
    CountBy(AlertasDe(periodoMes, b), q) == if rowTest(b) then 1 else 0
  }

  /** The counts of one row's alerts, by kind and by priority. */
  predicate RowCounts(periodoMes: string, b: BalanceGeneral) {
    && RowCount(periodoMes, b, TipoIs(PerdidaCritica), IsCriticaRow)
    && RowCount(periodoMes, b, PrioridadIs(Critica), IsCriticaRow)
    && RowCount(periodoMes, b, TipoIs(PerdidaAlta), IsAltaRow)
    && RowCount(periodoMes, b, PrioridadIs(Alta), IsAltaRow)
    && RowCount(periodoMes, b, TipoIs(PerdidaNegativa), IsNegativaRow)
    && RowCount(periodoMes, b, PrioridadIs(Media), IsNegativaRow)
    && RowCount(periodoMes, b, TipoIs(AumentoSubito), NoRow)
    && RowCount(periodoMes, b, PrioridadIs(Baja), NoRow)
  }

  /** A row raises a critical-priority `perdida_critica` alert when
      critical, a high-priority `perdida_alta` alert when high and a
      medium-priority `perdida_negativa` alert below -5 %. */
  lemma RowAlertStats(periodoMes: string, b: BalanceGeneral)
    ensures RowCounts(periodoMes, b)
  {
    AlertasDeCountBy(periodoMes, b, TipoIs(PerdidaCritica));
    AlertasDeCountBy(periodoMes, b, TipoIs(PerdidaAlta));
    AlertasDeCountBy(periodoMes, b, TipoIs(PerdidaNegativa));
    AlertasDeCountBy(periodoMes, b, TipoIs(AumentoSubito));
    AlertasDeCountBy(periodoMes, b, PrioridadIs(Critica));
    AlertasDeCountBy(periodoMes, b, PrioridadIs(Alta));
    AlertasDeCountBy(periodoMes, b, PrioridadIs(Media));
    AlertasDeCountBy(periodoMes, b, PrioridadIs(Baja));
  }

  /** How many of a row's alerts pass `q`: one for each check the row fails
      whose alert passes `q`. */
  lemma AlertasDeCountBy(periodoMes: string, b: BalanceGeneral, q: Alerta -> bool)
    ensures CountBy(AlertasDe(periodoMes, b), q)
      == (if IsCriticaRow(b) && q(NuevaAlerta(b, periodoMes, PerdidaCritica, Critica)) then 1 else 0)
       + (if IsAltaRow(b) && q(NuevaAlerta(b, periodoMes, PerdidaAlta, Alta)) then 1 else 0)
       + (if IsNegativaRow(b) && q(NuevaAlerta(b, periodoMes, PerdidaNegativa, Media)) then 1 else 0)
  {
    var c := if IsCriticaRow(b) then [NuevaAlerta(b, periodoMes, PerdidaCritica, Critica)] else [];
    var a := if IsAltaRow(b) then [NuevaAlerta(b, periodoMes, PerdidaAlta, Alta)] else [];
    var n := if IsNegativaRow(b) then [NuevaAlerta(b, periodoMes, PerdidaNegativa, Media)] else [];
    assert AlertasDe(periodoMes, b) == c + a + n;
    CountConcat(c, a, q);
    CountConcat(c + a, n, q);
  }

  // ---------------------------------------------------------------------
  // Meta totals

  /** The `meta` of `GET /analytics/balance/compra`. */
  datatype MetaCompras = MetaCompras(total: nat, totalKwhComprados: real, totalImporteComprado: real)

  /** The `meta` of `GET /analytics/balance/venta`. */
  datatype MetaVentas = MetaVentas(total: nat, totalKwhVendidos: real, totalImporteVendido: real)

  function MetaDeCompras(compras: seq<Compra>): (m: MetaCompras)
    ensures m.total == |compras|
    ensures |compras| == 0 ==> m.totalKwhComprados == 0.0 && m.totalImporteComprado == 0.0
  {
    MetaCompras(|compras|, SumBy(compras, KwhOfCompra), SumBy(compras, ImporteOfCompra))
  }

  function MetaDeVentas(ventas: seq<Venta>): (m: MetaVentas)
    ensures m.total == |ventas|
    ensures |ventas| == 0 ==> m.totalKwhVendidos == 0.0 && m.totalImporteVendido == 0.0
  {
    MetaVentas(|ventas|, SumBy(ventas, KwhOfVenta), SumBy(ventas, ImporteOfVenta))
  }

  /** The `meta.total` of `GET /analytics/balance/general`. */
  function MetaTotalGeneral(balances: seq<BalanceGeneral>): (total: nat)
    ensures total == |balances|
  {
    |balances|
  }

  /** A missing group sum read as 0, as the purchase rows read it. */
  function GroupKwh(g: CompraGroup): real {
    g.sumKwh.GetOr(0.0)
  }

  function GroupImporte(g: CompraGroup): real {
    g.sumImporte.GetOr(0.0)
  }

  /** The purchase totals are the sums of the query's groups. */
  lemma MetaComprasOfGroups(groups: seq<CompraGroup>)
    ensures MetaDeCompras(GetBalanceCompraPorBoca(groups)).totalKwhComprados == SumBy(groups, GroupKwh)
    ensures MetaDeCompras(GetBalanceCompraPorBoca(groups)).totalImporteComprado == SumBy(groups, GroupImporte)
  {
    var cs := GetBalanceCompraPorBoca(groups);
    SumCongruent(cs, groups, KwhOfCompra, GroupKwh);
    SumCongruent(cs, groups, ImporteOfCompra, GroupImporte);
  }

  /** The keys of a list of rows. */
  function KeySet<T>(s: seq<T>, key: T -> BocaMes): (ks: set<BocaMes>)
    ensures forall k :: k in ks <==> HasKey(s, key, k)
  {
    set i | 0 <= i < |s| :: key(s[i])
  }

  /** Rows with distinct keys: as many keys as rows. */
  lemma {:induction false} KeySetSize<T>(s: seq<T>, key: T -> BocaMes)
    requires DistinctKeys(s, key)
    ensures |KeySet(s, key)| == |s|
  {
    if |s| > 0 {
      var p := s[..|s| - 1];
      KeySetSize(p, key);
      assert KeySet(s, key) == KeySet(p, key) + {key(s[|s| - 1])};
      assert key(s[|s| - 1]) !in KeySet(p, key);
    }
  }

  /** The general balance's `meta.total` counts the keys of the purchase
      and sale lists together, and the compra and venta endpoints' totals
      reappear as the sums of its columns. */
  lemma {:induction false} MetaOfGeneral(cs: seq<Compra>, vs: seq<Venta>)
    requires DistinctKeys(cs, CKey)
    requires DistinctKeys(vs, VKey)
    ensures MetaTotalGeneral(GetBalanceGeneral(cs, vs)) == |KeySet(cs, CKey) + KeySet(vs, VKey)|
    ensures SumBy(GetBalanceGeneral(cs, vs), Comprados) == MetaDeCompras(cs).totalKwhComprados
    ensures SumBy(GetBalanceGeneral(cs, vs), ImporteComprado) == MetaDeCompras(cs).totalImporteComprado
    ensures SumBy(GetBalanceGeneral(cs, vs), Vendidos) == MetaDeVentas(vs).totalKwhVendidos
    ensures SumBy(GetBalanceGeneral(cs, vs), ImporteVendido) == MetaDeVentas(vs).totalImporteVendido
  {
    var r := GetBalanceGeneral(cs, vs);
    BalanceGeneralSpec(cs, vs);
    BalanceGeneralTotals(cs, vs);
    KeySetSize(r, BKey);
    assert KeySet(r, BKey) == KeySet(cs, CKey) + KeySet(vs, VKey);
  }
}

=== FILE: csv.dfy ===
/** The ingestion validators of `src/utils/csv.ts`: the period format checks,
    the splitting of a bimestre, the normalising of supply numbers and free
    text, the coordinate and boolean parsers, and the accumulate-errors
    `ValidationResult` with the meter-reading check built on it. A
    `ValidationResult` is mutated in place by the source; here each helper
    returns the updated record. */
module Csv {
  import opened Wrappers
  import opened Strings
  import Period

  // ---------------------------------------------------------------------
  // Periods

  /** `validatePeriodoMes`: `^\d{4}-\d{2}$`, the format only. */
  predicate ValidatePeriodoMes(periodo: string) {
    Period.MonthFormat(periodo)
  }

  /** `validatePeriodoBimestre`: `^\d{4}-\d{2}_\d{4}-\d{2}$`. */
  predicate ValidatePeriodoBimestre(periodo: string) {
    Period.BimestreFormat(periodo)
  }

  /** Neither check looks at the year or the month. */
  lemma PeriodoChecksAreFormatOnly()
    ensures ValidatePeriodoMes("2024-13") && !Period.IsValidPeriodoMes("2024-13")
    ensures ValidatePeriodoMes("0000-00") && !Period.IsValidPeriodoMes("0000-00")
    ensures ValidatePeriodoBimestre("2024-12_2024-99")
    ensures !ValidatePeriodoMes("2024-1") && !ValidatePeriodoMes("24-01")
  {
    assert Period.MonthOf("2024-13") == 13;
    assert Period.YearOf("0000-00") == 0;
    var b := "2024-12_2024-99";
    assert b[..7] == "2024-12" && b[8..] == "2024-99";
  }

  /** Every month the period utilities accept passes the format check. */
  lemma ValidMonthsPass(periodo: string)
    requires Period.IsValidPeriodoMes(periodo)
    ensures ValidatePeriodoMes(periodo)
  {
  }

  /** The `{ inicio, fin }` of a bimestre. */
  datatype Bimestre = Bimestre(inicio: string, fin: string)

  const BimestreInvalido: string := "Formato de período bimestral inválido"

  /** `parsePeriodoBimestre`: the format check, then `split('_')`; the
      second check of the part count cannot fail once the format holds. */
  function ParsePeriodoBimestre(periodo: string): (r: Result<Bimestre, string>)
    ensures r.Err? <==> !ValidatePeriodoBimestre(periodo)
    ensures r.Err? ==> r.error == BimestreInvalido
    ensures r.Ok? ==> r.value.inicio + "_" + r.value.fin == periodo
    ensures r.Ok? ==> ValidatePeriodoMes(r.value.inicio) && ValidatePeriodoMes(r.value.fin)
  {
    if !ValidatePeriodoBimestre(periodo) then Err(BimestreInvalido)
    else
      Period.SplitBimestre(periodo);
      var partes := Split(periodo, '_');
      if |partes| != 2 then assert false; Err(BimestreInvalido)
      else
        assert periodo == periodo[..7] + "_" + periodo[8..];
        Ok(Bimestre(partes[0], partes[1]))
  }

  /** Joining two well-formed months and parsing gives them back. */
  lemma {:induction false} ParseOfJoined(inicio: string, fin: string)
    requires ValidatePeriodoMes(inicio) && ValidatePeriodoMes(fin)
    ensures ParsePeriodoBimestre(inicio + "_" + fin) == Ok(Bimestre(inicio, fin))
  {
    var s := inicio + "_" + fin;
    assert s[..7] == inicio && s[8..] == fin && s[7] == '_';
  }

  /** On a valid bimestre the parser agrees with `bimestreToMensual` of the
      period utilities, which also checks the year and month ranges. */
  lemma ParseAgreesWithPeriod(periodo: string)
    requires Period.IsValidPeriodoBimestre(periodo)
    ensures ParsePeriodoBimestre(periodo).Ok?
    ensures Period.BimestreToMensual(periodo).Ok?
    ensures ParsePeriodoBimestre(periodo).value.inicio == Period.BimestreToMensual(periodo).value.0
    ensures ParsePeriodoBimestre(periodo).value.fin == Period.BimestreToMensual(periodo).value.1
  {
    Period.SplitBimestre(periodo);
  }

  // ---------------------------------------------------------------------
  // Text

  /** `normalizeNroSuministro`: `trim()` then `toUpperCase()`. */
  function NormalizeNroSuministro(nroSuministro: string): (r: string)
    ensures NoEdgeWhitespace(r)
    ensures |r| <= |nroSuministro|
    ensures forall i :: 0 <= i < |r| ==> !('a' <= r[i] <= 'z')
    ensures |r| == |Trim(nroSuministro)|
    ensures forall i :: 0 <= i < |r| ==> r[i] == ToUpperChar(Trim(nroSuministro)[i])
  {
    var t := Trim(nroSuministro);
    CaseKeepsEdges(t);
    var r := ToUpper(t);
    forall i | 0 <= i < |r|
      ensures !('a' <= r[i] <= 'z')
    {
      UpperNotLower(t[i]);
    }
    r
  }

  lemma UpperNotLower(c: char)
    ensures !('a' <= ToUpperChar(c) <= 'z')
  {
  }

  lemma CaseKeepsEdges(t: string)
    requires NoEdgeWhitespace(t)
    ensures NoEdgeWhitespace(ToUpper(t))
  {
    if |t| > 0 {
      CaseKeepsWhitespace(t[0]);
      CaseKeepsWhitespace(t[|t| - 1]);
    }
  }

  /** Whitespace around a text does not change its normal form: only
      surrounding whitespace and letter case are dropped. */
  lemma NormalizeIgnoresSurrounding(pre: string, w: string, post: string)
    requires forall i :: 0 <= i < |pre| ==> IsWhitespace(pre[i])
    requires forall i :: 0 <= i < |post| ==> IsWhitespace(post[i])
    requires |w| > 0 && NoEdgeWhitespace(w)
    ensures NormalizeNroSuministro(pre + w + post) == NormalizeNroSuministro(w)
  {
    TrimSurrounded(pre, w, post);
    TrimOfTrimmed(w);
    var a, b := NormalizeNroSuministro(pre + w + post), NormalizeNroSuministro(w);
    assert |a| == |b|;
    assert forall i :: 0 <= i < |a| ==> a[i] == b[i];
  }

  /** A text without edge whitespace whose characters are already upper
      case comes back as it is. */
  lemma NormalizeKeepsNormal(w: string)
    requires NoEdgeWhitespace(w)
    requires forall i :: 0 <= i < |w| ==> ToUpperChar(w[i]) == w[i]
    ensures NormalizeNroSuministro(w) == w
  {
    TrimOfTrimmed(w);
    var n := NormalizeNroSuministro(w);
    assert |n| == |w|;
    assert forall i :: 0 <= i < |n| ==> n[i] == w[i];
  }

  /** Normalising twice is normalising once. */
  lemma NormalizeIdempotent(s: string)
    ensures NormalizeNroSuministro(NormalizeNroSuministro(s)) == NormalizeNroSuministro(s)
  {
    var n := NormalizeNroSuministro(s);
    TrimOfTrimmed(n);
    forall i | 0 <= i < |n|
      ensures ToUpperChar(n[i]) == n[i]
    {
      UpperIdempotent(Trim(s)[i]);
    }
  }

  /** No character is whitespace other than a plain space, and no two
      neighbours are both whitespace: what `replace(/\s+/g, ' ')` leaves. */
  predicate Collapsed(s: string) {
    && (forall i :: 0 <= i < |s| && IsWhitespace(s[i]) ==> s[i] == ' ')
    && (forall i :: 0 <= i < |s| - 1 ==> NotTwoSpaces(s, i))
  }

  /** The characters at `i` and `i + 1` are not both whitespace. */
  predicate NotTwoSpaces(s: string, i: int)
    requires 0 <= i < |s| - 1
  {
    !(IsWhitespace(s[i]) && IsWhitespace(s[i + 1]))
  }

  /** `replace(/\s+/g, ' ')`: every maximal run of whitespace becomes one
      space. */
  function CollapseWhitespace(s: string): (r: string)
    ensures |r| <= |s|
    decreases |s|
  {
    if |s| == 0 then ""
    else if IsWhitespace(s[0]) then
      var rest := TrimStart(s);
      assert |rest| < |s|;
      " " + CollapseWhitespace(rest)
    else
      [s[0]] + CollapseWhitespace(s[1..])
  }

  /** Collapsing changes whitespace only: the other characters are all
      kept, in order. */
  lemma {:induction false} CollapseKeepsNonWs(s: string)
    ensures NonWs(CollapseWhitespace(s)) == NonWs(s)
    decreases |s|
  {
    if |s| > 0 {
      if IsWhitespace(s[0]) {
        var rest := TrimStart(s);
        CollapseKeepsNonWs(rest);
        TrimStartKeepsNonWs(s);
        assert (" " + CollapseWhitespace(rest))[1..] == CollapseWhitespace(rest);
      } else {
        CollapseKeepsNonWs(s[1..]);
        assert ([s[0]] + CollapseWhitespace(s[1..]))[1..] == CollapseWhitespace(s[1..]);
      }
    }
  }

  /** The collapsed text is collapsed, keeps a leading whitespace run as
      one space, and ends in a space exactly when the input ends in
      whitespace, and otherwise in the input's last character. */
  lemma CollapseSpec(s: string)
    ensures Collapsed(CollapseWhitespace(s))
    ensures |s| > 0 ==> |CollapseWhitespace(s)| > 0
    ensures |s| > 0 ==> (IsWhitespace(CollapseWhitespace(s)[0]) <==> IsWhitespace(s[0]))
    ensures |s| > 0 ==> Last(CollapseWhitespace(s)) == if IsWhitespace(Last(s)) then ' ' else Last(s)
  {
    CollapseFirst(s);
    CollapseCollapsed(s);
    CollapseLast(s);
  }

  /** The first character is a space for leading whitespace, and kept
      otherwise. */
  lemma CollapseFirst(s: string)
    ensures |s| > 0 ==> |CollapseWhitespace(s)| > 0
    ensures |s| > 0 ==> CollapseWhitespace(s)[0] == if IsWhitespace(s[0]) then ' ' else s[0]
  {
  }

  lemma {:induction false} CollapseCollapsed(s: string)
    ensures Collapsed(CollapseWhitespace(s))
    decreases |s|
  {
    if |s| > 0 {
      if IsWhitespace(s[0]) {
        var rest := TrimStart(s);
        CollapseCollapsed(rest);
        CollapseFirst(rest);
        CollapsedCons(' ', CollapseWhitespace(rest));
      } else {
        CollapseCollapsed(s[1..]);
        CollapsedCons(s[0], CollapseWhitespace(s[1..]));
      }
    }
  }

  lemma {:induction false} CollapseLast(s: string)
    ensures |s| > 0 ==> Last(CollapseWhitespace(s)) == if IsWhitespace(Last(s)) then ' ' else Last(s)
    decreases |s|
  {
    if |s| > 0 {
      var t := if IsWhitespace(s[0]) then TrimStart(s) else s[1..];
      var c := CollapseWhitespace(t);
      if IsWhitespace(s[0]) {
        CollapseRun(s);
      } else {
        CollapseChar(s);
      }
      assert CollapseWhitespace(s) == [CollapseWhitespace(s)[0]] + c;
      CollapseLast(t);
      CollapseFirst(t);
      if |t| > 0 {
        assert Last(t) == Last(s);
        assert Last(CollapseWhitespace(s)) == Last(c);
      } else if IsWhitespace(s[0]) {
        assert IsWhitespace(s[|s| - 1]);
      } else {
        assert |s| == 1;
      }
    }
  }

  lemma CollapseRun(s: string)
    requires |s| > 0 && IsWhitespace(s[0])
    ensures CollapseWhitespace(s) == " " + CollapseWhitespace(TrimStart(s))
  {
  }

  /** The last character. */
  function Last(s: string): char
    requires |s| > 0
  {
    s[|s| - 1]
  }

  /** A character may go in front of collapsed text when it is not
      whitespace, or is a space before a non-space. */
  lemma CollapsedCons(x: char, c: string)
    requires Collapsed(c)
    requires IsWhitespace(x) ==> x == ' ' && (|c| == 0 || !IsWhitespace(c[0]))
    ensures Collapsed([x] + c)
  {
    var r := [x] + c;
    forall i | 0 <= i < |r| - 1
      ensures NotTwoSpaces(r, i)
    {
      if i > 0 {
        assert NotTwoSpaces(c, i - 1);
        assert r[i] == c[i - 1] && r[i + 1] == c[i];
      }
    }
    assert forall i :: 0 < i < |r| ==> r[i] == c[i - 1];
  }

  /** The converse of `CollapsedCons`. */
  lemma CollapsedTail(s: string)
    requires Collapsed(s) && |s| > 0
    ensures Collapsed(s[1..])
    ensures IsWhitespace(s[0]) ==> s[0] == ' ' && (|s| == 1 || !IsWhitespace(s[1]))
  {
    var t := s[1..];
    if |s| > 1 {
      assert NotTwoSpaces(s, 0);
    }
    forall i | 0 <= i < |t| - 1
      ensures NotTwoSpaces(t, i)
    {
      assert NotTwoSpaces(s, i + 1);
      assert t[i] == s[i + 1] && t[i + 1] == s[i + 2];
    }
    assert forall i :: 0 <= i < |t| ==> t[i] == s[i + 1];
  }

  /** A prefix of collapsed text is collapsed. */
  lemma CollapsedPrefix(s: string, n: nat)
    requires Collapsed(s) && n <= |s|
    ensures Collapsed(s[..n])
  {
    var t := s[..n];
    forall i | 0 <= i < |t| - 1
      ensures NotTwoSpaces(t, i)
    {
      assert NotTwoSpaces(s, i);
    }
  }

  /** Text already collapsed is left as it is. */
  lemma {:induction false} CollapseOfCollapsed(s: string)
    requires Collapsed(s)
    ensures CollapseWhitespace(s) == s
  {
    if |s| > 0 {
      var t := s[1..];
      CollapsedTail(s);
      CollapseOfCollapsed(t);
      if IsWhitespace(s[0]) {
        CollapseSpace(s);
      } else {
        CollapseChar(s);
      }
      assert s == [s[0]] + t;
    }
  }

  lemma CollapseChar(s: string)
    requires |s| > 0 && !IsWhitespace(s[0])
    ensures CollapseWhitespace(s) == [s[0]] + CollapseWhitespace(s[1..])
  {
  }

  /** A lone space before a non-space is kept as it is. */
  lemma CollapseSpace(s: string)
    requires |s| > 0 && s[0] == ' '
    requires |s| == 1 || !IsWhitespace(s[1])
    ensures CollapseWhitespace(s) == " " + CollapseWhitespace(s[1..])
  {
    assert TrimStart(s) == TrimStart(s[1..]) == s[1..];
  }

  /** A `maxLength` argument: absent, or a number (`NaN` and fractions are
      not modelled). */
  function Truncate(s: string, maxLength: Option<int>): (r: string)
    ensures maxLength.None? || maxLength == Some(0) || |s| <= maxLength.value ==> r == s
    ensures maxLength.Some? && maxLength.value > 0 ==> |r| <= maxLength.value && r == s[..|r|]
    ensures maxLength.Some? && maxLength.value < 0 ==> r == ""
  {
    if maxLength.Some? && maxLength.value != 0 && |s| > maxLength.value then
      // `substring` clamps a negative end to 0
      s[..if maxLength.value < 0 then 0 else maxLength.value]
    else s
  }

  /** `sanitizeText`: trim, collapse whitespace runs to one space, then cut
      to `maxLength` when it is given and not 0. */
  function SanitizeText(text: string, maxLength: Option<int>): (r: string)
    ensures |r| == 0 || !IsWhitespace(r[0])
    ensures Collapsed(r)
    ensures maxLength.Some? && maxLength.value > 0 ==> |r| <= maxLength.value
    ensures maxLength.None? ==> NoEdgeWhitespace(r)
    ensures NonWs(r) <= NonWs(text)
    ensures maxLength.None? || maxLength == Some(0) ==> NonWs(r) == NonWs(text)
    ensures maxLength.None? ==> r == CollapseWhitespace(Trim(text))
  {
    var trimmed := Trim(text);
    var cleaned := CollapseWhitespace(trimmed);
    CleanedEdges(trimmed);
    TrimKeepsNonWs(text);
    CollapseKeepsNonWs(trimmed);
    var r := Truncate(cleaned, maxLength);
    TruncateCollapsed(cleaned, maxLength);
    NonWsPrefix(cleaned, |r|);
    r
  }

  /** A `maxLength` cuts the unlimited result: to its first `maxLength`
      characters when positive, to nothing when negative. */
  lemma SanitizeCuts(text: string, maxLength: int)
    ensures var full := SanitizeText(text, None);
      SanitizeText(text, Some(maxLength)) ==
        if maxLength == 0 || |full| <= maxLength then full
        else if maxLength < 0 then ""
        else full[..maxLength]
  {
  }

  /** Collapsing trimmed text leaves no whitespace at either end. */
  lemma CleanedEdges(trimmed: string)
    requires NoEdgeWhitespace(trimmed)
    ensures Collapsed(CollapseWhitespace(trimmed))
    ensures NoEdgeWhitespace(CollapseWhitespace(trimmed))
  {
    CollapseSpec(trimmed);
  }

  /** Cutting collapsed text with no leading whitespace keeps both. */
  lemma TruncateCollapsed(s: string, maxLength: Option<int>)
    requires Collapsed(s) && (|s| == 0 || !IsWhitespace(s[0]))
    ensures var r := Truncate(s, maxLength);
      Collapsed(r) && (|r| == 0 || !IsWhitespace(r[0]))
  {
    var r := Truncate(s, maxLength);
    if r != s {
      CollapsedPrefix(s, |r|);
      assert r == s[..|r|];
    }
  }

  /** Without `maxLength`, sanitising twice is sanitising once. */
  lemma SanitizeIdempotent(text: string)
    ensures SanitizeText(SanitizeText(text, None), None) == SanitizeText(text, None)
  {
    var r := SanitizeText(text, None);
    TrimOfTrimmed(r);
    CollapseOfCollapsed(r);
  }

  /** With `maxLength` it is not: a cut may end on a space, which the next
      pass trims away. */
  lemma SanitizeWithLimitNotIdempotent()
    ensures SanitizeText("a b", Some(2)) == "a "
    ensures SanitizeText(SanitizeText("a b", Some(2)), Some(2)) == "a"
  {
    assert !IsWhitespace('a') && !IsWhitespace('b') && IsWhitespace(' ');
    assert TrimStart("a b") == "a b";
    assert TrimEnd("a b") == "a b";
    assert Trim("a b") == "a b";
    assert TrimStart(" b") == "b";
    assert CollapseWhitespace("b") == "b";
    assert CollapseWhitespace(" b") == " b";
    assert CollapseWhitespace("a b") == "a b";
    assert TrimEnd("a ") == "a";
    assert Trim("a ") == "a";
    assert CollapseWhitespace("a") == "a";
  }

  // ---------------------------------------------------------------------
  // Coordinates and booleans

  /** `validateCoordinates`: both optional; when both are given, latitude in
      [-90, 90] and longitude in [-180, 180]. A leaf definition: the
      contract is the source's condition, and `CoordinatesConvex` and
      `OneCoordinateAccepted` state what follows from it. */
  function ValidateCoordinates(lat: Option<real>, lng: Option<real>): (ok: bool)
    ensures lat.None? || lng.None? ==> ok
    ensures lat.Some? && lng.Some? ==>
      (ok <==> -90.0 <= lat.value <= 90.0 && -180.0 <= lng.value <= 180.0)
  {
    if lat.None? || lng.None? then true
    else -90.0 <= lat.value <= 90.0 && -180.0 <= lng.value <= 180.0
  }

  /** Only one coordinate given is accepted whatever its value. */
  lemma OneCoordinateAccepted(lat: real)
    ensures ValidateCoordinates(Some(lat), None)
    ensures ValidateCoordinates(None, Some(lat))
    ensures !ValidateCoordinates(Some(90.5), Some(0.0)) && ValidateCoordinates(Some(90.0), Some(-180.0))
  {
  }

  /** The accepted pairs form a box: anything between two accepted pairs is
      accepted, and so are the corners. */
  lemma CoordinatesConvex(lat1: real, lng1: real, lat2: real, lng2: real, lat: real, lng: real)
    requires ValidateCoordinates(Some(lat1), Some(lng1)) && ValidateCoordinates(Some(lat2), Some(lng2))
    requires lat1 <= lat <= lat2 && lng1 <= lng <= lng2
    ensures ValidateCoordinates(Some(lat), Some(lng))
    ensures ValidateCoordinates(Some(-90.0), Some(-180.0)) && ValidateCoordinates(Some(90.0), Some(180.0))
    ensures ValidateCoordinates(Some(-90.0), Some(180.0)) && ValidateCoordinates(Some(90.0), Some(-180.0))
  {
  }

  /** The argument of `parseBoolean`: `string | boolean | number`. */
  datatype BoolInput = BoolValue(b: bool) | NumberValue(x: real) | StringValue(s: string)

  /** The strings `parseBoolean` reads as true. */
  predicate Truthy(s: string) {
    s == "true" || s == "1" || s == "yes" || s == "si" || s == "sí"
  }

  /** `parseBoolean`: a boolean as is, a number when not 0, a string when
      its lower-cased and trimmed form is one of the truthy words. */
  function ParseBoolean(value: BoolInput): (r: bool)
    ensures value.BoolValue? ==> r == value.b
    ensures value.NumberValue? ==> (r <==> value.x != 0.0)
    ensures value.StringValue? ==> (r <==> Truthy(Trim(ToLower(value.s))))
  {
    match value
    case BoolValue(b) => b
    case NumberValue(x) => x != 0.0
    case StringValue(s) => Truthy(Trim(ToLower(s)))
  }

  /** `String(b)`. */
  function BoolText(b: bool): string {
    if b then "true" else "false"
  }

  /** Parsing the text of a boolean gives the boolean back. */
  lemma ParseBooleanOfText(b: bool)
    ensures ParseBoolean(StringValue(BoolText(b))) == b
  {
    var t := BoolText(b);
    assert ToLower(t) == t;
    TrimOfTrimmed(t);
  }

  /** Case and surrounding whitespace do not matter. */
  lemma {:induction false} ParseBooleanLenient(pre: string, w: string, post: string)
    requires forall i :: 0 <= i < |pre| ==> IsWhitespace(pre[i])
    requires forall i :: 0 <= i < |post| ==> IsWhitespace(post[i])
    requires Truthy(ToLower(w))
    ensures ParseBoolean(StringValue(pre + w + post))
  {
    var lw := ToLower(w);
    assert ToLower(pre + w + post) == ToLower(pre) + lw + ToLower(post);
    forall i | 0 <= i < |pre|
      ensures IsWhitespace(ToLower(pre)[i])
    {
      CaseKeepsWhitespace(pre[i]);
    }
    forall i | 0 <= i < |post|
      ensures IsWhitespace(ToLower(post)[i])
    {
      CaseKeepsWhitespace(post[i]);
    }
    assert NoEdgeWhitespace(lw);
    TrimSurrounded(ToLower(pre), lw, ToLower(post));
  }

  /** The accent of "SÍ" is lower-cased too. */
  lemma ParseBooleanAccent()
    ensures ParseBoolean(StringValue("SÍ"))
  {
    var w := ToLower("SÍ");
    assert ToLowerChar('\U{CD}') == '\U{ED}';
    assert w[0] == 's' && w[1] == '\U{ED}';
    assert w == "sí";
    ParseBooleanLenient("", "SÍ", "");
    assert "" + "SÍ" + "" == "SÍ";
  }

  /** A word of lower-case letters and digits is read as true exactly when
      it is one of the truthy words. */
  lemma ParsePlainWord(w: string)
    requires forall i :: 0 <= i < |w| ==> 'a' <= w[i] <= 'z' || '0' <= w[i] <= '9'
    ensures ParseBoolean(StringValue(w)) == Truthy(w)
  {
    var lower := ToLower(w);
    PlainLower(w);
    assert lower == w;
    PlainTrim(w);
    assert Trim(lower) == w;
  }

  lemma PlainLower(w: string)
    requires forall i :: 0 <= i < |w| ==> 'a' <= w[i] <= 'z' || '0' <= w[i] <= '9'
    ensures ToLower(w) == w
  {
  }

  lemma PlainTrim(w: string)
    requires forall i :: 0 <= i < |w| ==> 'a' <= w[i] <= 'z' || '0' <= w[i] <= '9'
    ensures Trim(w) == w
  {
    assert NoEdgeWhitespace(w);
    TrimOfTrimmed(w);
  }

  /** "no" and "0" are false. */
  lemma ParseBooleanRejects()
    ensures !ParseBoolean(StringValue("no"))
    ensures !ParseBoolean(StringValue("0"))
  {
    ParsePlainWord("no");
    ParsePlainWord("0");
  }

  // ---------------------------------------------------------------------
  // Validation results

  /** A `ValidationResult`. */
  datatype ValidationResult = ValidationResult(valid: bool, errors: seq<string>, warnings: seq<string>)

  /** `createValidationResult`. */
  function CreateValidationResult(): (r: ValidationResult)
    ensures r.valid && |r.errors| == 0 && |r.warnings| == 0
  {
    ValidationResult(true, [], [])
  }

  /** `addValidationError`: invalid, with the error appended. */
  function AddValidationError(result: ValidationResult, error: string): (r: ValidationResult)
    ensures !r.valid
    ensures r.errors == result.errors + [error] && r.warnings == result.warnings
  {
    result.(valid := false, errors := result.errors + [error])
  }

  /** `addValidationWarning`: the warning appended, validity unchanged. */
  function AddValidationWarning(result: ValidationResult, warning: string): (r: ValidationResult)
    ensures r.valid == result.valid && r.errors == result.errors
    ensures r.warnings == result.warnings + [warning]
  {
    result.(warnings := result.warnings + [warning])
  }

  /** One call of either helper. */
  datatype Finding = ErrorFinding(message: string) | WarningFinding(message: string)

  function Record(result: ValidationResult, f: Finding): ValidationResult {
    match f
    case ErrorFinding(m) => AddValidationError(result, m)
    case WarningFinding(m) => AddValidationWarning(result, m)
  }

  /** The findings recorded in order. */
  function RecordAll(result: ValidationResult, fs: seq<Finding>): ValidationResult {
    if |fs| == 0 then result else Record(RecordAll(result, fs[..|fs| - 1]), fs[|fs| - 1])
  }

  /** The messages of the findings of one kind, in order. */
  function Messages(fs: seq<Finding>, errors: bool): seq<string> {
    if |fs| == 0 then []
    else Messages(fs[..|fs| - 1], errors) + (if fs[|fs| - 1].ErrorFinding? == errors then [fs[|fs| - 1].message] else [])
  }

  /** After any run of findings: errors and warnings are those recorded, in
      order, and the result is valid exactly when it was and no error was
      recorded. Once invalid, a result stays invalid. */
  lemma {:induction false} RecordAllSpec(result: ValidationResult, fs: seq<Finding>)
    ensures RecordAll(result, fs).errors == result.errors + Messages(fs, true)
    ensures RecordAll(result, fs).warnings == result.warnings + Messages(fs, false)
    ensures RecordAll(result, fs).valid <==> result.valid && |Messages(fs, true)| == 0
  {
    if |fs| > 0 {
      RecordAllSpec(result, fs[..|fs| - 1]);
    }
  }

  /** A fresh result is valid exactly when it holds no error. */
  lemma ValidIffNoErrors(fs: seq<Finding>)
    ensures RecordAll(CreateValidationResult(), fs).valid <==> |RecordAll(CreateValidationResult(), fs).errors| == 0
  {
    RecordAllSpec(CreateValidationResult(), fs);
  }

  // ---------------------------------------------------------------------
  // Meter readings

  const LecturaInvertida: string := "Lectura final no puede ser menor que lectura inicial"

  function Abs(x: real): real {
    if x < 0.0 then -x else x
  }

  /** The reading difference is off by more than 10 % of the kWh sold. */
  predicate FueraDeTolerancia(lectIni: real, lectFin: real, kwhVendidos: real) {
    Abs((lectFin - lectIni) - kwhVendidos) > kwhVendidos * 0.1
  }

  /** `validateLecturas`. The warning text interpolates two numbers;
      `numberText` stands for JavaScript's number-to-string conversion. */
  function ValidateLecturas(lectIni: real, lectFin: real, kwhVendidos: real, numberText: real -> string)
    : (r: ValidationResult)
    ensures r.valid <==> lectFin >= lectIni
    ensures r.errors == if lectFin < lectIni then [LecturaInvertida] else []
    ensures |r.warnings| == if FueraDeTolerancia(lectIni, lectFin, kwhVendidos) then 1 else 0
  {
    var result := CreateValidationResult();
    var result := if lectFin < lectIni then AddValidationError(result, LecturaInvertida) else result;
    var diferencia := lectFin - lectIni;
    if FueraDeTolerancia(lectIni, lectFin, kwhVendidos) then
      AddValidationWarning(result,
        "Diferencia de lecturas (" + numberText(diferencia) + ") no coincide con kWh vendidos ("
        + numberText(kwhVendidos) + ")")
    else result
  }

  /** The kWh figure only ever adds a warning: validity and errors depend on
      the readings alone. */
  lemma WarningsDoNotAffectValidity(lectIni: real, lectFin: real, k1: real, k2: real, t1: real -> string, t2: real -> string)
    ensures ValidateLecturas(lectIni, lectFin, k1, t1).valid == ValidateLecturas(lectIni, lectFin, k2, t2).valid
    ensures ValidateLecturas(lectIni, lectFin, k1, t1).errors == ValidateLecturas(lectIni, lectFin, k2, t2).errors
  {
  }

  /** Readings that match the kWh sold raise nothing; a negative kWh figure
      always raises the warning, since the tolerance is then negative. */
  lemma LecturasTolerance(lectIni: real, lectFin: real, kwhVendidos: real, t: real -> string)
    ensures lectFin >= lectIni && kwhVendidos >= 0.0 && lectFin - lectIni == kwhVendidos ==>
      ValidateLecturas(lectIni, lectFin, kwhVendidos, t) == CreateValidationResult()
    ensures kwhVendidos < 0.0 ==> |ValidateLecturas(lectIni, lectFin, kwhVendidos, t).warnings| == 1
  {
  }
}

=== FILE: errors.dfy ===
/** The global error handler of `src/middlewares/error.ts` and the error
    classes it knows: an error is reduced to the fields the handler reads,
    and the handler to the status and body it sends. */
module Errors {
  import opened Wrappers
  import opened Strings

  /** The fields of a thrown error the handler reads. `statusCode` is absent
      or a number; `validation` is absent or the array of issues a schema
      validation attaches (an array, even an empty one, is truthy). */
  datatype ErrorInfo = ErrorInfo(
    name: string,
    message: string,
    statusCode: Option<int>,
    validation: Option<seq<string>>,
    stack: string)

  /** The reply: its status and the body fields other than `error: true` and
      the timestamp. `details`, `stack` and `originalMessage` are absent
      unless set. */
  datatype ErrorReply = ErrorReply(
    status: int,
    message: string,
    requestId: string,
    details: Option<seq<string>>,
    stack: Option<string>,
    originalMessage: Option<string>)

  /** `error.statusCode || 500`: 0 is falsy. */
  function DefaultStatus(e: ErrorInfo): (s: int)
    ensures s != 0
    ensures e.statusCode.Some? && e.statusCode.value != 0 ==> s == e.statusCode.value
  {
    if e.statusCode.Some? && e.statusCode.value != 0 then e.statusCode.value else 500
  }

  /** The status and message the name-based branches choose, and whether the
      validation branch ran. */
  datatype Mapping = Mapping(status: int, message: string, validationBranch: bool)

  /** The `if` chain of the handler. The validation test comes first, so an
      error carrying `validation` is a 400 whatever its name. */
  function MapError(e: ErrorInfo): (m: Mapping)
    ensures m.validationBranch <==> e.name == "ValidationError" || e.validation.Some?
    ensures m.validationBranch ==> m.status == 400 && m.message == "Validation Error"
    ensures !m.validationBranch && e.name == "UnauthorizedError" ==> m.status == 401 && m.message == "Unauthorized"
    ensures !m.validationBranch && e.name == "ForbiddenError" ==> m.status == 403 && m.message == "Forbidden"
    ensures !m.validationBranch && e.name == "NotFoundError" ==> m.status == 404 && m.message == "Not Found"
    ensures !m.validationBranch && e.name == "ConflictError" ==> m.status == 409 && m.message == "Conflict"
    ensures m.message == "Internal Server Error" ==> m.status == DefaultStatus(e)
  {
    if e.name == "ValidationError" || e.validation.Some? then Mapping(400, "Validation Error", true)
    else if e.name == "UnauthorizedError" then Mapping(401, "Unauthorized", false)
    else if e.name == "ForbiddenError" then Mapping(403, "Forbidden", false)
    else if e.name == "NotFoundError" then Mapping(404, "Not Found", false)
    else if e.name == "ConflictError" then Mapping(409, "Conflict", false)
    else if e.name == "PrismaClientKnownRequestError" && Contains(e.message, "Unique constraint") then
      Mapping(409, "Resource already exists", false)
    else if e.name == "PrismaClientKnownRequestError" && Contains(e.message, "Record to delete does not exist") then
      Mapping(404, "Resource not found", false)
    else Mapping(DefaultStatus(e), "Internal Server Error", false)
  }

  /** `errorHandler`: `requestId` is the request's id (an empty one reads as
      absent), `nodeEnv` the `NODE_ENV` setting. */
  function ErrorHandler(e: ErrorInfo, requestId: Option<string>, nodeEnv: Option<string>): (r: ErrorReply)
    ensures r.status == MapError(e).status && r.message == MapError(e).message
    ensures r.requestId == if requestId.Some? && requestId.value != "" then requestId.value else "unknown"
    ensures r.details.Some? <==> MapError(e).validationBranch && e.validation.Some?
    ensures r.details.Some? ==> r.details == e.validation
    ensures r.stack.Some? <==> nodeEnv == Some("development")
    ensures r.originalMessage.Some? <==> nodeEnv == Some("development")
    ensures r.originalMessage.Some? ==> r.originalMessage.value == e.message && r.stack.value == e.stack
  {
    var m := MapError(e);
    var details := if m.validationBranch then e.validation else None;
    var isDevelopment := nodeEnv == Some("development");
    ErrorReply(
      m.status,
      m.message,
      if requestId.Some? && requestId.value != "" then requestId.value else "unknown",
      details,
      if isDevelopment then Some(e.stack) else None,
      if isDevelopment then Some(e.message) else None)
  }

  /** A Prisma error is a 409 when its message mentions a unique constraint
      (that test first), a 404 when it mentions a missing record, and
      otherwise falls through to the default. */
  lemma PrismaMapping(e: ErrorInfo)
    requires e.name == "PrismaClientKnownRequestError" && e.validation.None?
    ensures Contains(e.message, "Unique constraint") ==> MapError(e) == Mapping(409, "Resource already exists", false)
    ensures !Contains(e.message, "Unique constraint") && Contains(e.message, "Record to delete does not exist") ==>
      MapError(e) == Mapping(404, "Resource not found", false)
    ensures !Contains(e.message, "Unique constraint") && !Contains(e.message, "Record to delete does not exist") ==>
      MapError(e) == Mapping(DefaultStatus(e), "Internal Server Error", false)
  {
  }

  /** Any other error keeps its own truthy status code, or gets 500, and the
      generic message. */
  lemma UnknownErrorMapping(e: ErrorInfo)
    requires e.validation.None?
    requires e.name !in {"ValidationError", "UnauthorizedError", "ForbiddenError", "NotFoundError",
      "ConflictError", "PrismaClientKnownRequestError"}
    ensures MapError(e) == Mapping(DefaultStatus(e), "Internal Server Error", false)
    ensures e.statusCode.None? ==> MapError(e).status == 500
  {
  }

  /** A validation issue list wins over any name. */
  lemma ValidationWins(e: ErrorInfo)
    requires e.validation.Some?
    ensures ErrorHandler(e, None, None).status == 400
    ensures ErrorHandler(e, None, None).details == e.validation
  {
  }

  // ---------------------------------------------------------------------
  // Error classes

  /** The custom error classes. */
  datatype ErrorClass = UnauthorizedClass | ForbiddenClass | NotFoundClass | ConflictClass | ValidationClass

  /** Each class's `name`. */
  function ClassName(c: ErrorClass): string {
    match c
    case UnauthorizedClass => "UnauthorizedError"
    case ForbiddenClass => "ForbiddenError"
    case NotFoundClass => "NotFoundError"
    case ConflictClass => "ConflictError"
    case ValidationClass => "ValidationError"
  }

  /** Each class's `statusCode` field. */
  function ClassStatus(c: ErrorClass): int {
    match c
    case UnauthorizedClass => 401
    case ForbiddenClass => 403
    case NotFoundClass => 404
    case ConflictClass => 409
    case ValidationClass => 400
  }

  /** Each constructor's default message. */
  function DefaultMessage(c: ErrorClass): string {
    match c
    case UnauthorizedClass => "Unauthorized"
    case ForbiddenClass => "Forbidden"
    case NotFoundClass => "Not Found"
    case ConflictClass => "Conflict"
    case ValidationClass => "Validation Error"
  }

  /** `new XError(message)`: a `ValidationError` carries its issue list (by
      default empty). */
  function NewError(c: ErrorClass, message: Option<string>, stack: string): (e: ErrorInfo)
    ensures e.name == ClassName(c) && e.statusCode == Some(ClassStatus(c))
    ensures e.message == message.GetOr(DefaultMessage(c))
    ensures e.validation.Some? <==> c == ValidationClass
  {
    ErrorInfo(ClassName(c), message.GetOr(DefaultMessage(c)), Some(ClassStatus(c)),
      if c == ValidationClass then Some([]) else None, stack)
  }

  /** The handler answers each class's error with the status the class
      declares, and the message is the class's default message whatever
      message the error was built with. */
  lemma ClassStatusAgrees(c: ErrorClass, message: Option<string>, stack: string, requestId: Option<string>, nodeEnv: Option<string>)
    ensures ErrorHandler(NewError(c, message, stack), requestId, nodeEnv).status == ClassStatus(c)
    ensures ErrorHandler(NewError(c, message, stack), requestId, nodeEnv).message == DefaultMessage(c)
    ensures DefaultStatus(NewError(c, message, stack)) == ClassStatus(c)
  {
  }

  /** A `ValidationError` always has an issue list, so its reply always has
      `details`, even an empty one. */
  lemma ValidationErrorHasDetails(message: Option<string>, stack: string)
    ensures ErrorHandler(NewError(ValidationClass, message, stack), None, None).details == Some([])
  {
  }
}

=== FILE: general.dfy ===
/** `getBalanceGeneral` of `src/modules/analytics/service.ts`: the outer join
    of purchases and sales per (boca, month) through a `Map`, the recompute
    of loss, percentage and tier on every row, and the final sort. The two
    input lists are what `getBalanceCompraPorBoca` and
    `getBalanceVentaPorBoca` return. */
module General {
  import opened Wrappers
  import opened Sorting
  import opened Rounding
  import opened Sums
  import opened Balance
  import Period

  /** A `BalanceGeneral` row. */
  datatype BalanceGeneral = BalanceGeneral(
    idBoca: string,
    periodoMes: string,
    kwhCompradosMes: real,
    kwhVendidosMes: real,
    importeCompradoMes: real,
    importeVendidoMes: real,
    perdidaKwh: real,
    perdidaPorcentaje: real,
    nivelPerdida: Period.Nivel,
    descripcionPerdida: string)

  function BKey(b: BalanceGeneral): BocaMes {
    BocaMes(b.idBoca, b.periodoMes)
  }

  function Comprados(b: BalanceGeneral): real {
    b.kwhCompradosMes
  }

  function Vendidos(b: BalanceGeneral): real {
    b.kwhVendidosMes
  }

  function ImporteComprado(b: BalanceGeneral): real {
    b.importeCompradoMes
  }

  function ImporteVendido(b: BalanceGeneral): real {
    b.importeVendidoMes
  }

  function PerdidaKwh(b: BalanceGeneral): real {
    b.perdidaKwh
  }

  // ---------------------------------------------------------------------
  // The map key

  /** The `Map` key `${idBoca}_${periodoMes}`. */
  function MapKey(k: BocaMes): string {
    k.idBoca + "_" + k.periodoMes
  }

  /** With seven-character months the string key determines the pair, so the
      model keys the map by the pair itself. */
  lemma MapKeyInjective(a: BocaMes, b: BocaMes)
    requires |a.periodoMes| == 7 && |b.periodoMes| == 7
    requires MapKey(a) == MapKey(b)
    ensures a == b
  {
    var s := MapKey(a);
    assert |a.idBoca| == |b.idBoca|;
    assert a.idBoca == s[..|a.idBoca|] == b.idBoca;
    assert a.periodoMes == s[|a.idBoca| + 1..] == b.periodoMes;
  }

  // ---------------------------------------------------------------------
  // The join

  /** The row a purchase sets: no sales yet, a total loss. */
  function FromCompra(c: Compra): BalanceGeneral {
    BalanceGeneral(c.idBoca, c.periodoMes, c.kwhCompradosMes, 0.0, c.importeCompradoMes, 0.0,
      c.kwhCompradosMes, 100.0, Period.Critica, "Sin ventas registradas")
  }

  /** The row a sale without a purchase sets. */
  function FromVenta(v: Venta): BalanceGeneral {
    BalanceGeneral(v.idBoca, v.periodoMes, 0.0, v.kwhVendidosMes, 0.0, v.importeVendidoMes,
      -v.kwhVendidosMes, -100.0, Period.Normal, "Venta sin compra correspondiente")
  }

  /** `balancesMap.set(key, ...)` of a purchase: a repeated key has its
      value replaced in place, a new key is appended. */
  function SetCompra(m: seq<BalanceGeneral>, c: Compra): seq<BalanceGeneral> {
    Upsert(m, BKey, CKey(c), ReplaceBy(c), FromCompra(c))
  }

  function ReplaceBy(c: Compra): BalanceGeneral -> BalanceGeneral {
    (b: BalanceGeneral) => FromCompra(c)
  }

  /** One sale: an existing row takes the sale's kWh and amount (they
      overwrite, they do not add); a new key gets a sale-only row. */
  function SetVenta(m: seq<BalanceGeneral>, v: Venta): seq<BalanceGeneral> {
    Upsert(m, BKey, VKey(v), TakeSale(v), FromVenta(v))
  }

  function TakeSale(v: Venta): BalanceGeneral -> BalanceGeneral {
    (b: BalanceGeneral) => b.(kwhVendidosMes := v.kwhVendidosMes, importeVendidoMes := v.importeVendidoMes)
  }

  /** The purchase loop, in order, from an empty map. */
  function ApplyCompras(cs: seq<Compra>): seq<BalanceGeneral> {
    if |cs| == 0 then [] else SetCompra(ApplyCompras(cs[..|cs| - 1]), cs[|cs| - 1])
  }

  /** The sale loop, in order. */
  function ApplyVentas(m: seq<BalanceGeneral>, vs: seq<Venta>): seq<BalanceGeneral> {
    if |vs| == 0 then m else SetVenta(ApplyVentas(m, vs[..|vs| - 1]), vs[|vs| - 1])
  }

  /** The loss loop: every field derived from the two kWh figures is
      recomputed, whatever the join put there. */
  function Recompute(b: BalanceGeneral): BalanceGeneral {
    var perdidaKwh := b.kwhCompradosMes - b.kwhVendidosMes;
    var perdidaPorcentaje := Period.CalcularPerdidaPorcentaje(b.kwhCompradosMes, b.kwhVendidosMes);
    var evaluacion := Period.EvaluarPerdida(perdidaPorcentaje);
    b.(perdidaKwh := Round2(perdidaKwh), perdidaPorcentaje := perdidaPorcentaje,
       nivelPerdida := evaluacion.nivel, descripcionPerdida := evaluacion.descripcion)
  }

  function RecomputeAll(m: seq<BalanceGeneral>): (r: seq<BalanceGeneral>)
    ensures |r| == |m| && forall i :: 0 <= i < |m| ==> r[i] == Recompute(m[i])
  {
    seq(|m|, i requires 0 <= i < |m| => Recompute(m[i]))
  }

  predicate BalanceLe(a: BalanceGeneral, b: BalanceGeneral) {
    KeyLe(BKey(a), BKey(b))
  }

  /** `getBalanceGeneral` after the two balance queries. */
  function GetBalanceGeneral(compras: seq<Compra>, ventas: seq<Venta>): seq<BalanceGeneral> {
    Sort(RecomputeAll(ApplyVentas(ApplyCompras(compras), ventas)), BalanceLe)
  }

  // ---------------------------------------------------------------------
  // Reference definition of a row

  /** The purchase a key ends up with: the last one carrying it. */
  function CompraOf(cs: seq<Compra>, k: BocaMes): (r: Option<Compra>)
    ensures r.Some? <==> HasKey(cs, CKey, k)
    ensures r.Some? ==> CKey(r.value) == k && r.value in cs
  {
    if |cs| == 0 then None
    else if CKey(cs[|cs| - 1]) == k then Some(cs[|cs| - 1])
    else
      var p := cs[..|cs| - 1];
      assert forall i :: 0 <= i < |p| ==> p[i] == cs[i];
      CompraOf(p, k)
  }

  /** The sale a key ends up with: the last one carrying it. */
  function VentaOf(vs: seq<Venta>, k: BocaMes): (r: Option<Venta>)
    ensures r.Some? <==> HasKey(vs, VKey, k)
    ensures r.Some? ==> VKey(r.value) == k && r.value in vs
  {
    if |vs| == 0 then None
    else if VKey(vs[|vs| - 1]) == k then Some(vs[|vs| - 1])
    else
      var p := vs[..|vs| - 1];
      assert forall i :: 0 <= i < |p| ==> p[i] == vs[i];
      VentaOf(p, k)
  }

  function CompraKwh(cs: seq<Compra>, k: BocaMes): real {
    match CompraOf(cs, k)
    case Some(c) => c.kwhCompradosMes
    case None => 0.0
  }

  function CompraImporte(cs: seq<Compra>, k: BocaMes): real {
    match CompraOf(cs, k)
    case Some(c) => c.importeCompradoMes
    case None => 0.0
  }

  function VentaKwh(vs: seq<Venta>, k: BocaMes): real {
    match VentaOf(vs, k)
    case Some(v) => v.kwhVendidosMes
    case None => 0.0
  }

  function VentaImporte(vs: seq<Venta>, k: BocaMes): real {
    match VentaOf(vs, k)
    case Some(v) => v.importeVendidoMes
    case None => 0.0
  }

  /** A reconciled row: the four figures as given, the loss fields derived
      from the kWh pair. */
  function Reconciled(k: BocaMes, compra: real, venta: real, importeCompra: real, importeVenta: real)
    : BalanceGeneral
  {
    var pct := Period.CalcularPerdidaPorcentaje(compra, venta);
    var e := Period.EvaluarPerdida(pct);
    BalanceGeneral(k.idBoca, k.periodoMes, compra, venta, importeCompra, importeVenta,
      Round2(compra - venta), pct, e.nivel, e.descripcion)
  }

  /** The row key `k` should have: purchase figures from its purchase, sale
      figures from its sale, 0 for a missing side. */
  function ExpectedRow(cs: seq<Compra>, vs: seq<Venta>, k: BocaMes): BalanceGeneral {
    Reconciled(k, CompraKwh(cs, k), VentaKwh(vs, k), CompraImporte(cs, k), VentaImporte(vs, k))
  }

  // ---------------------------------------------------------------------
  // The join against the reference

  /** After the purchase loop: one row per purchase key, set from that key's
      purchase. */
  ghost predicate CompraInv(m: seq<BalanceGeneral>, cs: seq<Compra>) {
    && DistinctKeys(m, BKey)
    && (forall k :: HasKey(m, BKey, k) <==> HasKey(cs, CKey, k))
    && (forall i :: 0 <= i < |m| ==>
          CompraOf(cs, BKey(m[i])).Some? && m[i] == FromCompra(CompraOf(cs, BKey(m[i])).value))
  }

  lemma CompraOfStep(p: seq<Compra>, c: Compra, k: BocaMes)
    ensures CompraOf(p + [c], k) == if k == CKey(c) then Some(c) else CompraOf(p, k)
  {
    assert (p + [c])[..|p|] == p;
  }

  lemma VentaOfStep(p: seq<Venta>, v: Venta, k: BocaMes)
    ensures VentaOf(p + [v], k) == if k == VKey(v) then Some(v) else VentaOf(p, k)
  {
    assert (p + [v])[..|p|] == p;
  }

  lemma {:induction false} CompraStep(m: seq<BalanceGeneral>, p: seq<Compra>, c: Compra)
    requires CompraInv(m, p)
    ensures CompraInv(SetCompra(m, c), p + [c])
  {
    UpsertSpec(m, BKey, CKey(c), ReplaceBy(c), FromCompra(c));
    var r := SetCompra(m, c);
    var cs := p + [c];
    forall k
      ensures HasKey(r, BKey, k) <==> HasKey(cs, CKey, k)
    {
      CompraOfStep(p, c, k);
    }
    forall i | 0 <= i < |r|
      ensures CompraOf(cs, BKey(r[i])).Some? && r[i] == FromCompra(CompraOf(cs, BKey(r[i])).value)
    {
      CompraOfStep(p, c, BKey(r[i]));
      if i < |m| && BKey(m[i]) != CKey(c) {
        assert r[i] == m[i];
      }
    }
  }

  lemma {:induction false} ComprasInv(cs: seq<Compra>)
    ensures CompraInv(ApplyCompras(cs), cs)
  {
    if |cs| > 0 {
      var p := cs[..|cs| - 1];
      ComprasInv(p);
      CompraStep(ApplyCompras(p), p, cs[|cs| - 1]);
      assert p + [cs[|cs| - 1]] == cs;
    }
  }

  /** The figures of a row are those of its key's purchase and sale. */
  predicate RawRow(b: BalanceGeneral, cs: seq<Compra>, vs: seq<Venta>) {
    && b.kwhCompradosMes == CompraKwh(cs, BKey(b))
    && b.importeCompradoMes == CompraImporte(cs, BKey(b))
    && b.kwhVendidosMes == VentaKwh(vs, BKey(b))
    && b.importeVendidoMes == VentaImporte(vs, BKey(b))
  }

  /** After the sale loop: one row per key of either side, with that key's
      figures. */
  ghost predicate VentaInv(m: seq<BalanceGeneral>, cs: seq<Compra>, vs: seq<Venta>) {
    && DistinctKeys(m, BKey)
    && (forall k :: HasKey(m, BKey, k) <==> HasKey(cs, CKey, k) || HasKey(vs, VKey, k))
    && (forall i :: 0 <= i < |m| ==> RawRow(m[i], cs, vs))
  }

  lemma {:induction false} VentaStep(m: seq<BalanceGeneral>, cs: seq<Compra>, p: seq<Venta>, v: Venta)
    requires VentaInv(m, cs, p)
    ensures VentaInv(SetVenta(m, v), cs, p + [v])
  {
    UpsertSpec(m, BKey, VKey(v), TakeSale(v), FromVenta(v));
    var r := SetVenta(m, v);
    var vs := p + [v];
    forall k
      ensures HasKey(r, BKey, k) <==> HasKey(cs, CKey, k) || HasKey(vs, VKey, k)
    {
      VentaOfStep(p, v, k);
    }
    forall i | 0 <= i < |r|
      ensures RawRow(r[i], cs, vs)
    {
      VentaOfStep(p, v, BKey(r[i]));
      if i < |m| {
        assert RawRow(m[i], cs, p);
      } else {
        assert !HasKey(m, BKey, VKey(v));
        assert !HasKey(cs, CKey, VKey(v));
      }
    }
  }

  lemma {:induction false} VentasInv(cs: seq<Compra>, vs: seq<Venta>)
    ensures VentaInv(ApplyVentas(ApplyCompras(cs), vs), cs, vs)
  {
    var m0 := ApplyCompras(cs);
    if |vs| == 0 {
      ComprasInv(cs);
      forall i | 0 <= i < |m0|
        ensures RawRow(m0[i], cs, vs)
      {
      }
    } else {
      var p := vs[..|vs| - 1];
      VentasInv(cs, p);
      VentaStep(ApplyVentas(m0, p), cs, p, vs[|vs| - 1]);
      assert p + [vs[|vs| - 1]] == vs;
    }
  }

  /** The loss loop turns a row with its key's figures into the expected row. */
  lemma RecomputeRaw(b: BalanceGeneral, cs: seq<Compra>, vs: seq<Venta>)
    requires RawRow(b, cs, vs)
    ensures Recompute(b) == ExpectedRow(cs, vs, BKey(b))
  {
  }

  /** Before the sort: one row per key of either side, each the expected row
      of its key. */
  lemma {:induction false} JoinSpec(cs: seq<Compra>, vs: seq<Venta>)
    ensures var j := RecomputeAll(ApplyVentas(ApplyCompras(cs), vs));
      && DistinctKeys(j, BKey)
      && (forall k :: HasKey(j, BKey, k) <==> HasKey(cs, CKey, k) || HasKey(vs, VKey, k))
      && (forall i :: 0 <= i < |j| ==> j[i] == ExpectedRow(cs, vs, BKey(j[i])))
  {
    var m := ApplyVentas(ApplyCompras(cs), vs);
    VentasInv(cs, vs);
    var j := RecomputeAll(m);
    forall a, b | 0 <= a < b < |j|
      ensures BKey(j[a]) != BKey(j[b])
    {
      assert BKey(j[a]) == BKey(m[a]) && BKey(j[b]) == BKey(m[b]);
    }
    forall k
      ensures HasKey(j, BKey, k) <==> HasKey(m, BKey, k)
    {
      if HasKey(j, BKey, k) {
        var i :| 0 <= i < |j| && BKey(j[i]) == k;
        assert BKey(m[i]) == k;
      }
      if HasKey(m, BKey, k) {
        var i :| 0 <= i < |m| && BKey(m[i]) == k;
        assert BKey(j[i]) == k;
      }
    }
    forall i | 0 <= i < |j|
      ensures j[i] == ExpectedRow(cs, vs, BKey(j[i]))
    {
      RecomputeRaw(m[i], cs, vs);
    }
  }

  /** `getBalanceGeneral`: exactly one row per key in the union of purchase
      and sale keys, strictly ascending by (idBoca, periodoMes), and each row
      is the reconciled row of its key's purchase and sale figures. */
  lemma {:induction false} BalanceGeneralSpec(cs: seq<Compra>, vs: seq<Venta>)
    ensures var r := GetBalanceGeneral(cs, vs);
      && DistinctKeys(r, BKey)
      && (forall i, j :: 0 <= i < j < |r| ==> KeyLt(BKey(r[i]), BKey(r[j])))
      && (forall k :: HasKey(r, BKey, k) <==> HasKey(cs, CKey, k) || HasKey(vs, VKey, k))
      && (forall i :: 0 <= i < |r| ==> r[i] == ExpectedRow(cs, vs, BKey(r[i])))
  {
    var j := RecomputeAll(ApplyVentas(ApplyCompras(cs), vs));
    JoinSpec(cs, vs);
    SortByKey(j, BKey, BalanceLe);
    SortPreserves(j, BalanceLe, (b: BalanceGeneral) => IsExpectedRow(cs, vs, b));
  }

  predicate IsExpectedRow(cs: seq<Compra>, vs: seq<Venta>, b: BalanceGeneral) {
    b == ExpectedRow(cs, vs, BKey(b))
  }

  // ---------------------------------------------------------------------
  // Consequences

  /** With distinct purchase keys (as a `groupBy` gives), a key's purchase is
      the one row carrying it. */
  lemma {:induction false} CompraOfDistinct(cs: seq<Compra>, j: nat)
    requires DistinctKeys(cs, CKey)
    requires j < |cs|
    ensures CompraOf(cs, CKey(cs[j])) == Some(cs[j])
  {
    if j < |cs| - 1 {
      var p := cs[..|cs| - 1];
      assert p[j] == cs[j];
      CompraOfDistinct(p, j);
    }
  }

  /** With distinct sale keys (as `getBalanceVentaPorBoca` gives), a key's
      sale is the one row carrying it. */
  lemma {:induction false} VentaOfDistinct(vs: seq<Venta>, j: nat)
    requires DistinctKeys(vs, VKey)
    requires j < |vs|
    ensures VentaOf(vs, VKey(vs[j])) == Some(vs[j])
  {
    if j < |vs| - 1 {
      var p := vs[..|vs| - 1];
      assert p[j] == vs[j];
      VentaOfDistinct(p, j);
    }
  }

  /** A purchase with no sale ends at a 100 % loss, tier critica: the
      placeholder the purchase loop set is what the recompute gives too. */
  lemma NoSaleIsCritical(cs: seq<Compra>, vs: seq<Venta>, k: BocaMes)
    requires CompraKwh(cs, k) > 0.0
    requires !HasKey(vs, VKey, k)
    ensures ExpectedRow(cs, vs, k).perdidaPorcentaje == 100.0
    ensures ExpectedRow(cs, vs, k).nivelPerdida == Period.Critica
    ensures ExpectedRow(cs, vs, k).kwhVendidosMes == 0.0
  {
    Period.PerdidaPorcentajeFacts(CompraKwh(cs, k), 0.0);
  }

  /** A sale with no purchase does not keep the -100 % placeholder: with
      nothing bought the percentage is 0, the tier normal, and the loss the
      rounded negated sale. */
  lemma SaleWithoutPurchase(cs: seq<Compra>, vs: seq<Venta>, k: BocaMes)
    requires !HasKey(cs, CKey, k)
    ensures ExpectedRow(cs, vs, k).kwhCompradosMes == 0.0
    ensures ExpectedRow(cs, vs, k).perdidaPorcentaje == 0.0
    ensures ExpectedRow(cs, vs, k).nivelPerdida == Period.Normal
    ensures ExpectedRow(cs, vs, k).descripcionPerdida == "Pérdidas técnicas normales"
    ensures ExpectedRow(cs, vs, k).perdidaKwh == Round2(-VentaKwh(vs, k))
  {
  }

  // ---------------------------------------------------------------------
  // Totals through the join

  /** With distinct purchase keys every purchase gets a row of its own, so
      the purchase figures add up to the purchase totals; nothing is sold
      yet. */
  lemma {:induction false} ComprasTotals(cs: seq<Compra>)
    requires DistinctKeys(cs, CKey)
    ensures SumBy(ApplyCompras(cs), Comprados) == SumBy(cs, KwhOfCompra)
    ensures SumBy(ApplyCompras(cs), ImporteComprado) == SumBy(cs, ImporteOfCompra)
    ensures SumBy(ApplyCompras(cs), Vendidos) == 0.0
    ensures SumBy(ApplyCompras(cs), ImporteVendido) == 0.0
  {
    if |cs| > 0 {
      var p := cs[..|cs| - 1];
      var c := cs[|cs| - 1];
      var m := ApplyCompras(p);
      ComprasTotals(p);
      ComprasInv(p);
      assert !HasKey(p, CKey, CKey(c));
      UpsertSpec(m, BKey, CKey(c), ReplaceBy(c), FromCompra(c));
      var r := SetCompra(m, c);
      assert r == m + [FromCompra(c)];
      SumSnoc(m, FromCompra(c), Comprados);
      SumSnoc(m, FromCompra(c), ImporteComprado);
      SumSnoc(m, FromCompra(c), Vendidos);
      SumSnoc(m, FromCompra(c), ImporteVendido);
    }
  }

  /** With distinct sale keys every sale lands on a row with nothing sold
      yet: the sale figures add up to the sale totals, and the purchase
      figures are untouched. */
  lemma {:induction false} VentasTotals(cs: seq<Compra>, vs: seq<Venta>)
    requires DistinctKeys(vs, VKey)
    ensures var m0 := ApplyCompras(cs);
      var m := ApplyVentas(m0, vs);
      && SumBy(m, Comprados) == SumBy(m0, Comprados)
      && SumBy(m, ImporteComprado) == SumBy(m0, ImporteComprado)
      && SumBy(m, Vendidos) == SumBy(m0, Vendidos) + SumBy(vs, KwhOfVenta)
      && SumBy(m, ImporteVendido) == SumBy(m0, ImporteVendido) + SumBy(vs, ImporteOfVenta)
  {
    if |vs| > 0 {
      var p := vs[..|vs| - 1];
      VentasTotals(cs, p);
      VentasInv(cs, p);
      VentaTotalsStep(ApplyVentas(ApplyCompras(cs), p), cs, p, vs[|vs| - 1]);
      assert p + [vs[|vs| - 1]] == vs;
    }
  }

  lemma {:induction false} VentaTotalsStep(m: seq<BalanceGeneral>, cs: seq<Compra>, p: seq<Venta>, v: Venta)
    requires VentaInv(m, cs, p)
    requires !HasKey(p, VKey, VKey(v))
    ensures var r := SetVenta(m, v);
      && SumBy(r, Comprados) == SumBy(m, Comprados)
      && SumBy(r, ImporteComprado) == SumBy(m, ImporteComprado)
      && SumBy(r, Vendidos) == SumBy(m, Vendidos) + v.kwhVendidosMes
      && SumBy(r, ImporteVendido) == SumBy(m, ImporteVendido) + v.importeVendidoMes
  {
    UpsertSpec(m, BKey, VKey(v), TakeSale(v), FromVenta(v));
    var r := SetVenta(m, v);
    if HasKey(m, BKey, VKey(v)) {
      var i :| 0 <= i < |m| && BKey(m[i]) == VKey(v);
      var x := TakeSale(v)(m[i]);
      assert r == m[i := x];
      assert RawRow(m[i], cs, p);
      SumUpdate(m, i, x, Comprados);
      SumUpdate(m, i, x, ImporteComprado);
      SumUpdate(m, i, x, Vendidos);
      SumUpdate(m, i, x, ImporteVendido);
    } else {
      assert r == m + [FromVenta(v)];
      SumSnoc(m, FromVenta(v), Comprados);
      SumSnoc(m, FromVenta(v), ImporteComprado);
      SumSnoc(m, FromVenta(v), Vendidos);
      SumSnoc(m, FromVenta(v), ImporteVendido);
    }
  }

  /** With distinct keys on both sides (as the two balance queries give),
      the general balance carries exactly the purchase and sale totals. */
  lemma {:induction false} BalanceGeneralTotals(cs: seq<Compra>, vs: seq<Venta>)
    requires DistinctKeys(cs, CKey)
    requires DistinctKeys(vs, VKey)
    ensures SumBy(GetBalanceGeneral(cs, vs), Comprados) == SumBy(cs, KwhOfCompra)
    ensures SumBy(GetBalanceGeneral(cs, vs), Vendidos) == SumBy(vs, KwhOfVenta)
    ensures SumBy(GetBalanceGeneral(cs, vs), ImporteComprado) == SumBy(cs, ImporteOfCompra)
    ensures SumBy(GetBalanceGeneral(cs, vs), ImporteVendido) == SumBy(vs, ImporteOfVenta)
  {
    var m := ApplyVentas(ApplyCompras(cs), vs);
    var j := RecomputeAll(m);
    ComprasTotals(cs);
    VentasTotals(cs, vs);
    SumCongruent(j, m, Comprados, Comprados);
    SumCongruent(j, m, Vendidos, Vendidos);
    SumCongruent(j, m, ImporteComprado, ImporteComprado);
    SumCongruent(j, m, ImporteVendido, ImporteVendido);
    SumSort(j, BalanceLe, Comprados);
    SumSort(j, BalanceLe, Vendidos);
    SumSort(j, BalanceLe, ImporteComprado);
    SumSort(j, BalanceLe, ImporteVendido);
  }

  /** Rows whose loss is the rounded difference of their kWh figures: the
      summed loss is within half a hundredth per row of the difference of
      the sums. */
  lemma {:induction false} PerdidaTotalNear(s: seq<BalanceGeneral>)
    requires forall i :: 0 <= i < |s| ==> s[i].perdidaKwh == Round2(s[i].kwhCompradosMes - s[i].kwhVendidosMes)
    ensures -0.005 * |s| as real <= SumBy(s, PerdidaKwh) - (SumBy(s, Comprados) - SumBy(s, Vendidos))
    ensures SumBy(s, PerdidaKwh) - (SumBy(s, Comprados) - SumBy(s, Vendidos)) <= 0.005 * |s| as real
  {
    if |s| > 0 {
      PerdidaTotalNear(s[..|s| - 1]);
    }
  }
}

=== FILE: period.dfy ===
/** Period arithmetic of `src/utils/period.ts`: `YYYY-MM` month keys,
    `YYYY-MM_YYYY-MM` bimestre keys, day counts, next/previous month, month
    ranges, loss percentage and the four-tier loss classification. A thrown
    `Error` is an `Err(PeriodError)`. */
module Period {
  import opened Wrappers
  import opened Strings
  import opened Rounding

  /** The errors thrown: the two format errors, the `TypeError` of calling
      a method a `dayjs` object does not have, and the `RangeError` of
      `toFixed` with a precision outside 0..100. */
  datatype PeriodError = InvalidPeriodo | InvalidBimestre | NotAFunction | PrecisionOutOfRange

  /** Supported years, inclusive. */
  const MinYear: int := 2020
  const MaxYear: int := 2030

  // ---------------------------------------------------------------------
  // Month keys

  /** The regular expression `^\d{4}-\d{2}$`. */
  predicate MonthFormat(s: string) {
    && |s| == 7
    && IsDigit(s[0]) && IsDigit(s[1]) && IsDigit(s[2]) && IsDigit(s[3])
    && s[4] == '-'
    && IsDigit(s[5]) && IsDigit(s[6])
  }

  /** `Number` of the four year digits. */
  function YearOf(s: string): (y: int)
    requires MonthFormat(s)
    ensures 0 <= y <= 9999
  {
    1000 * DigitValue(s[0]) + 100 * DigitValue(s[1]) + 10 * DigitValue(s[2]) + DigitValue(s[3])
  }

  /** `Number` of the two month digits. */
  function MonthOf(s: string): (m: int)
    requires MonthFormat(s)
    ensures 0 <= m <= 99
  {
    10 * DigitValue(s[5]) + DigitValue(s[6])
  }

  /** `isValidPeriodoMes`: the format plus 2020 <= year <= 2030 and 1 <= month <= 12. */
  predicate IsValidPeriodoMes(s: string) {
    MonthFormat(s) && MinYear <= YearOf(s) <= MaxYear && 1 <= MonthOf(s) <= 12
  }

  /** dayjs `format('YYYY-MM')` of the first day of month `m` of year `y`. */
  function FormatMonth(y: int, m: int): (s: string)
    requires 0 <= y <= 9999 && 0 <= m <= 99
    ensures MonthFormat(s) && YearOf(s) == y && MonthOf(s) == m
  {
    var q1 := y / 10;
    var q2 := q1 / 10;
    var q3 := q2 / 10;
    [DigitChar(q3), DigitChar(q2 % 10), DigitChar(q1 % 10), DigitChar(y % 10),
     '-', DigitChar(m / 10), DigitChar(m % 10)]
  }

  /** Reading a key and formatting it back gives the same key. */
  lemma FormatOfParsed(s: string)
    requires MonthFormat(s)
    ensures FormatMonth(YearOf(s), MonthOf(s)) == s
  {
    var y := YearOf(s);
    var m := MonthOf(s);
    var a, b, c, d := DigitValue(s[0]), DigitValue(s[1]), DigitValue(s[2]), DigitValue(s[3]);
    assert y == 10 * (100 * a + 10 * b + c) + d;
    assert y / 10 == 100 * a + 10 * b + c && y % 10 == d;
    assert y / 10 == 10 * (10 * a + b) + c;
    assert y / 10 / 10 == 10 * a + b && y / 10 % 10 == c;
    assert y / 10 / 10 / 10 == a && y / 10 / 10 % 10 == b;
    assert m / 10 == DigitValue(s[5]);
    assert m % 10 == DigitValue(s[6]);
    CharOfDigit(s[0]);
    CharOfDigit(s[1]);
    CharOfDigit(s[2]);
    CharOfDigit(s[3]);
    CharOfDigit(s[5]);
    CharOfDigit(s[6]);
  }

  lemma CharOfDigit(c: char)
    requires IsDigit(c)
    ensures DigitChar(DigitValue(c)) == c
  {
  }

  /** Months counted from January of year 0: the position of a month on the
      calendar line that dayjs `add`/`subtract`/`diff` in months move along. */
  function Ordinal(s: string): int
    requires MonthFormat(s)
  {
    YearOf(s) * 12 + MonthOf(s) - 1
  }

  /** The key of the month at calendar position `o`. */
  function MonthAt(o: int): (s: string)
    requires 0 <= o < 120000
    ensures MonthFormat(s) && 1 <= MonthOf(s) <= 12 && Ordinal(s) == o
    ensures YearOf(s) == o / 12
  {
    FormatMonth(o / 12, o % 12 + 1)
  }

  /** Two real months at the same calendar position are the same key. */
  lemma OrdinalInjective(a: string, b: string)
    requires MonthFormat(a) && 1 <= MonthOf(a) <= 12
    requires MonthFormat(b) && 1 <= MonthOf(b) <= 12
    requires Ordinal(a) == Ordinal(b)
    ensures a == b
  {
    assert YearOf(a) == Ordinal(a) / 12 && MonthOf(a) == Ordinal(a) % 12 + 1;
    assert YearOf(b) == Ordinal(b) / 12 && MonthOf(b) == Ordinal(b) % 12 + 1;
    FormatOfParsed(a);
    FormatOfParsed(b);
  }

  /** Validity read on the calendar line. */
  lemma ValidByOrdinal(s: string)
    requires MonthFormat(s) && 1 <= MonthOf(s) <= 12
    ensures IsValidPeriodoMes(s) <==> MinYear * 12 <= Ordinal(s) <= MaxYear * 12 + 11
  {
  }

  // ---------------------------------------------------------------------
  // String order of month keys

  lemma LexLeUnfold(a: string, b: string)
    requires |a| > 0 && |b| > 0
    ensures LexLe(a, b) <==> a[0] < b[0] || (a[0] == b[0] && LexLe(a[1..], b[1..]))
  {
  }

  lemma DigitOrder(c: char, d: char)
    requires IsDigit(c) && IsDigit(d)
    ensures c < d <==> DigitValue(c) < DigitValue(d)
    ensures c == d <==> DigitValue(c) == DigitValue(d)
  {
  }

  /** On `YYYY-MM` keys, JavaScript's string comparison is the numeric order
      of year, then month. */
  lemma {:induction false} MonthLexOrder(a: string, b: string)
    requires MonthFormat(a) && MonthFormat(b)
    ensures LexLe(a, b) <==> YearOf(a) * 100 + MonthOf(a) <= YearOf(b) * 100 + MonthOf(b)
  {
    LexLeUnfold(a, b);
    LexLeUnfold(a[1..], b[1..]);
    LexLeUnfold(a[2..], b[2..]);
    LexLeUnfold(a[3..], b[3..]);
    LexLeUnfold(a[4..], b[4..]);
    LexLeUnfold(a[5..], b[5..]);
    LexLeUnfold(a[6..], b[6..]);
    assert a[1..][1..] == a[2..] && b[1..][1..] == b[2..];
    assert a[2..][1..] == a[3..] && b[2..][1..] == b[3..];
    assert a[3..][1..] == a[4..] && b[3..][1..] == b[4..];
    assert a[4..][1..] == a[5..] && b[4..][1..] == b[5..];
    assert a[5..][1..] == a[6..] && b[5..][1..] == b[6..];
    assert LexLe(a[6..][1..], b[6..][1..]);
    DigitOrder(a[0], b[0]);
    DigitOrder(a[1], b[1]);
    DigitOrder(a[2], b[2]);
    DigitOrder(a[3], b[3]);
    DigitOrder(a[5], b[5]);
    DigitOrder(a[6], b[6]);
  }

  /** For real months, string order is calendar order. */
  lemma {:induction false} MonthLexIsCalendarOrder(a: string, b: string)
    requires MonthFormat(a) && 1 <= MonthOf(a) <= 12
    requires MonthFormat(b) && 1 <= MonthOf(b) <= 12
    ensures LexLe(a, b) <==> Ordinal(a) <= Ordinal(b)
  {
    MonthLexOrder(a, b);
    KeyOrder(YearOf(a), MonthOf(a), YearOf(b), MonthOf(b));
  }

  /** Year-then-month order, read in base 100 or in base 12. */
  lemma KeyOrder(y1: int, m1: int, y2: int, m2: int)
    requires 1 <= m1 <= 12 && 1 <= m2 <= 12
    ensures y1 * 100 + m1 <= y2 * 100 + m2 <==> y1 * 12 + m1 <= y2 * 12 + m2
  {
    if y1 < y2 {
      assert y1 * 100 + m1 <= y2 * 100 + m2;
      assert y1 * 12 + m1 <= y2 * 12 + m2;
    } else if y1 > y2 {
      assert y1 * 100 + m1 > y2 * 100 + m2;
      assert y1 * 12 + m1 > y2 * 12 + m2;
    }
  }

  // ---------------------------------------------------------------------
  // Days in a month

  predicate IsLeapYear(y: int) {
    y % 4 == 0 && (y % 100 != 0 || y % 400 == 0)
  }

  /** `getDaysInMonth`: the Gregorian length of month `month` of `year`. */
  function GetDaysInMonth(year: int, month: int): (d: int)
    requires 1 <= month <= 12
    ensures 28 <= d <= 31
    ensures month == 2 ==> (d == 29 <==> IsLeapYear(year))
  {
    if month == 2 then (if IsLeapYear(year) then 29 else 28)
    else if month == 4 || month == 6 || month == 9 || month == 11 then 30
    else 31
  }

  function DaysInYearFrom(year: int, month: int): int
    requires 1 <= month <= 13
    decreases 13 - month
  {
    if month == 13 then 0 else GetDaysInMonth(year, month) + DaysInYearFrom(year, month + 1)
  }

  /** The twelve month lengths add up to the length of the year. */
  lemma YearLength(year: int)
    ensures DaysInYearFrom(year, 1) == if IsLeapYear(year) then 366 else 365
  {
  }

  // ---------------------------------------------------------------------
  // Next, previous, distance, ranges

  /** `getPeriodoSiguiente`: the following month; December rolls over. */
  function GetPeriodoSiguiente(s: string): (r: Result<string, PeriodError>)
    ensures r.Ok? <==> IsValidPeriodoMes(s)
    ensures r.Ok? ==> MonthFormat(r.value) && 1 <= MonthOf(r.value) <= 12
    ensures r.Ok? && MonthOf(s) == 12 ==> YearOf(r.value) == YearOf(s) + 1 && MonthOf(r.value) == 1
    ensures r.Ok? && MonthOf(s) < 12 ==> YearOf(r.value) == YearOf(s) && MonthOf(r.value) == MonthOf(s) + 1
  {
    if !IsValidPeriodoMes(s) then Err(InvalidPeriodo) else Ok(MonthAt(Ordinal(s) + 1))
  }

  /** `getPeriodoAnterior`: the preceding month; January rolls back. */
  function GetPeriodoAnterior(s: string): (r: Result<string, PeriodError>)
    ensures r.Ok? <==> IsValidPeriodoMes(s)
    ensures r.Ok? ==> MonthFormat(r.value) && 1 <= MonthOf(r.value) <= 12
    ensures r.Ok? && MonthOf(s) == 1 ==> YearOf(r.value) == YearOf(s) - 1 && MonthOf(r.value) == 12
    ensures r.Ok? && MonthOf(s) > 1 ==> YearOf(r.value) == YearOf(s) && MonthOf(r.value) == MonthOf(s) - 1
  {
    if !IsValidPeriodoMes(s) then Err(InvalidPeriodo) else Ok(MonthAt(Ordinal(s) - 1))
  }

  /** Stepping forward then back returns to the start, whenever the month in
      between is still a supported one. */
  lemma {:induction false} AnteriorOfSiguiente(m: string)
    requires IsValidPeriodoMes(m)
    requires IsValidPeriodoMes(GetPeriodoSiguiente(m).value)
    ensures GetPeriodoAnterior(GetPeriodoSiguiente(m).value) == Ok(m)
  {
    var n := GetPeriodoSiguiente(m).value;
    OrdinalInjective(GetPeriodoAnterior(n).value, m);
  }

  lemma {:induction false} SiguienteOfAnterior(m: string)
    requires IsValidPeriodoMes(m)
    requires IsValidPeriodoMes(GetPeriodoAnterior(m).value)
    ensures GetPeriodoSiguiente(GetPeriodoAnterior(m).value) == Ok(m)
  {
    var p := GetPeriodoAnterior(m).value;
    OrdinalInjective(GetPeriodoSiguiente(p).value, m);
  }

  /** `getMesesEntrePeriodos`: months from `inicio` to `fin`, both counted
      (zero or negative when `fin` comes first). */
  function GetMesesEntrePeriodos(inicio: string, fin: string): (r: Result<int, PeriodError>)
    ensures r.Ok? <==> IsValidPeriodoMes(inicio) && IsValidPeriodoMes(fin)
    ensures r.Ok? ==> r.value - 1 == Ordinal(fin) - Ordinal(inicio)
  {
    if !IsValidPeriodoMes(inicio) || !IsValidPeriodoMes(fin) then Err(InvalidPeriodo)
    else Ok(Ordinal(fin) - Ordinal(inicio) + 1)
  }

  /** `getPeriodosEnRango`: every month from `inicio` to `fin` in calendar
      order, each the successor of the one before. */
  method GetPeriodosEnRango(inicio: string, fin: string) returns (r: Result<seq<string>, PeriodError>)
    ensures r.Ok? <==> IsValidPeriodoMes(inicio) && IsValidPeriodoMes(fin)
    ensures r.Ok? ==> |r.value| == if Ordinal(inicio) <= Ordinal(fin) then GetMesesEntrePeriodos(inicio, fin).value else 0
    ensures r.Ok? ==> forall k :: 0 <= k < |r.value| ==> IsValidPeriodoMes(r.value[k]) && Ordinal(r.value[k]) == Ordinal(inicio) + k
    ensures r.Ok? && |r.value| > 0 ==> r.value[0] == inicio && r.value[|r.value| - 1] == fin
    ensures r.Ok? ==> forall k :: 0 <= k < |r.value| - 1 ==> GetPeriodoSiguiente(r.value[k]) == Ok(r.value[k + 1])
    ensures r.Ok? ==> forall j, k :: 0 <= j < k < |r.value| ==> LexLt(r.value[j], r.value[k])
  {
    if !IsValidPeriodoMes(inicio) || !IsValidPeriodoMes(fin) {
      return Err(InvalidPeriodo);
    }
    var periodos: seq<string> := [];
    var actual := Ordinal(inicio);
    while actual <= Ordinal(fin)
      invariant Ordinal(inicio) <= actual <= if Ordinal(inicio) <= Ordinal(fin) then Ordinal(fin) + 1 else Ordinal(inicio)
      invariant |periodos| == actual - Ordinal(inicio)
      invariant forall k :: 0 <= k < |periodos| ==> IsValidPeriodoMes(periodos[k]) && Ordinal(periodos[k]) == Ordinal(inicio) + k
      invariant forall k :: 0 <= k < |periodos| - 1 ==> GetPeriodoSiguiente(periodos[k]) == Ok(periodos[k + 1])
      decreases Ordinal(fin) - actual
    {
      var mes := MonthAt(actual);
      if |periodos| > 0 {
        OrdinalInjective(GetPeriodoSiguiente(periodos[|periodos| - 1]).value, mes);
      }
      periodos := periodos + [mes];
      actual := actual + 1;
    }
    if |periodos| > 0 {
      OrdinalInjective(periodos[0], inicio);
      OrdinalInjective(periodos[|periodos| - 1], fin);
    }
    forall j, k | 0 <= j < k < |periodos|
      ensures LexLt(periodos[j], periodos[k])
    {
      MonthLexIsCalendarOrder(periodos[j], periodos[k]);
    }
    return Ok(periodos);
  }

  /** `getPeriodosEnRango` as the repository ships it. The loop test calls
      `isSameOrBefore`, which a `dayjs` object only has once the plugin of
      that name is registered with `dayjs.extend`; no file of the repository
      registers it, so the first loop test throws a `TypeError` whenever both
      months are valid. `GetPeriodosEnRango` above is the loop with the plugin
      registered. */
  function GetPeriodosEnRangoAsShipped(inicio: string, fin: string): (r: Result<seq<string>, PeriodError>)
    ensures r.Err?
    ensures r.error == NotAFunction <==> IsValidPeriodoMes(inicio) && IsValidPeriodoMes(fin)
    ensures r.error == InvalidPeriodo <==> !(IsValidPeriodoMes(inicio) && IsValidPeriodoMes(fin))
  {
    if !IsValidPeriodoMes(inicio) || !IsValidPeriodoMes(fin) then Err(InvalidPeriodo)
    else Err(NotAFunction)
  }

  /** The shipped function fails on the range January to March 2024, which
      the intended one lists as three months. */
  lemma RangeAsShippedFails()
    ensures IsValidPeriodoMes("2024-01") && IsValidPeriodoMes("2024-03")
    ensures GetPeriodosEnRangoAsShipped("2024-01", "2024-03") == Err(NotAFunction)
    ensures GetMesesEntrePeriodos("2024-01", "2024-03") == Ok(3)
  {
    assert "2024-01"[5..] == "01" && "2024-03"[5..] == "03";
  }

  // ---------------------------------------------------------------------
  // Bimestre keys

  /** The regular expression `^\d{4}-\d{2}_\d{4}-\d{2}$`. */
  predicate BimestreFormat(s: string) {
    |s| == 15 && MonthFormat(s[..7]) && s[7] == '_' && MonthFormat(s[8..])
  }

  /** `isValidPeriodoBimestre`: the format and two valid halves; whether the
      halves are consecutive is not checked here. */
  predicate IsValidPeriodoBimestre(s: string) {
    BimestreFormat(s) && IsValidPeriodoMes(s[..7]) && IsValidPeriodoMes(s[8..])
  }

  /** On a string of the bimestre format, `split('_')` yields its two halves. */
  lemma SplitBimestre(s: string)
    requires BimestreFormat(s)
    ensures Split(s, '_') == [s[..7], s[8..]]
  {
    assert s == Join([s[..7], s[8..]], '_');
    SplitJoin([s[..7], s[8..]], '_');
  }

  /** `bimestreToMensual` of period.ts: the two halves of a valid bimestre. */
  function BimestreToMensual(s: string): (r: Result<(string, string), PeriodError>)
    ensures r.Ok? <==> IsValidPeriodoBimestre(s)
    ensures r.Ok? ==> IsValidPeriodoMes(r.value.0) && IsValidPeriodoMes(r.value.1)
    ensures r.Ok? ==> r.value.0 + "_" + r.value.1 == s
  {
    if !IsValidPeriodoBimestre(s) then Err(InvalidBimestre)
    else
      SplitBimestre(s);
      var parts := Split(s, '_');
      assert s == s[..7] + "_" + s[8..];
      Ok((parts[0], parts[1]))
  }

  /** Two valid halves are all that is asked: a bimestre spanning January to
      May is accepted. */
  lemma NonAdjacentBimestreAccepted()
    ensures BimestreToMensual("2024-01_2024-05").Ok?
  {
    var s := "2024-01_2024-05";
    assert s[..7] == "2024-01" && s[8..] == "2024-05";
    assert YearOf("2024-01") == 2024 && MonthOf("2024-05") == 5;
  }

  /** `validarSecuenciaBimestre`: never fails; holds exactly for valid
      bimestres whose second half is the month after the first. */
  function ValidarSecuenciaBimestre(s: string): (r: bool)
    ensures r <==> IsValidPeriodoBimestre(s) && GetPeriodoSiguiente(s[..7]) == Ok(s[8..])
  {
    match BimestreToMensual(s)
    case Err(_) => false
    case Ok((mes1, mes2)) =>
      assert mes1 == s[..7] && mes2 == s[8..];
      if Ordinal(mes2) - Ordinal(mes1) == 1 then
        OrdinalInjective(GetPeriodoSiguiente(mes1).value, mes2);
        true
      else false
  }

  /** `generarPeriodoBimestre`: the bimestre starting at `mesInicio`. */
  function GenerarPeriodoBimestre(mesInicio: string): (r: Result<string, PeriodError>)
    ensures r.Ok? <==> IsValidPeriodoMes(mesInicio)
    ensures r.Ok? ==> BimestreFormat(r.value) && r.value[..7] == mesInicio
    ensures r.Ok? ==> GetPeriodoSiguiente(mesInicio) == Ok(r.value[8..])
  {
    if !IsValidPeriodoMes(mesInicio) then Err(InvalidPeriodo)
    else
      var mesFin := GetPeriodoSiguiente(mesInicio).value;
      var b := mesInicio + "_" + mesFin;
      assert b[..7] == mesInicio && b[8..] == mesFin;
      Ok(b)
  }

  /** A generated bimestre passes the sequence check whenever its second
      month is still within the supported years. */
  lemma {:induction false} GeneratedBimestreIsSequential(m: string)
    requires IsValidPeriodoMes(m)
    requires IsValidPeriodoMes(GetPeriodoSiguiente(m).value)
    ensures ValidarSecuenciaBimestre(GenerarPeriodoBimestre(m).value)
  {
  }

  // ---------------------------------------------------------------------
  // Loss percentage and classification

  /** `calcularPerdidaPorcentaje`: the loss as a percentage of the purchase,
      to two decimals; 0 when nothing was purchased. */
  function CalcularPerdidaPorcentaje(compra: real, venta: real): (r: real)
    ensures compra <= 0.0 ==> r == 0.0
    ensures compra > 0.0 ==> -0.005 <= r - (compra - venta) / compra * 100.0 <= 0.005
  {
    if compra <= 0.0 then 0.0 else Round2((compra - venta) / compra * 100.0)
  }

  /** Nothing sold is a total loss; selling at most what was bought keeps the
      percentage in [0, 100]; selling more never gives a positive loss, and a
      surplus of at least half a hundredth of a percent gives a negative one. */
  lemma {:induction false} PerdidaPorcentajeFacts(compra: real, venta: real)
    requires compra > 0.0
    ensures venta == 0.0 ==> CalcularPerdidaPorcentaje(compra, venta) == 100.0
    ensures 0.0 <= venta <= compra ==> 0.0 <= CalcularPerdidaPorcentaje(compra, venta) <= 100.0
    ensures venta > compra ==> CalcularPerdidaPorcentaje(compra, venta) <= 0.0
    ensures (venta - compra) / compra * 100.0 >= 0.005 ==> CalcularPerdidaPorcentaje(compra, venta) < 0.0
  {
    var raw := (compra - venta) / compra * 100.0;
    DivideDifference(compra, venta, compra);
    assert compra / compra == 1.0;
    assert raw == 100.0 - venta / compra * 100.0;
    if venta == 0.0 {
      assert raw == 10000 as real / 100.0;
      Round2Exact(10000);
    }
    if 0.0 <= venta <= compra {
      assert 0.0 <= venta / compra <= 1.0;
      Round2Monotone(0.0, raw);
      Round2Monotone(raw, 100.0);
      Round2Exact(0);
      Round2Exact(10000);
    }
    if venta > compra {
      assert venta / compra > 1.0;
      Round2Sign(raw);
    }
    if (venta - compra) / compra * 100.0 >= 0.005 {
      assert raw == -((venta - compra) / compra * 100.0);
      Round2Sign(raw);
    }
  }

  lemma DivideDifference(a: real, b: real, c: real)
    requires c != 0.0
    ensures (a - b) / c == a / c - b / c
  {
  }

  datatype Nivel = Normal | Moderada | Alta | Critica

  datatype Evaluacion = Evaluacion(nivel: Nivel, descripcion: string)

  /** Position of a tier on the severity scale. */
  function Severity(n: Nivel): nat {
    match n
    case Normal => 0
    case Moderada => 1
    case Alta => 2
    case Critica => 3
  }

  /** `evaluarPerdida`: the tier table; each bound belongs to the lower tier,
      and a negative loss is normal but described as a sales surplus. */
  function EvaluarPerdida(pct: real): (e: Evaluacion)
    ensures e.nivel == Normal <==> pct <= 5.0
    ensures e.nivel == Moderada <==> 5.0 < pct <= 10.0
    ensures e.nivel == Alta <==> 10.0 < pct <= 20.0
    ensures e.nivel == Critica <==> 20.0 < pct
    ensures pct < 0.0 <==> e.descripcion == "Excedente de venta (posible error de medición)"
  {
    if pct < 0.0 then Evaluacion(Normal, "Excedente de venta (posible error de medición)")
    else if pct <= 5.0 then Evaluacion(Normal, "Pérdidas técnicas normales")
    else if pct <= 10.0 then Evaluacion(Moderada, "Pérdidas moderadas - revisar red")
    else if pct <= 20.0 then Evaluacion(Alta, "Pérdidas altas - requiere investigación")
    else Evaluacion(Critica, "Pérdidas críticas - intervención urgente")
  }

  /** A larger loss never gets a milder tier. */
  lemma EvaluarPerdidaMonotone(p: real, q: real)
    requires p <= q
    ensures Severity(EvaluarPerdida(p).nivel) <= Severity(EvaluarPerdida(q).nivel)
  {
  }

  // ---------------------------------------------------------------------
  // Measurement helpers

  /** `normalizarMedicion`: clamps negatives to zero, then rounds to
      `precision` decimals (2 by default); `toFixed` throws a `RangeError`
      for a precision outside 0..100. */
  function NormalizarMedicion(valor: real, precision: int): (r: Result<real, PeriodError>)
    ensures r.Err? <==> precision < 0 || precision > 100
    ensures r.Err? ==> r.error == PrecisionOutOfRange
    ensures r.Ok? ==> r.value >= 0.0
    ensures r.Ok? ==>
      -0.5 / (Pow10(precision) as real) <= r.value - (if valor < 0.0 then 0.0 else valor) <= 0.5 / (Pow10(precision) as real)
  {
    if precision < 0 || precision > 100 then Err(PrecisionOutOfRange)
    else Ok(RoundTo(if valor < 0.0 then 0.0 else valor, precision))
  }

  const DefaultPrecision: int := 2

  /** With the default precision the value is kept to the hundredth: a
      reading already in hundredths comes back unchanged, and a negative one
      becomes 0. */
  lemma NormalizarMedicionDefault(k: nat, valor: real)
    ensures NormalizarMedicion(k as real / 100.0, DefaultPrecision) == Ok(k as real / 100.0)
    ensures valor < 0.0 ==> NormalizarMedicion(valor, DefaultPrecision) == Ok(0.0)
  {
    Round2IsRoundTo(k as real / 100.0);
    Round2Exact(k);
    Round2IsRoundTo(0.0);
    Round2Exact(0);
  }

  /** `calcularFactorCarga`: energy as a percentage of what the peak demand
      would deliver over the whole period, to two decimals; 0 without a
      positive demand and period. */
  function CalcularFactorCarga(energiaTotal: real, demandaMax: real, diasPeriodo: real): (r: real)
    ensures demandaMax <= 0.0 || diasPeriodo <= 0.0 ==> r == 0.0
    ensures demandaMax > 0.0 && diasPeriodo > 0.0 ==>
      -0.005 <= r - energiaTotal / (demandaMax * (diasPeriodo * 24.0)) * 100.0 <= 0.005
  {
    if demandaMax <= 0.0 || diasPeriodo <= 0.0 then 0.0
    else
      var horasPeriodo := diasPeriodo * 24.0;
      var energiaMaxPosible := demandaMax * horasPeriodo;
      var factor := energiaTotal / energiaMaxPosible * 100.0;
      var rounded := Round2(factor);
      assert energiaMaxPosible == demandaMax * (diasPeriodo * 24.0);
      assert -0.005 <= rounded - factor <= 0.005;
      rounded
  }
}

=== FILE: proration.dfy ===
/** Splitting a two-month (bimestral) sale across its months in proportion to
    their day counts: `prorratearVentaBimestral` of `src/utils/period.ts` and
    its copy `mensualizeVentaBimestral` in
    `src/modules/analytics/service.ts`. */
module Proration {
  import opened Wrappers
  import opened Rounding
  import Period
  import ServicePeriod

  /** One month's part of a bimestral sale. */
  datatype MonthShare = MonthShare(
    periodoMes: string,
    kwhVendidosMes: real,
    importeMes: real,
    diasMes: int,
    pctDistribucion: real)

  /** `m` carries, up to rounding to hundredths, the share of `kwh` and
      `importe` that its days make of `totalDias`, and that share as a
      percentage. */
  predicate Proportional(m: MonthShare, totalDias: int, kwh: real, importe: real)
    requires totalDias > 0
  {
    var w := m.diasMes as real / totalDias as real;
    && -0.005 <= m.kwhVendidosMes - kwh * w <= 0.005
    && -0.005 <= m.importeMes - importe * w <= 0.005
    && -0.005 <= m.pctDistribucion - w * 100.0 <= 0.005
  }

  /** The part of month `mes` (with `dias` of the `totalDias` days). */
  function Share(mes: string, dias: int, totalDias: int, kwh: real, importe: real): (m: MonthShare)
    requires 0 < dias < totalDias
    ensures m.periodoMes == mes && m.diasMes == dias
    ensures Proportional(m, totalDias, kwh, importe)
  {
    var pct := dias as real / totalDias as real;
    MonthShare(mes, Round2(kwh * pct), Round2(importe * pct), dias, Round2(pct * 100.0))
  }

  /** Day count of a month key valid for period.ts. */
  function DaysOf(m: string): (d: int)
    requires Period.IsValidPeriodoMes(m)
    ensures 28 <= d <= 31
  {
    Period.GetDaysInMonth(Period.YearOf(m), Period.MonthOf(m))
  }

  /** `prorratearVentaBimestral`: the two halves of a valid bimestre, each
      with its day count and its day-weighted share of kWh and amount. */
  function ProrratearVentaBimestral(periodoBimestre: string, kwhVendidosBim: real, importeBim: real)
    : (r: Result<seq<MonthShare>, Period.PeriodError>)
    ensures r.Ok? <==> Period.IsValidPeriodoBimestre(periodoBimestre)
    ensures r.Ok? ==> |r.value| == 2
    ensures r.Ok? ==> r.value[0].periodoMes + "_" + r.value[1].periodoMes == periodoBimestre
    ensures r.Ok? ==> forall i :: 0 <= i < 2 ==>
      && Period.IsValidPeriodoMes(r.value[i].periodoMes)
      && r.value[i].diasMes == DaysOf(r.value[i].periodoMes)
    ensures r.Ok? ==>
      var total := r.value[0].diasMes + r.value[1].diasMes;
      total > 0 && Proportional(r.value[0], total, kwhVendidosBim, importeBim)
        && Proportional(r.value[1], total, kwhVendidosBim, importeBim)
  {
    var (mes1, mes2) :- Period.BimestreToMensual(periodoBimestre);
    Ok(SplitShares(mes1, DaysOf(mes1), mes2, DaysOf(mes2), kwhVendidosBim, importeBim))
  }

  /** The two months' parts of a sale, weighted by their day counts. */
  function SplitShares(mes1: string, d1: int, mes2: string, d2: int, kwh: real, importe: real)
    : (r: seq<MonthShare>)
    requires d1 > 0 && d2 > 0
    ensures |r| == 2
    ensures r[0].periodoMes == mes1 && r[0].diasMes == d1
    ensures r[1].periodoMes == mes2 && r[1].diasMes == d2
    ensures Proportional(r[0], d1 + d2, kwh, importe) && Proportional(r[1], d1 + d2, kwh, importe)
  {
    [Share(mes1, d1, d1 + d2, kwh, importe), Share(mes2, d2, d1 + d2, kwh, importe)]
  }

  /** With a zero amount both monthly amounts are exactly zero. */
  lemma SplitSharesZeroImporte(mes1: string, d1: int, mes2: string, d2: int, kwh: real)
    requires d1 > 0 && d2 > 0
    ensures SplitShares(mes1, d1, mes2, d2, kwh, 0.0)[0].importeMes == 0.0
    ensures SplitShares(mes1, d1, mes2, d2, kwh, 0.0)[1].importeMes == 0.0
  {
    Round2Exact(0);
  }

  lemma WeightsSumToOne(d1: int, d2: int)
    requires d1 > 0 && d2 > 0
    ensures d1 as real / (d1 + d2) as real + d2 as real / (d1 + d2) as real == 1.0
  {
    var t := (d1 + d2) as real;
    assert d1 as real / t + d2 as real / t == (d1 as real + d2 as real) / t;
  }

  /** Two proportional shares of the same total add up to the whole within
      a hundredth. */
  lemma {:induction false} SharesConserve(a: MonthShare, b: MonthShare, kwh: real, importe: real)
    requires a.diasMes > 0 && b.diasMes > 0
    requires Proportional(a, a.diasMes + b.diasMes, kwh, importe)
    requires Proportional(b, a.diasMes + b.diasMes, kwh, importe)
    ensures -0.01 <= a.kwhVendidosMes + b.kwhVendidosMes - kwh <= 0.01
    ensures -0.01 <= a.importeMes + b.importeMes - importe <= 0.01
    ensures -0.01 <= a.pctDistribucion + b.pctDistribucion - 100.0 <= 0.01
  {
    var t := (a.diasMes + b.diasMes) as real;
    var w1, w2 := a.diasMes as real / t, b.diasMes as real / t;
    WeightsSumToOne(a.diasMes, b.diasMes);
    assert kwh * w1 + kwh * w2 == kwh * (w1 + w2);
    assert importe * w1 + importe * w2 == importe * (w1 + w2);
  }

  /** Nothing is lost or created beyond rounding: the two kWh shares add up
      to the bimestral kWh within a hundredth, and so do the amounts, and the
      two percentages add up to 100 within a hundredth. */
  lemma {:induction false} ProrrateoConserves(periodoBimestre: string, kwh: real, importe: real)
    requires Period.IsValidPeriodoBimestre(periodoBimestre)
    ensures var r := ProrratearVentaBimestral(periodoBimestre, kwh, importe).value;
      && -0.01 <= r[0].kwhVendidosMes + r[1].kwhVendidosMes - kwh <= 0.01
      && -0.01 <= r[0].importeMes + r[1].importeMes - importe <= 0.01
      && -0.01 <= r[0].pctDistribucion + r[1].pctDistribucion - 100.0 <= 0.01
  {
    var r := ProrratearVentaBimestral(periodoBimestre, kwh, importe).value;
    SharesConserve(r[0], r[1], kwh, importe);
  }

  /** January and February 2024 (a leap year) split 600 kWh as 310 and 290,
      that is 51.67% and 48.33%. */
  lemma ProrrateoExample()
    ensures var r := ProrratearVentaBimestral("2024-01_2024-02", 600.0, 0.0);
      && r.Ok?
      && r.value[0].periodoMes == "2024-01" && r.value[1].periodoMes == "2024-02"
      && r.value[0].diasMes == 31 && r.value[1].diasMes == 29
      && r.value[0].kwhVendidosMes == 310.0 && r.value[1].kwhVendidosMes == 290.0
      && r.value[0].pctDistribucion == 51.67 && r.value[1].pctDistribucion == 48.33
  {
    ExampleHalves();
    ExampleDays();
    ExampleShares();
  }

  lemma ExampleHalves()
    ensures Period.BimestreToMensual("2024-01_2024-02") == Ok(("2024-01", "2024-02"))
  {
    var s := "2024-01_2024-02";
    assert s[..7] == "2024-01" && s[8..] == "2024-02";
    assert Period.YearOf("2024-01") == 2024 && Period.MonthOf("2024-01") == 1;
    assert Period.YearOf("2024-02") == 2024 && Period.MonthOf("2024-02") == 2;
  }

  lemma ExampleDays()
    ensures Period.IsValidPeriodoMes("2024-01") && Period.IsValidPeriodoMes("2024-02")
    ensures DaysOf("2024-01") == 31 && DaysOf("2024-02") == 29
  {
    assert Period.YearOf("2024-01") == 2024 && Period.MonthOf("2024-01") == 1;
    assert Period.YearOf("2024-02") == 2024 && Period.MonthOf("2024-02") == 2;
  }

  lemma ExampleShares()
    ensures Share("2024-01", 31, 60, 600.0, 0.0).kwhVendidosMes == 310.0
    ensures Share("2024-02", 29, 60, 600.0, 0.0).kwhVendidosMes == 290.0
    ensures Share("2024-01", 31, 60, 600.0, 0.0).pctDistribucion == 51.67
    ensures Share("2024-02", 29, 60, 600.0, 0.0).pctDistribucion == 48.33
  {
    assert 600.0 * (31 as real / 60 as real) == 31000 as real / 100.0;
    assert 600.0 * (29 as real / 60 as real) == 29000 as real / 100.0;
    Round2Exact(31000);
    Round2Exact(29000);
    assert (31 as real / 60 as real * 100.0 * 100.0 + 0.5).Floor == 5167;
    assert (29 as real / 60 as real * 100.0 * 100.0 + 0.5).Floor == 4833;
  }

  // ---------------------------------------------------------------------
  // The service.ts copy

  /** The request of `mensualizeVentaBimestral`; the amount is optional. */
  datatype MensualizeRequest = MensualizeRequest(
    periodoBimestre: string,
    kwhVendidosBim: real,
    importeBim: Option<real>)

  /** `mensualizeVentaBimestral` of service.ts: the same split computed with
      that file's own helpers, a missing amount taken as 0. */
  function MensualizeVentaBimestral(req: MensualizeRequest)
    : (r: Result<seq<MonthShare>, ServicePeriod.BimestreError>)
    ensures r.Ok? ==> |r.value| == 2
    ensures r.Ok? ==> r.value[0].periodoMes + "_" + r.value[1].periodoMes == req.periodoBimestre
  {
    var importeBim := req.importeBim.GetOr(0.0);
    var (mes1, mes2) :- ServicePeriod.BimestreToMensual(req.periodoBimestre);
    Ok(SplitShares(mes1, ServicePeriod.MonthDays(mes1), mes2, ServicePeriod.MonthDays(mes2),
      req.kwhVendidosBim, importeBim))
  }

  /** The service.ts copy accepts the same bimestres as period.ts and
      produces the same two shares, with a missing amount read as 0. */
  lemma {:induction false} MensualizeAgrees(req: MensualizeRequest)
    ensures MensualizeVentaBimestral(req).Ok?
        <==> ProrratearVentaBimestral(req.periodoBimestre, req.kwhVendidosBim, req.importeBim.GetOr(0.0)).Ok?
    ensures MensualizeVentaBimestral(req).Ok? ==>
      MensualizeVentaBimestral(req).value
        == ProrratearVentaBimestral(req.periodoBimestre, req.kwhVendidosBim, req.importeBim.GetOr(0.0)).value
  {
    ServicePeriod.BimestreToMensualAgree(req.periodoBimestre);
    if ServicePeriod.BimestreToMensual(req.periodoBimestre).Ok? {
      MensualizeShares(req);
    }
  }

  lemma {:induction false} MensualizeShares(req: MensualizeRequest)
    requires ServicePeriod.BimestreToMensual(req.periodoBimestre).Ok?
    ensures var halves := ServicePeriod.BimestreToMensual(req.periodoBimestre).value;
      && Period.IsValidPeriodoMes(halves.0) && Period.IsValidPeriodoMes(halves.1)
      && MensualizeVentaBimestral(req) == Ok(SplitShares(halves.0, DaysOf(halves.0), halves.1, DaysOf(halves.1),
           req.kwhVendidosBim, req.importeBim.GetOr(0.0)))
  {
    var halves := ServicePeriod.BimestreToMensual(req.periodoBimestre).value;
    ServicePeriod.MonthDaysAgree(halves.0);
    ServicePeriod.MonthDaysAgree(halves.1);
  }

  /** Without an amount, both monthly amounts are 0. */
  lemma {:induction false} MensualizeWithoutImporte(periodoBimestre: string, kwh: real)
    requires MensualizeVentaBimestral(MensualizeRequest(periodoBimestre, kwh, None)).Ok?
    ensures var r := MensualizeVentaBimestral(MensualizeRequest(periodoBimestre, kwh, None)).value;
      r[0].importeMes == 0.0 && r[1].importeMes == 0.0
  {
    var halves := ServicePeriod.BimestreToMensual(periodoBimestre).value;
    SplitSharesZeroImporte(halves.0, ServicePeriod.MonthDays(halves.0), halves.1, ServicePeriod.MonthDays(halves.1), kwh);
  }
}

=== FILE: ratelimit.dfy ===
/** The fixed-window rate limiter of `src/middlewares/rateLimit.ts`. Both
    middlewares share one in-memory store from a client key to its request
    count and the end of its window; each request is a transition of that
    store, with the clock reading `now` (milliseconds) and the configured
    window and limit as inputs. A refusal is the status 429 of section 4 of
    RFC 6585. */
module RateLimit {
  import opened Wrappers
  import opened Strings

  /** A store entry: requests counted in the window, and when it ends. */
  datatype Entry = Entry(count: nat, resetTime: int)

  type Store = map<string, Entry>

  /** `config.security.rateLimitWindow` and `rateLimitMax`. */
  datatype Config = Config(windowMs: int, maxRequests: int)

  /** The three `X-RateLimit-*` headers. */
  datatype Headers = Headers(limit: int, remaining: int, reset: int)

  /** The body of a 429 reply, without its request id. */
  datatype TooMany = TooMany(status: nat, message: string, retryAfter: int)

  /** What one request does: the new store, the headers set (none when the
      middleware does nothing), and the refusal if any. */
  datatype Decision = Decision(store: Store, headers: Option<Headers>, refusal: Option<TooMany>)

  const TooManyRequests: nat := 429

  /** `Math.ceil(x / 1000)` on a whole number of milliseconds. */
  function CeilSeconds(x: int): (s: int)
    ensures 1000 * (s - 1) < x <= 1000 * s
  {
    -((-x) / 1000)
  }

  function Max0(x: int): (m: int)
    ensures m >= 0 && m >= x && (m == 0 || m == x)
  {
    if x < 0 then 0 else x
  }

  /** The window of an entry is over once `now` is past its reset time. */
  predicate Expired(e: Entry, now: int) {
    now > e.resetTime
  }

  /** The purge loop: every entry whose key is in `scope` and whose window is
      over is deleted; nothing else changes. */
  function Purge(store: Store, now: int, scope: string -> bool): (r: Store)
    ensures forall k :: k in r <==> k in store && !(scope(k) && Expired(store[k], now))
    ensures forall k :: k in r ==> r[k] == store[k]
  {
    map k | k in store && !(scope(k) && Expired(store[k], now)) :: store[k]
  }

  function AnyKey(k: string): bool {
    true
  }

  function ApiKeyScope(k: string): bool {
    StartsWith(k, "api:")
  }

  /** Get or create the entry of `key`, then count the request. */
  function Count(store: Store, key: string, now: int, windowMs: int): (r: Store)
    ensures key in r
    ensures key !in store || Expired(store[key], now) ==> r[key] == Entry(1, now + windowMs)
    ensures key in store && !Expired(store[key], now) ==>
      r[key] == Entry(store[key].count + 1, store[key].resetTime)
    ensures forall k :: k != key ==> (k in r <==> k in store) && (k in r ==> r[k] == store[k])
  {
    var entry := if key !in store || Expired(store[key], now) then Entry(0, now + windowMs) else store[key];
    store[key := entry.(count := entry.count + 1)]
  }

  /** Purge, count, set the headers and refuse past the limit. */
  function Limit(store: Store, key: string, now: int, windowMs: int, maxRequests: int, message: string, scope: string -> bool)
    : Decision
  {
    var counted := Count(Purge(store, now, scope), key, now, windowMs);
    var entry := counted[key];
    var headers := Headers(maxRequests, Max0(maxRequests - entry.count), CeilSeconds(entry.resetTime));
    var refusal :=
      if entry.count > maxRequests then Some(TooMany(TooManyRequests, message, CeilSeconds(entry.resetTime - now)))
      else None;
    Decision(counted, Some(headers), refusal)
  }

  /** `rateLimitMiddleware` for a request from `clientIP`. */
  function RateLimitMiddleware(store: Store, clientIP: string, now: int, config: Config): (d: Decision)
    ensures clientIP in d.store && d.headers.Some?
    ensures var e := d.store[clientIP];
      && (clientIP !in store || Expired(store[clientIP], now) ==> e == Entry(1, now + config.windowMs))
      && (clientIP in store && !Expired(store[clientIP], now) ==>
            e == Entry(store[clientIP].count + 1, store[clientIP].resetTime))
      && d.headers.value == Headers(config.maxRequests, Max0(config.maxRequests - e.count), CeilSeconds(e.resetTime))
      && (d.refusal.Some? <==> e.count > config.maxRequests)
      && (d.refusal.Some? ==>
            d.refusal.value == TooMany(TooManyRequests, "Too Many Requests", CeilSeconds(e.resetTime - now)))
    ensures forall k :: k != clientIP ==>
      && (k in d.store <==> k in store && !Expired(store[k], now))
      && (k in d.store ==> d.store[k] == store[k])
  {
    Limit(store, clientIP, now, config.windowMs, config.maxRequests, "Too Many Requests", AnyKey)
  }

  /** `apiKeyRateLimitMiddleware`; `apiKeyId` is the key's id as text, and
      absent when the request carries no API key. */
  function ApiKeyRateLimitMiddleware(store: Store, apiKeyId: Option<string>, now: int, config: Config): (d: Decision)
    ensures apiKeyId.None? ==> d == Decision(store, None, None)
    ensures apiKeyId.Some? ==>
      var key := "api:" + apiKeyId.value;
      && key in d.store && d.headers.Some?
      && (key !in store || Expired(store[key], now) ==> d.store[key] == Entry(1, now + config.windowMs))
      && (key in store && !Expired(store[key], now) ==>
            d.store[key] == Entry(store[key].count + 1, store[key].resetTime))
      && d.headers.value == Headers(5 * config.maxRequests, Max0(5 * config.maxRequests - d.store[key].count),
           CeilSeconds(d.store[key].resetTime))
      && (d.refusal.Some? <==> d.store[key].count > 5 * config.maxRequests)
      && (d.refusal.Some? ==>
            d.refusal.value == TooMany(TooManyRequests, "API Key Rate Limit Exceeded", CeilSeconds(d.store[key].resetTime - now)))
    ensures apiKeyId.Some? ==> forall k :: k != "api:" + apiKeyId.value ==>
      && (k in d.store <==> k in store && !(StartsWith(k, "api:") && Expired(store[k], now)))
      && (k in d.store ==> d.store[k] == store[k])
  {
    match apiKeyId
    case None => Decision(store, None, None)
    case Some(id) =>
      Limit(store, "api:" + id, now, config.windowMs, 5 * config.maxRequests, "API Key Rate Limit Exceeded", ApiKeyScope)
  }

  /** The API-key purge leaves every key outside the `api:` space alone,
      expired or not. */
  lemma ApiKeyPurgeScope(store: Store, id: string, now: int, config: Config, k: string)
    requires !StartsWith(k, "api:")
    ensures var d := ApiKeyRateLimitMiddleware(store, Some(id), now, config);
      (k in d.store <==> k in store) && (k in d.store ==> d.store[k] == store[k])
  {
    assert StartsWith("api:" + id, "api:");
  }

  /** After either middleware no entry it purged is still past its window,
      and unexpired entries are untouched. */
  lemma NoExpiredAfterPurge(store: Store, clientIP: string, now: int, config: Config)
    ensures var d := RateLimitMiddleware(store, clientIP, now, config);
      forall k :: k in d.store ==> !Expired(d.store[k], now) || (k == clientIP && config.windowMs < 0)
  {
  }

  // ---------------------------------------------------------------------
  // Several requests

  /** The refusals of requests from one client at times `times`, in order. */
  function Run(store: Store, clientIP: string, times: seq<int>, config: Config): (r: (Store, seq<bool>))
    ensures |r.1| == |times|
  {
    if |times| == 0 then (store, [])
    else
      var prev := Run(store, clientIP, times[..|times| - 1], config);
      var d := RateLimitMiddleware(prev.0, clientIP, times[|times| - 1], config);
      (d.store, prev.1 + [d.refusal.Some?])
  }

  /** A client without an entry that sends requests within one window from
      its first: the i-th request is request number i + 1 of the window, and
      it is refused exactly when that number exceeds the limit. */
  lemma {:induction false} WindowCounts(store: Store, clientIP: string, times: seq<int>, config: Config)
    requires clientIP !in store
    requires |times| > 0 && config.windowMs >= 0
    requires forall i :: 0 <= i < |times| ==> times[i] <= times[0] + config.windowMs
    ensures var r := Run(store, clientIP, times, config);
      && clientIP in r.0 && r.0[clientIP] == Entry(|times|, times[0] + config.windowMs)
      && forall i :: 0 <= i < |times| ==> (r.1[i] <==> i + 1 > config.maxRequests)
  {
    if |times| > 1 {
      var p := times[..|times| - 1];
      WindowCounts(store, clientIP, p, config);
      var prev := Run(store, clientIP, p, config);
      assert forall i :: 0 <= i < |p| ==> prev.1[i] == Run(store, clientIP, times, config).1[i];
    }
  }

  /** Within one window at most `maxRequests` requests of a client get
      through. */
  lemma WindowAdmitsAtMostMax(store: Store, clientIP: string, times: seq<int>, config: Config)
    requires clientIP !in store
    requires |times| > 0 && config.windowMs >= 0
    requires forall i :: 0 <= i < |times| ==> times[i] <= times[0] + config.windowMs
    ensures forall i :: 0 <= i < |times| && !Run(store, clientIP, times, config).1[i] ==> i < config.maxRequests
  {
    WindowCounts(store, clientIP, times, config);
  }
}

=== FILE: reports.dfy ===
/** The reports of `src/modules/analytics/service.ts` built on the general
    balance of one month: `getResumenPeriodo`, `getTopPerdidas`,
    `generarAlertas` and `getAnalisisPerdida`. Each takes the rows
    `getBalanceGeneral` returns for the month; the boca names and the
    customer counts the database supplies are inputs. */
module Reports {
  import opened Wrappers
  import opened Sorting
  import opened Sums
  import opened Rounding
  import opened Balance
  import opened General
  import Period

  // ---------------------------------------------------------------------
  // Summary of a month

  /** A `ResumenPeriodo`. */
  datatype ResumenPeriodo = ResumenPeriodo(
    periodoMes: string,
    totalBocas: nat,
    totalKwhComprados: real,
    totalKwhVendidos: real,
    totalImporteComprado: real,
    totalImporteVendido: real,
    perdidaTotalKwh: real,
    perdidaTotalPorcentaje: real,
    bocasConPerdidaNormal: nat,
    bocasConPerdidaModerada: nat,
    bocasConPerdidaAlta: nat,
    bocasConPerdidaCritica: nat)

  /** `b.nivelPerdida === n`, the filter of a tier count. */
  function HasNivel(n: Period.Nivel): BalanceGeneral -> bool {
    (b: BalanceGeneral) => b.nivelPerdida == n
  }

  /** `getResumenPeriodo` over the month's rows: plain sums, tier counts, and
      the percentage of the summed kWh (not an average of row percentages). */
  function GetResumenPeriodo(periodoMes: string, balances: seq<BalanceGeneral>): (r: ResumenPeriodo)
    ensures r.periodoMes == periodoMes && r.totalBocas == |balances|
    ensures r.totalKwhComprados == SumBy(balances, Comprados) && r.totalKwhVendidos == SumBy(balances, Vendidos)
    ensures r.totalImporteComprado == SumBy(balances, ImporteComprado)
    ensures r.totalImporteVendido == SumBy(balances, ImporteVendido)
    ensures r.perdidaTotalKwh == SumBy(balances, PerdidaKwh)
    ensures r.bocasConPerdidaNormal == CountBy(balances, HasNivel(Period.Normal))
    ensures r.bocasConPerdidaModerada == CountBy(balances, HasNivel(Period.Moderada))
    ensures r.bocasConPerdidaAlta == CountBy(balances, HasNivel(Period.Alta))
    ensures r.bocasConPerdidaCritica == CountBy(balances, HasNivel(Period.Critica))
    ensures r.bocasConPerdidaNormal + r.bocasConPerdidaModerada + r.bocasConPerdidaAlta
      + r.bocasConPerdidaCritica == r.totalBocas
    ensures r.totalKwhComprados <= 0.0 ==> r.perdidaTotalPorcentaje == 0.0
    ensures r.totalKwhComprados > 0.0 ==>
      (-0.005 <= r.perdidaTotalPorcentaje
        - (r.totalKwhComprados - r.totalKwhVendidos) / r.totalKwhComprados * 100.0 <= 0.005)
  {
    var totalKwhComprados := SumBy(balances, Comprados);
    var totalKwhVendidos := SumBy(balances, Vendidos);
    CountTiers(balances);
    ResumenPeriodo(
      periodoMes,
      |balances|,
      totalKwhComprados,
      totalKwhVendidos,
      SumBy(balances, ImporteComprado),
      SumBy(balances, ImporteVendido),
      SumBy(balances, PerdidaKwh),
      Period.CalcularPerdidaPorcentaje(totalKwhComprados, totalKwhVendidos),
      CountBy(balances, HasNivel(Period.Normal)),
      CountBy(balances, HasNivel(Period.Moderada)),
      CountBy(balances, HasNivel(Period.Alta)),
      CountBy(balances, HasNivel(Period.Critica)))
  }

  /** Every row is in exactly one tier, so the four counts partition the rows. */
  lemma {:induction false} CountTiers(s: seq<BalanceGeneral>)
    ensures CountBy(s, HasNivel(Period.Normal)) + CountBy(s, HasNivel(Period.Moderada))
      + CountBy(s, HasNivel(Period.Alta)) + CountBy(s, HasNivel(Period.Critica)) == |s|
  {
    if |s| > 0 {
      CountTiers(s[..|s| - 1]);
    }
  }

  /** The summary of a general balance built from distinct-key purchases and
      sales: its totals are the purchase and sale totals, and its total loss
      is within half a hundredth per row of bought minus sold. */
  lemma {:induction false} ResumenTotals(periodoMes: string, cs: seq<Compra>, vs: seq<Venta>)
    requires DistinctKeys(cs, CKey)
    requires DistinctKeys(vs, VKey)
    ensures var r := GetResumenPeriodo(periodoMes, GetBalanceGeneral(cs, vs));
      && r.totalKwhComprados == SumBy(cs, KwhOfCompra)
      && r.totalKwhVendidos == SumBy(vs, KwhOfVenta)
      && r.totalImporteComprado == SumBy(cs, ImporteOfCompra)
      && r.totalImporteVendido == SumBy(vs, ImporteOfVenta)
      && -0.005 * r.totalBocas as real <= r.perdidaTotalKwh - (r.totalKwhComprados - r.totalKwhVendidos)
      && r.perdidaTotalKwh - (r.totalKwhComprados - r.totalKwhVendidos) <= 0.005 * r.totalBocas as real
  {
    ResumenSums(periodoMes, cs, vs);
    ResumenLoss(periodoMes, cs, vs);
  }

  lemma ResumenSums(periodoMes: string, cs: seq<Compra>, vs: seq<Venta>)
    requires DistinctKeys(cs, CKey)
    requires DistinctKeys(vs, VKey)
    ensures var r := GetResumenPeriodo(periodoMes, GetBalanceGeneral(cs, vs));
      && r.totalKwhComprados == SumBy(cs, KwhOfCompra)
      && r.totalKwhVendidos == SumBy(vs, KwhOfVenta)
      && r.totalImporteComprado == SumBy(cs, ImporteOfCompra)
      && r.totalImporteVendido == SumBy(vs, ImporteOfVenta)
  {
    BalanceGeneralTotals(cs, vs);
  }

  lemma ResumenLoss(periodoMes: string, cs: seq<Compra>, vs: seq<Venta>)
    ensures var r := GetResumenPeriodo(periodoMes, GetBalanceGeneral(cs, vs));
      && -0.005 * r.totalBocas as real <= r.perdidaTotalKwh - (r.totalKwhComprados - r.totalKwhVendidos)
      && r.perdidaTotalKwh - (r.totalKwhComprados - r.totalKwhVendidos) <= 0.005 * r.totalBocas as real
  {
    GeneralLossRounded(cs, vs);
    PerdidaTotalNear(GetBalanceGeneral(cs, vs));
  }

  /** A reconciled row's kWh loss is the rounded difference of its kWh. */
  lemma ExpectedLossRounded(cs: seq<Compra>, vs: seq<Venta>, b: BalanceGeneral)
    requires IsExpectedRow(cs, vs, b)
    ensures b.perdidaKwh == Round2(b.kwhCompradosMes - b.kwhVendidosMes)
  {
  }

  lemma RowsLossRounded(cs: seq<Compra>, vs: seq<Venta>, g: seq<BalanceGeneral>)
    requires forall i :: 0 <= i < |g| ==> IsExpectedRow(cs, vs, g[i])
    ensures forall i :: 0 <= i < |g| ==> g[i].perdidaKwh == Round2(g[i].kwhCompradosMes - g[i].kwhVendidosMes)
  {
    forall i | 0 <= i < |g|
      ensures g[i].perdidaKwh == Round2(g[i].kwhCompradosMes - g[i].kwhVendidosMes)
    {
      ExpectedLossRounded(cs, vs, g[i]);
    }
  }

  /** Every row of the general balance carries the rounded difference of its
      kWh as its kWh loss. */
  lemma GeneralLossRounded(cs: seq<Compra>, vs: seq<Venta>)
    ensures var g := GetBalanceGeneral(cs, vs);
      forall i :: 0 <= i < |g| ==> g[i].perdidaKwh == Round2(g[i].kwhCompradosMes - g[i].kwhVendidosMes)
  {
    BalanceGeneralSpec(cs, vs);
    RowsLossRounded(cs, vs, GetBalanceGeneral(cs, vs));
  }

  // ---------------------------------------------------------------------
  // Top losses

  /** A `cat_bocas_compra` row: a boca and its name. */
  datatype BocaInfo = BocaInfo(idBoca: string, nombreBoca: string)

  /** `new Map(bocasInfo.map(b => [b.id_boca, b.nombre_boca]))`: a later
      entry for the same boca replaces an earlier one. */
  function BocasMap(infos: seq<BocaInfo>): (names: map<string, string>)
    ensures forall id :: id in names <==> exists i :: 0 <= i < |infos| && infos[i].idBoca == id
  {
    if |infos| == 0 then map[]
    else
      var p := infos[..|infos| - 1];
      assert forall i :: 0 <= i < |p| ==> p[i] == infos[i];
      BocasMap(p)[infos[|infos| - 1].idBoca := infos[|infos| - 1].nombreBoca]
  }

  /** The name a boca gets is that of its last entry. */
  lemma {:induction false} BocasMapLast(infos: seq<BocaInfo>, i: nat)
    requires i < |infos|
    requires forall j :: i < j < |infos| ==> infos[j].idBoca != infos[i].idBoca
    ensures BocasMap(infos)[infos[i].idBoca] == infos[i].nombreBoca
  {
    if i < |infos| - 1 {
      var p := infos[..|infos| - 1];
      assert p[i] == infos[i];
      BocasMapLast(p, i);
    }
  }

  /** A `TopPerdida`; `nombreBoca` is absent for a boca without a name. */
  datatype TopPerdida = TopPerdida(
    ranking: nat,
    idBoca: string,
    nombreBoca: Option<string>,
    periodoMes: string,
    kwhCompradosMes: real,
    kwhVendidosMes: real,
    perdidaKwh: real,
    perdidaPorcentaje: real,
    nivelPerdida: Period.Nivel)

  /** The comparator `b.perdidaPorcentaje - a.perdidaPorcentaje`, at most 0:
      `a` may come first when its loss is at least `b`'s. */
  predicate PctGe(a: BalanceGeneral, b: BalanceGeneral) {
    b.perdidaPorcentaje - a.perdidaPorcentaje <= 0.0
  }

  /** End index of `slice(0, limite)` on `n` elements: a negative end counts
      from the back, and the end is clamped to [0, n]. */
  function SliceEnd(n: nat, limite: int): (e: nat)
    ensures e <= n
    ensures 0 <= limite ==> e == if limite < n then limite else n
    ensures limite < 0 ==> e == if n + limite < 0 then 0 else n + limite
  {
    if limite < 0 then (if n + limite < 0 then 0 else n + limite)
    else if limite < n then limite else n
  }

  /** The rows `getTopPerdidas` keeps, in its order. */
  function TopRows(balances: seq<BalanceGeneral>, limite: int): (top: seq<BalanceGeneral>)
    ensures |top| == SliceEnd(|balances|, limite)
  {
    Sort(balances, PctGe)[..SliceEnd(|balances|, limite)]
  }

  /** `t` shows row `b`: the boca, the month, the kWh figures and the loss. */
  predicate Shows(t: TopPerdida, b: BalanceGeneral) {
    && t.idBoca == b.idBoca && t.periodoMes == b.periodoMes
    && t.kwhCompradosMes == b.kwhCompradosMes && t.kwhVendidosMes == b.kwhVendidosMes
    && t.perdidaKwh == b.perdidaKwh && t.perdidaPorcentaje == b.perdidaPorcentaje
    && t.nivelPerdida == b.nivelPerdida
  }

  function ToTopPerdida(ranking: nat, b: BalanceGeneral, names: map<string, string>): TopPerdida {
    TopPerdida(ranking, b.idBoca, if b.idBoca in names then Some(names[b.idBoca]) else None,
      b.periodoMes, b.kwhCompradosMes, b.kwhVendidosMes, b.perdidaKwh, b.perdidaPorcentaje, b.nivelPerdida)
  }

  /** `getTopPerdidas` after the two queries: ranked from 1, the name looked
      up by boca. */
  function GetTopPerdidas(balances: seq<BalanceGeneral>, infos: seq<BocaInfo>, limite: int): (r: seq<TopPerdida>)
    ensures |r| == SliceEnd(|balances|, limite)
    ensures 1 <= limite ==> |r| == if limite < |balances| then limite else |balances|
    ensures forall i :: 0 <= i < |r| ==> r[i].ranking == i + 1
    ensures forall i :: 0 <= i < |r| ==>
      (r[i].nombreBoca.Some? <==> exists j :: 0 <= j < |infos| && infos[j].idBoca == r[i].idBoca)
    ensures forall i :: 0 <= i < |r| ==> Shows(r[i], TopRows(balances, limite)[i])
    ensures forall i, j :: 0 <= i < j < |r| ==> r[i].perdidaPorcentaje >= r[j].perdidaPorcentaje
    ensures forall i, x :: 0 <= i < |r| && x in multiset(balances) - multiset(TopRows(balances, limite)) ==>
      x.perdidaPorcentaje <= r[i].perdidaPorcentaje
  {
    var top := TopRows(balances, limite);
    var names := BocasMap(infos);
    TopRowsOrdered(balances, limite);
    TopRowsAreTop(balances, limite);
    seq(|top|, i requires 0 <= i < |top| => ToTopPerdida(i + 1, top[i], names))
  }

  lemma PctGeTotalPreorder()
    ensures TotalPreorder(PctGe)
  {
  }

  /** The kept rows are in non-increasing loss. */
  lemma {:induction false} TopRowsOrdered(balances: seq<BalanceGeneral>, limite: int)
    ensures var top := TopRows(balances, limite);
      forall i, j :: 0 <= i < j < |top| ==> top[i].perdidaPorcentaje >= top[j].perdidaPorcentaje
  {
    PctGeTotalPreorder();
    SortStable(balances, PctGe, AnyOrder);
  }

  function AnyOrder(a: BalanceGeneral, b: BalanceGeneral): bool {
    true
  }

  /** The kept rows are rows of the input, and no row left out has a larger
      loss than a kept one. */
  lemma {:induction false} TopRowsAreTop(balances: seq<BalanceGeneral>, limite: int)
    ensures var top := TopRows(balances, limite);
      && multiset(top) <= multiset(balances)
      && (forall i, x :: 0 <= i < |top| && x in multiset(balances) - multiset(top) ==>
            x.perdidaPorcentaje <= top[i].perdidaPorcentaje)
  {
    var s := Sort(balances, PctGe);
    var n := SliceEnd(|balances|, limite);
    var top := s[..n];
    PctGeTotalPreorder();
    SortStable(balances, PctGe, AnyOrder);
    StablySortedIsSorted(s, PctGe, AnyOrder);
    SortedSplit(s, PctGe, n);
    assert forall i :: 0 <= i < |top| ==> top[i] == s[i];
  }

  /** When the input is in key order (as `getBalanceGeneral` returns it),
      kept rows of equal loss stay in key order: the sort is stable. */
  lemma {:induction false} TopRowsTies(balances: seq<BalanceGeneral>, limite: int)
    requires SortedBy(balances, BalanceLe)
    ensures var top := TopRows(balances, limite);
      forall i, j :: 0 <= i < j < |top| && top[i].perdidaPorcentaje == top[j].perdidaPorcentaje ==>
        KeyLe(BKey(top[i]), BKey(top[j]))
  {
    PctGeTotalPreorder();
    SortStable(balances, PctGe, BalanceLe);
  }

  // ---------------------------------------------------------------------
  // Alerts

  datatype TipoAlerta = PerdidaAlta | PerdidaCritica | AumentoSubito | PerdidaNegativa

  datatype Prioridad = Baja | Media | Alta | Critica

  datatype EstadoAlerta = Pendiente | Revisando | Resuelto | Descartado

  /** An `AlertaPerdida`, without its message text and creation time. */
  datatype Alerta = Alerta(
    id: string,
    idBoca: string,
    periodoMes: string,
    tipoAlerta: TipoAlerta,
    perdidaActual: real,
    prioridad: Prioridad,
    estado: EstadoAlerta)

  /** `alerta_${idBoca}_${periodoMes}_${sufijo}`. */
  function AlertId(idBoca: string, periodoMes: string, sufijo: string): string {
    "alerta_" + idBoca + "_" + periodoMes + "_" + sufijo
  }

  /** The id suffix of each alert kind the service raises. */
  function Sufijo(t: TipoAlerta): string {
    match t
    case PerdidaCritica => "critica"
    case PerdidaAlta => "alta"
    case PerdidaNegativa => "negativa"
    case AumentoSubito => "aumento_subito"
  }

  function NuevaAlerta(b: BalanceGeneral, periodoMes: string, t: TipoAlerta, prioridad: Prioridad): Alerta {
    Alerta(AlertId(b.idBoca, periodoMes, Sufijo(t)), b.idBoca, b.periodoMes, t, b.perdidaPorcentaje,
      prioridad, Pendiente)
  }

  /** The alerts of one row, in the order the checks run. */
  function AlertasDe(periodoMes: string, b: BalanceGeneral): (r: seq<Alerta>)
    ensures (exists a :: a in r && a.tipoAlerta == PerdidaCritica) <==> b.nivelPerdida == Period.Critica
    ensures (exists a :: a in r && a.tipoAlerta == PerdidaAlta) <==> b.nivelPerdida == Period.Alta
    ensures (exists a :: a in r && a.tipoAlerta == PerdidaNegativa) <==> b.perdidaPorcentaje < -5.0
    ensures forall a :: a in r ==>
      (&& a.tipoAlerta != AumentoSubito && a.idBoca == b.idBoca
       && a.estado == Pendiente && a.id == AlertId(b.idBoca, periodoMes, Sufijo(a.tipoAlerta)))
    ensures forall a :: a in r ==>
      (&& a.periodoMes == b.periodoMes && a.perdidaActual == b.perdidaPorcentaje
       && (a.tipoAlerta == PerdidaCritica ==> a.prioridad == Critica)
       && (a.tipoAlerta == PerdidaAlta ==> a.prioridad == Alta)
       && (a.tipoAlerta == PerdidaNegativa ==> a.prioridad == Media))
  {
    (if b.nivelPerdida == Period.Critica then [NuevaAlerta(b, periodoMes, PerdidaCritica, Critica)] else [])
    + (if b.nivelPerdida == Period.Alta then [NuevaAlerta(b, periodoMes, PerdidaAlta, Alta)] else [])
    + (if b.perdidaPorcentaje < -5.0 then [NuevaAlerta(b, periodoMes, PerdidaNegativa, Media)] else [])
  }

  /** `generarAlertas` over the month's rows, in row order. */
  function GenerarAlertas(periodoMes: string, balances: seq<BalanceGeneral>): seq<Alerta> {
    if |balances| == 0 then []
    else GenerarAlertas(periodoMes, balances[..|balances| - 1]) + AlertasDe(periodoMes, balances[|balances| - 1])
  }

  /** A row whose tier is the one its percentage gets, as every row of the
      general balance is. */
  predicate Consistent(b: BalanceGeneral) {
    b.nivelPerdida == Period.EvaluarPerdida(b.perdidaPorcentaje).nivel
  }

  /** On a consistent row the three checks exclude each other: at most one
      alert per row, and a critical or high loss never also raises the
      negative-loss alert. */
  lemma AlertasExclusive(periodoMes: string, b: BalanceGeneral)
    requires Consistent(b)
    ensures |AlertasDe(periodoMes, b)| <= 1
  {
  }

  function IsCriticaRow(b: BalanceGeneral): bool {
    b.nivelPerdida == Period.Critica
  }

  function IsAltaRow(b: BalanceGeneral): bool {
    b.nivelPerdida == Period.Alta
  }

  function IsNegativaRow(b: BalanceGeneral): bool {
    b.perdidaPorcentaje < -5.0
  }

  lemma AlertasDeCount(periodoMes: string, b: BalanceGeneral)
    ensures |AlertasDe(periodoMes, b)|
      == (if IsCriticaRow(b) then 1 else 0) + (if IsAltaRow(b) then 1 else 0) + (if IsNegativaRow(b) then 1 else 0)
  {
  }

  /** One alert per critical row, one per high row, one per row below -5 %. */
  lemma {:induction false} GenerarAlertasCount(periodoMes: string, balances: seq<BalanceGeneral>)
    ensures |GenerarAlertas(periodoMes, balances)|
      == CountBy(balances, IsCriticaRow) + CountBy(balances, IsAltaRow) + CountBy(balances, IsNegativaRow)
  {
    if |balances| > 0 {
      GenerarAlertasCount(periodoMes, balances[..|balances| - 1]);
      AlertasDeCount(periodoMes, balances[|balances| - 1]);
    }
  }

  /** `a` is in the list `f` gives for one of the elements of `s`. */
  predicate InSome<T, U(==)>(s: seq<T>, f: T -> seq<U>, a: U) {
    exists i :: 0 <= i < |s| && a in f(s[i])
  }

  /** Membership in the lists of a sequence splits at its last element. */
  lemma InSomeStep<T, U>(s: seq<T>, f: T -> seq<U>, a: U)
    requires |s| > 0
    ensures InSome(s, f, a) <==> InSome(s[..|s| - 1], f, a) || a in f(s[|s| - 1])
  {
    var p := s[..|s| - 1];
    if InSome(p, f, a) {
      var i :| 0 <= i < |p| && a in f(p[i]);
      assert s[i] == p[i];
    }
    if InSome(s, f, a) {
      var i :| 0 <= i < |s| && a in f(s[i]);
      if i < |p| {
        assert p[i] == s[i];
      }
    }
  }

  /** `b => AlertasDe(periodoMes, b)`. */
  function RowAlerts(periodoMes: string): BalanceGeneral -> seq<Alerta> {
    b => AlertasDe(periodoMes, b)
  }

  /** `a` is an alert of one of the rows. */
  predicate RowAlert(periodoMes: string, balances: seq<BalanceGeneral>, a: Alerta) {
    InSome(balances, RowAlerts(periodoMes), a)
  }

  /** The alerts are exactly those of the rows. */
  lemma {:induction false} GenerarAlertasRows(periodoMes: string, balances: seq<BalanceGeneral>)
    ensures forall a :: a in GenerarAlertas(periodoMes, balances) <==> RowAlert(periodoMes, balances, a)
  {
    if |balances| > 0 {
      var p := balances[..|balances| - 1];
      GenerarAlertasRows(periodoMes, p);
      forall a
        ensures a in GenerarAlertas(periodoMes, balances) <==> RowAlert(periodoMes, balances, a)
      {
        InSomeStep(balances, RowAlerts(periodoMes), a);
      }
    }
  }

  /** Different (boca, kind) pairs give different ids: the last three
      characters tell the kinds apart, and then the bocas are what is left. */
  lemma AlertIdInjective(id1: string, t1: TipoAlerta, id2: string, t2: TipoAlerta, periodoMes: string)
    requires t1 != AumentoSubito && t2 != AumentoSubito
    requires AlertId(id1, periodoMes, Sufijo(t1)) == AlertId(id2, periodoMes, Sufijo(t2))
    ensures id1 == id2 && t1 == t2
  {
    var s := AlertId(id1, periodoMes, Sufijo(t1));
    var n := |s|;
    assert s[n - 3..] == Sufijo(t1)[|Sufijo(t1)| - 3..];
    assert s[n - 3..] == Sufijo(t2)[|Sufijo(t2)| - 3..];
    assert t1 == t2;
    assert |id1| == |id2|;
    assert id1 == s[7..7 + |id1|] == id2;
  }

  /** The alerts of one row are of different kinds. */
  lemma AlertasDeKinds(periodoMes: string, b: BalanceGeneral)
    ensures var r := AlertasDe(periodoMes, b);
      forall i, j :: 0 <= i < j < |r| ==> r[i].tipoAlerta != r[j].tipoAlerta
  {
  }

  /** No two alerts share an id. */
  predicate UniqueIds(alerts: seq<Alerta>) {
    forall i, j :: 0 <= i < j < |alerts| ==> alerts[i].id != alerts[j].id
  }

  /** With one row per boca (a single month of the general balance), every
      alert id is different. */
  lemma {:induction false} AlertIdsUnique(periodoMes: string, balances: seq<BalanceGeneral>)
    requires forall i, j :: 0 <= i < j < |balances| ==> balances[i].idBoca != balances[j].idBoca
    ensures UniqueIds(GenerarAlertas(periodoMes, balances))
  {
    if |balances| > 0 {
      var p := balances[..|balances| - 1];
      var b := balances[|balances| - 1];
      AlertIdsUnique(periodoMes, p);
      GenerarAlertasRows(periodoMes, p);
      var prev := GenerarAlertas(periodoMes, p);
      var own := AlertasDe(periodoMes, b);
      var r := prev + own;
      forall i, j | 0 <= i < j < |r|
        ensures r[i].id != r[j].id
      {
        if j >= |prev| {
          assert r[j] in own;
          if i < |prev| {
            assert r[i] in prev;
            var k :| 0 <= k < |p| && r[i] in RowAlerts(periodoMes)(p[k]);
            assert r[i] in AlertasDe(periodoMes, p[k]);
            assert p[k] == balances[k];
            assert r[i].idBoca == balances[k].idBoca && r[j].idBoca == balances[|balances| - 1].idBoca;
            assert r[i].idBoca != r[j].idBoca;
            if r[i].id == r[j].id {
              AlertIdInjective(r[i].idBoca, r[i].tipoAlerta, r[j].idBoca, r[j].tipoAlerta, periodoMes);
            }
            assert r[i].id != r[j].id;
          } else {
            assert r[i] == own[i - |prev|] && r[j] == own[j - |prev|];
            AlertasDeKinds(periodoMes, b);
            if r[i].id == r[j].id {
              AlertIdInjective(r[i].idBoca, r[i].tipoAlerta, r[j].idBoca, r[j].tipoAlerta, periodoMes);
            }
          }
        } else {
          assert r[i] == prev[i] && r[j] == prev[j];
          assert prev[i].id != prev[j].id;
        }
      }
    }
  }

  // ---------------------------------------------------------------------
  // Loss analysis

  /** An `AnalisisPerdida`: the balance row spread into it, plus the
      per-customer figures. */
  datatype AnalisisPerdida = AnalisisPerdida(
    balance: BalanceGeneral,
    cantidadUsuarios: nat,
    kwhPromedioUsuario: real,
    factorCarga: real,
    demandaPromedio: real)

  /** `getAnalisisPerdida`: `usuarios(idBoca)` is the count of active
      customers of the boca the database returns. */
  function GetAnalisisPerdida(balances: seq<BalanceGeneral>, usuarios: string -> nat): (r: seq<AnalisisPerdida>)
    ensures |r| == |balances|
    ensures forall i :: 0 <= i < |r| ==>
      && r[i].balance == balances[i]
      && r[i].cantidadUsuarios == usuarios(balances[i].idBoca)
      && r[i].factorCarga == 0.0 && r[i].demandaPromedio == 0.0
      && (r[i].cantidadUsuarios == 0 ==> r[i].kwhPromedioUsuario == 0.0)
      && (r[i].cantidadUsuarios > 0 ==>
            (-0.005 <= r[i].kwhPromedioUsuario
              - balances[i].kwhVendidosMes / r[i].cantidadUsuarios as real <= 0.005))
  {
    var r := seq(|balances|, i requires 0 <= i < |balances| => Analizar(balances[i], usuarios(balances[i].idBoca)));
    assert forall i :: 0 <= i < |r| ==> r[i] == Analizar(balances[i], usuarios(balances[i].idBoca));
    r
  }

  function Analizar(b: BalanceGeneral, cantidad: nat): (a: AnalisisPerdida)
    ensures a.balance == b && a.cantidadUsuarios == cantidad
    ensures a.factorCarga == 0.0 && a.demandaPromedio == 0.0
    ensures cantidad == 0 ==> a.kwhPromedioUsuario == 0.0
    ensures cantidad > 0 ==> -0.005 <= a.kwhPromedioUsuario - b.kwhVendidosMes / cantidad as real <= 0.005
  {
    AnalisisPerdida(b, cantidad,
      if cantidad > 0 then Round2(b.kwhVendidosMes / cantidad as real) else 0.0,
      0.0, 0.0)
  }
}

=== FILE: rounding.dfy ===
/** `Number(x.toFixed(p))` on exact reals. `toFixed` rounds the magnitude
    half-up and re-attaches the sign, so halves go away from zero. Binary
    floating point is not modelled: only the distance bound and the algebraic
    facts below are relied on elsewhere. */
module Rounding {

  /** The integer nearest to `y`, halves away from zero. */
  function RoundHalfAway(y: real): (n: int)
    ensures -0.5 <= n as real - y <= 0.5
    ensures y >= 0.0 ==> n >= 0
    ensures y <= 0.0 ==> n <= 0
  {
    if y >= 0.0 then (y + 0.5).Floor else -((-y + 0.5).Floor)
  }

  function Pow10(p: nat): (r: nat)
    ensures r >= 1
  {
    if p == 0 then 1 else 10 * Pow10(p - 1)
  }

  /** `Number(x.toFixed(p))`. */
  function RoundTo(x: real, p: nat): (r: real)
    ensures -0.5 / (Pow10(p) as real) <= r - x <= 0.5 / (Pow10(p) as real)
    ensures x >= 0.0 ==> r >= 0.0
  {
    var scale := Pow10(p) as real;
    var n := RoundHalfAway(x * scale);
    DivideBound(n as real - x * scale, scale);
    assert (n as real - x * scale) / scale == n as real / scale - x;
    n as real / scale
  }

  lemma DivideBound(a: real, d: real)
    requires d > 0.0 && -0.5 <= a <= 0.5
    ensures -0.5 / d <= a / d <= 0.5 / d
  {
    var q, h := a / d, 0.5 / d;
    assert (h - q) * d == 0.5 - a;
    assert (q + h) * d == a + 0.5;
    SignOfQuotient(h - q, d);
    SignOfQuotient(q + h, d);
  }

  lemma SignOfQuotient(q: real, d: real)
    requires d > 0.0 && q * d >= 0.0
    ensures q >= 0.0
  {
  }

  /** `Number(x.toFixed(2))`: within half a hundredth of `x`. */
  function Round2(x: real): (r: real)
    ensures -0.005 <= r - x <= 0.005
  {
    RoundHalfAway(x * 100.0) as real / 100.0
  }

  /** `Round2` is `RoundTo` at two decimals. */
  lemma Round2IsRoundTo(x: real)
    ensures Round2(x) == RoundTo(x, 2)
  {
    assert Pow10(2) == 100;
  }

  /** A value already in hundredths is left unchanged. */
  lemma Round2Exact(k: int)
    ensures Round2(k as real / 100.0) == k as real / 100.0
  {
    assert (k as real / 100.0) * 100.0 == k as real;
    RoundHalfAwayInt(k);
  }

  lemma RoundHalfAwayInt(k: int)
    ensures RoundHalfAway(k as real) == k
  {
    if k >= 0 {
      assert (k as real + 0.5).Floor == k;
    } else {
      assert (-(k as real) + 0.5).Floor == -k;
    }
  }

  lemma {:induction false} Round2Monotone(x: real, y: real)
    requires x <= y
    ensures Round2(x) <= Round2(y)
  {
    RoundHalfAwayMonotone(x * 100.0, y * 100.0);
  }

  lemma {:induction false} RoundHalfAwayMonotone(a: real, b: real)
    requires a <= b
    ensures RoundHalfAway(a) <= RoundHalfAway(b)
  {
    if a >= 0.0 {
      FloorMonotone(a + 0.5, b + 0.5);
    } else if b < 0.0 {
      FloorMonotone(-b + 0.5, -a + 0.5);
    }
  }

  lemma FloorMonotone(a: real, b: real)
    requires a <= b
    ensures a.Floor <= b.Floor
  {
  }

  /** Rounding commutes with negation, as `toFixed` does. */
  lemma Round2Odd(x: real)
    ensures Round2(-x) == -Round2(x)
  {
  }

  /** Rounding keeps the sign, and a value at least half a hundredth below
      zero stays strictly negative. */
  lemma Round2Sign(x: real)
    ensures x >= 0.0 ==> Round2(x) >= 0.0
    ensures x <= 0.0 ==> Round2(x) <= 0.0
    ensures x <= -0.005 ==> Round2(x) <= -0.01
  {
  }
}

=== FILE: service_period.dfy ===
/** The private period helpers at the top of
    `src/modules/analytics/service.ts`. They re-implement three functions of
    period.ts by other means (a `Date` day-zero trick, `parseInt` of the
    `split('-')` pieces, a `split('_')` without a regular expression); the
    lemmas here show each agrees with its period.ts counterpart. The loss
    helpers of that file are textually the same as period.ts and are modelled
    once, in `Period`. */
module ServicePeriod {
  import opened Wrappers
  import opened Strings
  import Period

  // ---------------------------------------------------------------------
  // Day counts through the proleptic Gregorian day line

  /** Days in the March-based years before year `ey` of the day line. */
  function YearBase(ey: int): int {
    365 * ey + ey / 4 - ey / 100 + ey / 400
  }

  /** Days from a fixed epoch to the first day of month `m` of year `y`,
      counting years from March so that a leap day closes its year. */
  function FirstDayNumber(y: int, m: int): int
    requires 1 <= m <= 12
  {
    var ey := if m <= 2 then y - 1 else y;
    var mp := (m + 9) % 12;
    YearBase(ey) + (153 * mp + 2) / 5
  }

  /** `new Date(year, month, 0).getDate()`: day zero of the next month is the
      last day of this one, so its day of the month is the distance from the
      first of this month to the first of the next. */
  function GetDaysInMonth(year: int, month: int): (d: int)
    requires 1 <= month <= 12
  {
    if month == 12 then FirstDayNumber(year + 1, 1) - FirstDayNumber(year, 12)
    else FirstDayNumber(year, month + 1) - FirstDayNumber(year, month)
  }

  /** The March-based year that ends in February of `y` has 366 days exactly
      when `y` is a Gregorian leap year. */
  lemma YearBaseStep(y: int)
    ensures YearBase(y) - YearBase(y - 1) == if Period.IsLeapYear(y) then 366 else 365
  {
    FloorDivStep(y);
  }

  /** Moving back one year changes each leap-rule quotient by one exactly
      when the year is a multiple of its divisor. */
  lemma FloorDivStep(y: int)
    ensures y / 4 - (y - 1) / 4 == if y % 4 == 0 then 1 else 0
    ensures y / 100 - (y - 1) / 100 == if y % 100 == 0 then 1 else 0
    ensures y / 400 - (y - 1) / 400 == if y % 400 == 0 then 1 else 0
  {
  }

  /** The day-line count and the month table of period.ts agree. */
  lemma {:induction false} DaysInMonthAgree(year: int, month: int)
    requires 1 <= month <= 12
    ensures GetDaysInMonth(year, month) == Period.GetDaysInMonth(year, month)
  {
    if month == 2 {
      YearBaseStep(year);
    }
  }

  // ---------------------------------------------------------------------
  // Month validity through parseInt

  /** `parseInt` of one `split('-')` piece, where an empty piece reads as '0'. */
  function PieceValue(p: string): ParsedInt {
    ParseInt(if |p| == 0 then "0" else p)
  }

  /** `isValidPeriodoMes` of service.ts: the regular expression, then
      `parseInt` of both `split('-')` pieces, range-checked. */
  predicate IsValidPeriodoMes(s: string) {
    && Period.MonthFormat(s)
    && var parts := Split(s, '-');
    && |parts| == 2
    && var year := PieceValue(parts[0]);
    && var month := PieceValue(parts[1]);
    && year.Num? && month.Num?
    && 2020 <= year.n <= 2030 && 1 <= month.n <= 12
  }

  lemma SplitMonth(s: string)
    requires Period.MonthFormat(s)
    ensures Split(s, '-') == [s[..4], s[5..]]
  {
    assert s == Join([s[..4], s[5..]], '-');
    SplitJoin([s[..4], s[5..]], '-');
  }

  /** Both month checks accept exactly the same strings. */
  lemma {:induction false} IsValidPeriodoMesAgree(s: string)
    ensures IsValidPeriodoMes(s) <==> Period.IsValidPeriodoMes(s)
  {
    if Period.MonthFormat(s) {
      SplitMonth(s);
      PiecesOfMonth(s);
    }
  }

  lemma PiecesOfMonth(s: string)
    requires Period.MonthFormat(s)
    ensures PieceValue(s[..4]) == Num(Period.YearOf(s))
    ensures PieceValue(s[5..]) == Num(Period.MonthOf(s))
  {
    YearPiece(s);
    MonthPiece(s);
  }

  lemma YearPiece(s: string)
    requires Period.MonthFormat(s)
    ensures PieceValue(s[..4]) == Num(Period.YearOf(s))
  {
    var y := s[..4];
    assert y[0] == s[0] && y[1] == s[1] && y[2] == s[2] && y[3] == s[3];
    assert AllDigits(y);
    PieceOfDigits(y);
    FourDigits(y);
  }

  lemma MonthPiece(s: string)
    requires Period.MonthFormat(s)
    ensures PieceValue(s[5..]) == Num(Period.MonthOf(s))
  {
    var m := s[5..];
    assert m == [s[5], s[6]];
    assert AllDigits(m);
    PieceOfDigits(m);
    TwoDigits(m);
    assert DigitsValue(m) == Period.MonthOf(s);
  }

  lemma PieceOfDigits(p: string)
    requires |p| > 0 && AllDigits(p)
    ensures PieceValue(p) == Num(DigitsValue(p))
  {
    ParseIntOfDigits(p);
  }

  /** Year and month of a month key valid for service.ts, read as that file
      reads them: `parseInt` of the `split('-')` pieces. */
  function MonthFields(m: string): (ym: (int, int))
    requires IsValidPeriodoMes(m)
    ensures 2020 <= ym.0 <= 2030 && 1 <= ym.1 <= 12
  {
    var parts := Split(m, '-');
    (PieceValue(parts[0]).n, PieceValue(parts[1]).n)
  }

  /** Read either way, the fields are those of period.ts. */
  lemma {:induction false} MonthFieldsAgree(m: string)
    requires IsValidPeriodoMes(m)
    ensures Period.IsValidPeriodoMes(m)
    ensures MonthFields(m) == (Period.YearOf(m), Period.MonthOf(m))
  {
    IsValidPeriodoMesAgree(m);
    SplitMonth(m);
    PiecesOfMonth(m);
  }

  /** Day count of a month key, computed as `mensualizeVentaBimestral`
      computes it. */
  function MonthDays(m: string): (d: int)
    requires IsValidPeriodoMes(m)
    ensures 28 <= d <= 31
  {
    var (year, month) := MonthFields(m);
    DaysInMonthAgree(year, month);
    GetDaysInMonth(year, month)
  }

  /** That day count is the one period.ts gives for the same key. */
  lemma {:induction false} MonthDaysAgree(m: string)
    requires IsValidPeriodoMes(m)
    ensures Period.IsValidPeriodoMes(m)
    ensures MonthDays(m) == Period.GetDaysInMonth(Period.YearOf(m), Period.MonthOf(m))
  {
    MonthFieldsAgree(m);
    var (year, month) := MonthFields(m);
    DaysInMonthAgree(year, month);
  }

  lemma FourDigits(y: string)
    requires |y| == 4 && AllDigits(y)
    ensures DigitsValue(y) == 1000 * DigitValue(y[0]) + 100 * DigitValue(y[1]) + 10 * DigitValue(y[2]) + DigitValue(y[3])
  {
    var p3, p2, p1 := y[..3], y[..2], y[..1];
    assert p3[..2] == p2 && p2[..1] == p1 && p1[..0] == [];
    assert DigitsValue(p1) == DigitValue(y[0]);
    assert DigitsValue(p2) == 10 * DigitValue(y[0]) + DigitValue(y[1]);
    assert DigitsValue(p3) == 100 * DigitValue(y[0]) + 10 * DigitValue(y[1]) + DigitValue(y[2]);
  }

  lemma TwoDigits(m: string)
    requires |m| == 2 && AllDigits(m)
    ensures DigitsValue(m) == 10 * DigitValue(m[0]) + DigitValue(m[1])
  {
    var p1 := m[..1];
    assert p1[..0] == [];
    assert DigitsValue(p1) == DigitValue(m[0]);
  }

  // ---------------------------------------------------------------------
  // Bimestre split

  datatype BimestreError = WrongPartCount | InvalidHalves

  /** `bimestreToMensual` of service.ts: split on '_', demand exactly two
      non-empty valid halves; no regular expression, no adjacency check. */
  function BimestreToMensual(s: string): (r: Result<(string, string), BimestreError>)
    ensures r.Ok? ==> IsValidPeriodoMes(r.value.0) && IsValidPeriodoMes(r.value.1)
    ensures r.Ok? ==> r.value.0 + "_" + r.value.1 == s
  {
    var parts := Split(s, '_');
    if |parts| != 2 then Err(WrongPartCount)
    else if |parts[0]| == 0 || |parts[1]| == 0 || !IsValidPeriodoMes(parts[0]) || !IsValidPeriodoMes(parts[1]) then
      Err(InvalidHalves)
    else Ok((parts[0], parts[1]))
  }

  /** The split-based parse accepts the same strings as the regular-expression
      based one of period.ts and returns the same halves. */
  lemma {:induction false} BimestreToMensualAgree(s: string)
    ensures BimestreToMensual(s).Ok? <==> Period.BimestreToMensual(s).Ok?
    ensures BimestreToMensual(s).Ok? ==> BimestreToMensual(s).value == Period.BimestreToMensual(s).value
  {
    var parts := Split(s, '_');
    if |parts| == 2 {
      IsValidPeriodoMesAgree(parts[0]);
      IsValidPeriodoMesAgree(parts[1]);
      assert s == parts[0] + "_" + parts[1];
      if Period.IsValidPeriodoMes(parts[0]) && Period.IsValidPeriodoMes(parts[1]) {
        assert s[..7] == parts[0] && s[8..] == parts[1];
      }
    }
    if Period.IsValidPeriodoBimestre(s) {
      Period.SplitBimestre(s);
      IsValidPeriodoMesAgree(s[..7]);
      IsValidPeriodoMesAgree(s[8..]);
    }
  }
}

=== FILE: sorting.dfy ===
/** `Array.prototype.sort` with a comparator, as the analytics service uses
    it. The ECMAScript sort is stable, so it is modelled by a stable
    insertion sort: `le(a, b)` is "the comparator does not put `b` before `a`"
    (`cmp(a, b) <= 0`), and an element is placed before the first element it
    may precede, which keeps equal elements in their input order. */
module Sorting {

  /** `le` is total and transitive: a total preorder. */
  ghost predicate TotalPreorder<T(!new)>(le: (T, T) -> bool) {
    && (forall a, b :: le(a, b) || le(b, a))
    && (forall a, b, c :: le(a, b) && le(b, c) ==> le(a, c))
  }

  /** Every element may precede every later one. */
  predicate SortedBy<T>(s: seq<T>, le: (T, T) -> bool) {
    forall i, j :: 0 <= i < j < |s| ==> le(s[i], s[j])
  }

  /** Sorted by `le`, and elements that `le` cannot tell apart are in `tie`
      order: what a stable sort of a `tie`-sorted input produces. */
  predicate StablySortedBy<T>(s: seq<T>, le: (T, T) -> bool, tie: (T, T) -> bool) {
    forall i, j :: 0 <= i < j < |s| ==> le(s[i], s[j]) && (le(s[j], s[i]) ==> tie(s[i], s[j]))
  }

  /** `x` placed before the first element it may precede. */
  function Insert<T>(x: T, s: seq<T>, le: (T, T) -> bool): (r: seq<T>)
    ensures multiset(r) == multiset(s) + multiset{x}
    ensures |r| == |s| + 1
  {
    if |s| == 0 then [x]
    else if le(x, s[0]) then [x] + s
    else
      assert s == [s[0]] + s[1..];
      [s[0]] + Insert(x, s[1..], le)
  }

  /** The stable sort: a permutation of the input. */
  function Sort<T>(s: seq<T>, le: (T, T) -> bool): (r: seq<T>)
    ensures multiset(r) == multiset(s)
    ensures |r| == |s|
  {
    if |s| == 0 then []
    else
      assert s == [s[0]] + s[1..];
      Insert(s[0], Sort(s[1..], le), le)
  }

  /** A stable sort of a `tie`-sorted input is sorted by `le`, with ties in
      `tie` order. */
  lemma {:induction false} SortStable<T(!new)>(s: seq<T>, le: (T, T) -> bool, tie: (T, T) -> bool)
    requires TotalPreorder(le)
    requires SortedBy(s, tie)
    ensures StablySortedBy(Sort(s, le), le, tie)
  {
    if |s| > 0 {
      var rest := Sort(s[1..], le);
      SortStable(s[1..], le, tie);
      forall y | y in rest
        ensures tie(s[0], y)
      {
        assert y in multiset(rest);
        assert y in multiset(s[1..]);
        var k :| 0 <= k < |s[1..]| && s[1..][k] == y;
        assert s[k + 1] == y;
      }
      InsertStable(s[0], rest, le, tie);
    }
  }

  lemma {:induction false} InsertStable<T(!new)>(x: T, s: seq<T>, le: (T, T) -> bool, tie: (T, T) -> bool)
    requires TotalPreorder(le)
    requires StablySortedBy(s, le, tie)
    requires forall y :: y in s ==> tie(x, y)
    ensures StablySortedBy(Insert(x, s, le), le, tie)
  {
    if |s| > 0 && !le(x, s[0]) {
      var rest := Insert(x, s[1..], le);
      InsertStable(x, s[1..], le, tie);
      forall j | 0 <= j < |rest|
        ensures le(s[0], rest[j]) && (le(rest[j], s[0]) ==> tie(s[0], rest[j]))
      {
        assert rest[j] in multiset(rest);
        assert rest[j] in multiset(s[1..]) + multiset{x};
        if rest[j] == x {
          assert le(s[0], x);
        } else {
          assert rest[j] in multiset(s[1..]);
          var k :| 0 <= k < |s[1..]| && s[1..][k] == rest[j];
          assert s[k + 1] == rest[j];
        }
      }
      ConsStable(s[0], rest, le, tie);
    } else if |s| > 0 {
      forall j | 0 <= j < |s|
        ensures le(x, s[j]) && (le(s[j], x) ==> tie(x, s[j]))
      {
        assert s[0] in s && s[j] in s;
        if j > 0 {
          assert le(s[0], s[j]);
        }
      }
      ConsStable(x, s, le, tie);
    }
  }

  /** An element that may precede every element of a stably sorted
      sequence, and is in `tie` order with those it cannot be told apart
      from, may go in front of it. */
  lemma ConsStable<T>(h: T, rest: seq<T>, le: (T, T) -> bool, tie: (T, T) -> bool)
    requires StablySortedBy(rest, le, tie)
    requires forall j :: 0 <= j < |rest| ==> le(h, rest[j]) && (le(rest[j], h) ==> tie(h, rest[j]))
    ensures StablySortedBy([h] + rest, le, tie)
  {
    var r := [h] + rest;
    assert forall j :: 0 < j < |r| ==> r[j] == rest[j - 1];
  }

  /** What holds of every element holds of every element of the sorted
      sequence. */
  lemma {:induction false} SortPreserves<T>(s: seq<T>, le: (T, T) -> bool, p: T -> bool)
    requires forall i :: 0 <= i < |s| ==> p(s[i])
    ensures forall i :: 0 <= i < |Sort(s, le)| ==> p(Sort(s, le)[i])
  {
    var r := Sort(s, le);
    forall i | 0 <= i < |r|
      ensures p(r[i])
    {
      assert r[i] in multiset(s);
      var j :| 0 <= j < |s| && s[j] == r[i];
    }
  }

  /** In a sorted sequence every element of a prefix may precede every
      element left after it. */
  lemma PrefixDominates<T>(s: seq<T>, le: (T, T) -> bool, n: nat)
    requires SortedBy(s, le)
    requires n <= |s|
    ensures forall i, x :: 0 <= i < n && x in multiset(s[n..]) ==> le(s[i], x)
  {
    forall i, x | 0 <= i < n && x in multiset(s[n..])
      ensures le(s[i], x)
    {
      var rest := s[n..];
      assert x in rest;
      var j :| 0 <= j < |rest| && rest[j] == x;
      assert s[n + j] == x;
    }
  }

  /** Cutting a sorted sequence after `n` elements: the prefix is part of
      the sequence, and everything cut off may follow every kept element. */
  lemma SortedSplit<T>(s: seq<T>, le: (T, T) -> bool, n: nat)
    requires SortedBy(s, le)
    requires n <= |s|
    ensures multiset(s[..n]) <= multiset(s)
    ensures forall i, x :: 0 <= i < n && x in multiset(s) - multiset(s[..n]) ==> le(s[i], x)
  {
    assert s == s[..n] + s[n..];
    assert multiset(s) - multiset(s[..n]) == multiset(s[n..]);
    PrefixDominates(s, le, n);
  }

  /** A stably sorted sequence is sorted. */
  lemma StablySortedIsSorted<T>(s: seq<T>, le: (T, T) -> bool, tie: (T, T) -> bool)
    requires StablySortedBy(s, le, tie)
    ensures SortedBy(s, le)
  {
  }
}

=== FILE: strings.dfy ===
/** The JavaScript string primitives the source relies on: `trim`, `\s`,
    case mapping, `startsWith`, `includes`, `split` on one character and the
    code-unit ordering behind `<` and `>=`, which also stands for
    `localeCompare`. */
module Strings {
  import opened Wrappers

  /** ECMAScript WhiteSpace and LineTerminator code points: what `trim()`
      strips and what the regular-expression class `\s` matches. */
  predicate IsWhitespace(c: char) {
    || c == '\t' || c == '\n' || c == '\U{B}' || c == '\U{C}' || c == '\r' || c == ' '
    || c == '\U{A0}' || c == '\U{1680}' || ('\U{2000}' <= c <= '\U{200A}')
    || c == '\U{2028}' || c == '\U{2029}' || c == '\U{202F}' || c == '\U{205F}'
    || c == '\U{3000}' || c == '\U{FEFF}'
  }

  predicate IsDigit(c: char) {
    '0' <= c <= '9'
  }

  function DigitValue(c: char): (d: int)
    requires IsDigit(c)
    ensures 0 <= d <= 9
  {
    c as int - '0' as int
  }

  function DigitChar(d: int): (c: char)
    requires 0 <= d <= 9
    ensures IsDigit(c) && DigitValue(c) == d
  {
    ('0' as int + d) as char
  }

  predicate AllDigits(s: string) {
    forall i :: 0 <= i < |s| ==> IsDigit(s[i])
  }

  /** A JavaScript number produced by `parseInt`: an integer or `NaN`. */
  datatype ParsedInt = Num(n: int) | NaN

  /** The value of a run of decimal digits, most significant first. */
  function DigitsValue(ds: string): (v: nat)
    requires AllDigits(ds)
  {
    if |ds| == 0 then 0 else DigitsValue(ds[..|ds| - 1]) * 10 + DigitValue(ds[|ds| - 1])
  }

  /** The longest prefix of `s` made of decimal digits. */
  function DigitPrefix(s: string): (p: string)
    ensures |p| <= |s| && p == s[..|p|] && AllDigits(p)
    ensures |p| == |s| || !IsDigit(s[|p|])
  {
    if |s| > 0 && IsDigit(s[0]) then
      var rest := DigitPrefix(s[1..]);
      assert [s[0]] + rest == s[..|rest| + 1];
      [s[0]] + rest
    else []
  }

  /** `parseInt(s, 10)`: skip leading whitespace, read an optional sign and
      then as many decimal digits as follow; no digit at all is `NaN`. */
  function ParseInt(s: string): ParsedInt {
    var t := TrimStart(s);
    var negative := |t| > 0 && t[0] == '-';
    var unsigned := if |t| > 0 && (t[0] == '-' || t[0] == '+') then t[1..] else t;
    var digits := DigitPrefix(unsigned);
    if |digits| == 0 then NaN
    else if negative then Num(-(DigitsValue(digits) as int))
    else Num(DigitsValue(digits))
  }

  /** A non-empty run of digits parses to its value. */
  lemma ParseIntOfDigits(s: string)
    requires AllDigits(s) && |s| > 0
    ensures ParseInt(s) == Num(DigitsValue(s))
  {
    assert IsDigit(s[0]);
    assert TrimStart(s) == s;
    DigitPrefixOfDigits(s);
  }

  lemma DigitPrefixOfDigits(s: string)
    requires AllDigits(s)
    ensures DigitPrefix(s) == s
  {
  }

  /** Neither end of `s` is whitespace. */
  predicate NoEdgeWhitespace(s: string) {
    |s| == 0 || (!IsWhitespace(s[0]) && !IsWhitespace(s[|s| - 1]))
  }

  /** `s.trimStart()`: the suffix left after dropping leading whitespace. */
  function TrimStart(s: string): (r: string)
    ensures |r| <= |s| && r == s[|s| - |r|..]
    ensures |r| == 0 || !IsWhitespace(r[0])
    ensures forall i :: 0 <= i < |s| - |r| ==> IsWhitespace(s[i])
  {
    if |s| > 0 && IsWhitespace(s[0]) then TrimStart(s[1..]) else s
  }

  /** `s.trimEnd()`: the prefix left after dropping trailing whitespace. */
  function TrimEnd(s: string): (r: string)
    ensures |r| <= |s| && r == s[..|r|]
    ensures |r| == 0 || !IsWhitespace(r[|r| - 1])
    ensures forall i :: |r| <= i < |s| ==> IsWhitespace(s[i])
  {
    if |s| > 0 && IsWhitespace(s[|s| - 1]) then TrimEnd(s[..|s| - 1]) else s
  }

  /** `s.trim()`. */
  function Trim(s: string): (r: string)
    ensures NoEdgeWhitespace(r)
    ensures |r| <= |s|
  {
    var t := TrimStart(s);
    var r := TrimEnd(t);
    assert |r| > 0 ==> r[0] == t[0];
    r
  }

  lemma TrimOfTrimmed(s: string)
    requires NoEdgeWhitespace(s)
    ensures Trim(s) == s
  {
  }

  /** Surrounding whitespace of any length is exactly what `trim` removes. */
  lemma {:induction false} TrimSurrounded(pre: string, w: string, post: string)
    requires forall i :: 0 <= i < |pre| ==> IsWhitespace(pre[i])
    requires forall i :: 0 <= i < |post| ==> IsWhitespace(post[i])
    requires |w| > 0 && NoEdgeWhitespace(w)
    ensures Trim(pre + w + post) == w
  {
    assert pre + w + post == pre + (w + post);
    TrimStartSkips(pre, w + post);
    TrimEndSkips(w, post);
  }

  lemma {:induction false} TrimStartSkips(pre: string, s: string)
    requires forall i :: 0 <= i < |pre| ==> IsWhitespace(pre[i])
    requires |s| > 0 && !IsWhitespace(s[0])
    ensures TrimStart(pre + s) == s
  {
    if |pre| > 0 {
      assert (pre + s)[1..] == pre[1..] + s;
      TrimStartSkips(pre[1..], s);
    }
  }

  /** The non-whitespace characters of `s`, in order: what whitespace
      normalising must not change. */
  function NonWs(s: string): string {
    if |s| == 0 then "" else (if IsWhitespace(s[0]) then "" else [s[0]]) + NonWs(s[1..])
  }

  lemma {:induction false} NonWsAppend(a: string, b: string)
    ensures NonWs(a + b) == NonWs(a) + NonWs(b)
  {
    if |a| > 0 {
      assert (a + b)[1..] == a[1..] + b;
      NonWsAppend(a[1..], b);
    } else {
      assert a + b == b;
    }
  }

  lemma {:induction false} NonWsOfWhitespace(w: string)
    requires forall i :: 0 <= i < |w| ==> IsWhitespace(w[i])
    ensures NonWs(w) == ""
  {
    if |w| > 0 {
      NonWsOfWhitespace(w[1..]);
    }
  }

  /** A prefix keeps a prefix of the non-whitespace characters. */
  lemma NonWsPrefix(s: string, k: nat)
    requires k <= |s|
    ensures NonWs(s[..k]) <= NonWs(s)
  {
    assert s == s[..k] + s[k..];
    NonWsAppend(s[..k], s[k..]);
  }

  /** Trimming drops whitespace only. */
  lemma TrimKeepsNonWs(s: string)
    ensures NonWs(TrimStart(s)) == NonWs(s)
    ensures NonWs(TrimEnd(s)) == NonWs(s)
    ensures NonWs(Trim(s)) == NonWs(s)
  {
    TrimStartKeepsNonWs(s);
    TrimEndKeepsNonWs(s);
    TrimEndKeepsNonWs(TrimStart(s));
  }

  lemma TrimStartKeepsNonWs(s: string)
    ensures NonWs(TrimStart(s)) == NonWs(s)
  {
    var r := TrimStart(s);
    assert s == s[..|s| - |r|] + r;
    NonWsAppend(s[..|s| - |r|], r);
    NonWsOfWhitespace(s[..|s| - |r|]);
  }

  lemma TrimEndKeepsNonWs(s: string)
    ensures NonWs(TrimEnd(s)) == NonWs(s)
  {
    var r := TrimEnd(s);
    assert s == r + s[|r|..];
    NonWsAppend(r, s[|r|..]);
    NonWsOfWhitespace(s[|r|..]);
  }

  lemma {:induction false} TrimEndSkips(s: string, post: string)
    requires forall i :: 0 <= i < |post| ==> IsWhitespace(post[i])
    requires |s| > 0 && !IsWhitespace(s[|s| - 1])
    ensures TrimEnd(s + post) == s
  {
    if |post| > 0 {
      assert (s + post)[..|s + post| - 1] == s + post[..|post| - 1];
      TrimEndSkips(s, post[..|post| - 1]);
    }
  }

  /** `toLowerCase` on one character, for Basic Latin and Latin-1. */
  function ToLowerChar(c: char): char {
    if 'A' <= c <= 'Z' || ('\U{C0}' <= c <= '\U{DE}' && c != '\U{D7}') then (c as int + 32) as char else c
  }

  /** `toUpperCase` on one character, for Basic Latin and Latin-1: the two
      Latin-1 letters whose capital lies outside Latin-1 ('µ' and 'ÿ') are
      mapped there; 'ß', whose capital is the two letters "SS", is kept. */
  function ToUpperChar(c: char): char {
    if 'a' <= c <= 'z' || ('\U{E0}' <= c <= '\U{FE}' && c != '\U{F7}') then (c as int - 32) as char
    else if c == '\U{B5}' then '\U{39C}'
    else if c == '\U{FF}' then '\U{178}'
    else c
  }

  function ToLower(s: string): (r: string)
    ensures |r| == |s| && forall i :: 0 <= i < |s| ==> r[i] == ToLowerChar(s[i])
  {
    seq(|s|, i requires 0 <= i < |s| => ToLowerChar(s[i]))
  }

  function ToUpper(s: string): (r: string)
    ensures |r| == |s| && forall i :: 0 <= i < |s| ==> r[i] == ToUpperChar(s[i])
  {
    seq(|s|, i requires 0 <= i < |s| => ToUpperChar(s[i]))
  }

  /** Case mapping neither creates nor removes whitespace. */
  lemma CaseKeepsWhitespace(c: char)
    ensures IsWhitespace(ToUpperChar(c)) <==> IsWhitespace(c)
    ensures IsWhitespace(ToLowerChar(c)) <==> IsWhitespace(c)
  {
  }

  lemma UpperIdempotent(c: char)
    ensures ToUpperChar(ToUpperChar(c)) == ToUpperChar(c)
  {
  }

  /** `s.startsWith(p)`. */
  predicate StartsWith(s: string, p: string) {
    |p| <= |s| && s[..|p|] == p
  }

  /** `s.includes(sub)`. */
  predicate Contains(s: string, sub: string)
    decreases |s|
  {
    StartsWith(s, sub) || (|s| > 0 && Contains(s[1..], sub))
  }

  function IndexOf(s: string, c: char): (r: Option<nat>)
    ensures r.Some? ==> r.value < |s| && s[r.value] == c && c !in s[..r.value]
    ensures r.None? <==> c !in s
  {
    if |s| == 0 then None
    else if s[0] == c then Some(0)
    else match IndexOf(s[1..], c)
      case None => None
      case Some(i) => Some(i + 1)
  }

  /** `s.split(sep)` for a one-character separator. */
  function Split(s: string, sep: char): (parts: seq<string>)
    ensures |parts| >= 1
    ensures forall k :: 0 <= k < |parts| ==> sep !in parts[k]
    ensures Join(parts, sep) == s
    decreases |s|
  {
    match IndexOf(s, sep)
    case None => [s]
    case Some(i) =>
      var rest := Split(s[i + 1..], sep);
      assert s == s[..i] + [sep] + s[i + 1..];
      [s[..i]] + rest
  }

  /** `parts.join(sep)`. */
  function Join(parts: seq<string>, sep: char): string
    requires |parts| >= 1
  {
    if |parts| == 1 then parts[0] else parts[0] + [sep] + Join(parts[1..], sep)
  }

  /** Splitting undoes joining pieces that do not contain the separator. */
  lemma {:induction false} SplitJoin(parts: seq<string>, sep: char)
    requires |parts| >= 1
    requires forall k :: 0 <= k < |parts| ==> sep !in parts[k]
    ensures Split(Join(parts, sep), sep) == parts
  {
    if |parts| > 1 {
      var s := Join(parts, sep);
      assert s[..|parts[0]|] == parts[0];
      assert s[|parts[0]|] == sep;
      assert IndexOf(s, sep) == Some(|parts[0]|);
      assert s[|parts[0]| + 1..] == Join(parts[1..], sep);
      SplitJoin(parts[1..], sep);
    } else {
      assert IndexOf(parts[0], sep) == None;
    }
  }

  /** Code-unit lexicographic order: JavaScript's `<=` on strings. */
  predicate LexLe(a: string, b: string)
    decreases |a|
  {
    |a| == 0 || (|b| > 0 && (a[0] < b[0] || (a[0] == b[0] && LexLe(a[1..], b[1..]))))
  }

  predicate LexLt(a: string, b: string) {
    LexLe(a, b) && a != b
  }

  lemma LexLeRefl(a: string)
    ensures LexLe(a, a)
  {
  }

  lemma LexLeAntisym(a: string, b: string)
    requires LexLe(a, b) && LexLe(b, a)
    ensures a == b
  {
    if |a| > 0 && |b| > 0 && a[0] == b[0] {
      LexLeAntisym(a[1..], b[1..]);
      assert a == [a[0]] + a[1..];
      assert b == [b[0]] + b[1..];
    }
  }

  lemma LexLeTrans(a: string, b: string, c: string)
    requires LexLe(a, b) && LexLe(b, c)
    ensures LexLe(a, c)
  {
    if |a| > 0 && |b| > 0 && |c| > 0 && a[0] == b[0] == c[0] {
      LexLeTrans(a[1..], b[1..], c[1..]);
    }
  }

  lemma LexLeTotal(a: string, b: string)
    ensures LexLe(a, b) || LexLe(b, a)
  {
    if |a| > 0 && |b| > 0 && a[0] == b[0] {
      LexLeTotal(a[1..], b[1..]);
    }
  }
}

=== FILE: sums.dfy ===
/** `reduce((sum, x) => sum + f(x), 0)` and `filter(p).length` over
    sequences, with the facts the reports need about them. Sums are folded
    left to right, as `reduce` does. */
module Sums {
  import opened Sorting

  function SumBy<T>(s: seq<T>, f: T -> real): real {
    if |s| == 0 then 0.0 else SumBy(s[..|s| - 1], f) + f(s[|s| - 1])
  }

  function CountBy<T>(s: seq<T>, p: T -> bool): (n: nat)
    ensures n <= |s|
  {
    if |s| == 0 then 0 else CountBy(s[..|s| - 1], p) + (if p(s[|s| - 1]) then 1 else 0)
  }

  lemma {:induction false} SumCons<T>(x: T, s: seq<T>, f: T -> real)
    ensures SumBy([x] + s, f) == f(x) + SumBy(s, f)
  {
    if |s| > 0 {
      assert ([x] + s)[..|s|] == [x] + s[..|s| - 1];
      SumCons(x, s[..|s| - 1], f);
    } else {
      assert ([x] + s)[..0] == [];
    }
  }

  lemma {:induction false} SumConcat<T>(a: seq<T>, b: seq<T>, f: T -> real)
    ensures SumBy(a + b, f) == SumBy(a, f) + SumBy(b, f)
  {
    if |b| > 0 {
      assert (a + b)[..|a + b| - 1] == a + b[..|b| - 1];
      SumConcat(a, b[..|b| - 1], f);
    } else {
      assert a + b == a;
    }
  }

  /** Replacing one element changes the sum by the difference of its terms. */
  lemma {:induction false} SumUpdate<T>(s: seq<T>, i: nat, v: T, f: T -> real)
    requires i < |s|
    ensures SumBy(s[i := v], f) == SumBy(s, f) - f(s[i]) + f(v)
  {
    if i == |s| - 1 {
      assert s[i := v][..|s| - 1] == s[..|s| - 1];
    } else {
      assert s[i := v][..|s| - 1] == s[..|s| - 1][i := v];
      SumUpdate(s[..|s| - 1], i, v, f);
    }
  }

  /** Sequences whose terms agree position by position have the same sum. */
  lemma {:induction false} SumCongruent<A, B>(a: seq<A>, b: seq<B>, f: A -> real, g: B -> real)
    requires |a| == |b|
    requires forall i :: 0 <= i < |a| ==> f(a[i]) == g(b[i])
    ensures SumBy(a, f) == SumBy(b, g)
  {
    if |a| > 0 {
      SumCongruent(a[..|a| - 1], b[..|b| - 1], f, g);
    }
  }

  /** Appending one element adds its term. */
  lemma SumSnoc<T>(s: seq<T>, x: T, f: T -> real)
    ensures SumBy(s + [x], f) == SumBy(s, f) + f(x)
  {
    assert (s + [x])[..|s|] == s;
  }

  /** Every term zero, the sum is zero. */
  lemma {:induction false} SumZero<T>(s: seq<T>, f: T -> real)
    requires forall i :: 0 <= i < |s| ==> f(s[i]) == 0.0
    ensures SumBy(s, f) == 0.0
  {
    if |s| > 0 {
      SumZero(s[..|s| - 1], f);
    }
  }

  lemma {:induction false} SumInsert<T>(x: T, s: seq<T>, le: (T, T) -> bool, f: T -> real)
    ensures SumBy(Insert(x, s, le), f) == SumBy(s, f) + f(x)
  {
    if |s| == 0 {
      SumCons(x, s, f);
    } else if le(x, s[0]) {
      SumCons(x, s, f);
    } else {
      SumCons(s[0], Insert(x, s[1..], le), f);
      SumInsert(x, s[1..], le, f);
      SumCons(s[0], s[1..], f);
      assert s == [s[0]] + s[1..];
    }
  }

  /** Sorting does not change a sum. */
  lemma {:induction false} SumSort<T>(s: seq<T>, le: (T, T) -> bool, f: T -> real)
    ensures SumBy(Sort(s, le), f) == SumBy(s, f)
  {
    if |s| > 0 {
      SumSort(s[1..], le, f);
      SumInsert(s[0], Sort(s[1..], le), le, f);
      SumCons(s[0], s[1..], f);
      assert s == [s[0]] + s[1..];
    }
  }

  lemma {:induction false} CountConcat<T>(a: seq<T>, b: seq<T>, p: T -> bool)
    ensures CountBy(a + b, p) == CountBy(a, p) + CountBy(b, p)
  {
    if |b| > 0 {
      assert (a + b)[..|a + b| - 1] == a + b[..|b| - 1];
      CountConcat(a, b[..|b| - 1], p);
    } else {
      assert a + b == a;
    }
  }

  /** Sequences whose elements agree position by position on the filter
      have the same count. */
  lemma {:induction false} CountCongruent<A, B>(a: seq<A>, b: seq<B>, p: A -> bool, q: B -> bool)
    requires |a| == |b|
    requires forall i :: 0 <= i < |a| ==> p(a[i]) == q(b[i])
    ensures CountBy(a, p) == CountBy(b, q)
  {
    if |a| > 0 {
      CountCongruent(a[..|a| - 1], b[..|b| - 1], p, q);
    }
  }

  /** Terms between `lo` and `hi` give a sum between `|s|` times each. */
  lemma {:induction false} SumBetween<T>(s: seq<T>, f: T -> real, lo: real, hi: real)
    requires forall i :: 0 <= i < |s| ==> lo <= f(s[i]) <= hi
    ensures |s| as real * lo <= SumBy(s, f) <= |s| as real * hi
  {
    if |s| > 0 {
      SumBetween(s[..|s| - 1], f, lo, hi);
      assert lo <= f(s[|s| - 1]) <= hi;
    }
  }

  /** Terms between `lo` and `hi` have their mean between them too. */
  lemma MeanBetween<T>(s: seq<T>, f: T -> real, lo: real, hi: real)
    requires |s| > 0
    requires forall i :: 0 <= i < |s| ==> lo <= f(s[i]) <= hi
    ensures lo <= SumBy(s, f) / |s| as real <= hi
  {
    var n, sum := |s| as real, SumBy(s, f);
    SumBetween(s, f, lo, hi);
    var m := sum / n;
    assert m * n == sum;
    ScaleMonotone(lo, m, n);
    ScaleMonotone(m, hi, n);
  }

  /** Scaling by a positive factor keeps the order. */
  lemma ScaleMonotone(a: real, b: real, n: real)
    requires n > 0.0
    ensures a <= b <==> n * a <= n * b
  {
    if a <= b {
      assert n * b - n * a == n * (b - a);
    } else {
      assert n * a - n * b == n * (a - b);
    }
  }
}

=== FILE: wrappers.dfy ===
/** Failure-compatible result types shared by every module of the model.
    A thrown JavaScript `Error` becomes `Err`, a returned value `Ok`. */
module Wrappers {

  datatype Option<+T> = None | Some(value: T) {
    /** The value, or `default` when absent (the source's `x || 0` and `x ?? d`). */
    function GetOr(default: T): T {
      match this
      case Some(v) => v
      case None => default
    }
  }

  datatype Result<+T, +E> = Ok(value: T) | Err(error: E) {
    predicate IsFailure() {
      Err?
    }

    function PropagateFailure<U>(): Result<U, E>
      requires Err?
    {
      Err(error)
    }

    function Extract(): T
      requires Ok?
    {
      value
    }
  }
}
